=== FILE: README.md ===
# Electrochemical sensor firmware: sequencer waveforms, command packets, impedance

This project models two firmware programs for the ADuCM355 analog front end (AFE).

- `AmperometricMeasurement.c` is a command-driven potentiostat. It owns seven sequencer programs: six working-electrode programs WE3..WE8 and a warm-up program. Before each run it rewrites their placeholder words: the wait durations, the scan-rate delay and the two DAC levels. Commands arrive on the UART:
  - `n` with a 27-byte parameter packet sets the parameters;
  - a space starts a test;
  - `e` ends the loop.

  A test is an optional electrode cleaning, then cyclic voltammetry (CV, test types `a`/`c`) or square-wave voltammetry (SWV, `b`/`d`), then for `w` a water test. The water test ramps the WE2 bias DAC (the AD5683R) while WE3 is held at a constant level.
- `M355_ECSns_EIS.c` is an impedance (EIS) sweep. It holds:
  - the signal-chain configuration for one excitation frequency (six frequency bands; the DAC rate, filter and DFT settings; the waveform-generator frequency word);
  - the magnitude and phase computation from the DFT results;
  - the UART interrupt handler, which fills a 64-byte receive ring and latches wake/measure requests;
  - the main loop that acts on those requests.

The model follows these rules:

- Sequencer words are 32-bit values (`bv32`). A DAC-code word is recorded by the millivolt level it encodes.
- Each hardware run of a sequence, and each WE2 DAC write, is an event in a trace.
- C's truncating division, `uint32_t` wrap-around and float-to-integer casts are written out (`CInt`).
- Floating-point arithmetic is exact real arithmetic.
- The results of `sqrt` are inputs constrained to be the non-negative square roots. The `atan2` phases are unconstrained inputs, and of `PI` only its sign is used.

Modules:

- `CInt`: C integer semantics.
- `Templates`: the seven declared sequences.
- `Setup`: the store of sequences and the one-time set-up.
- `Packet`: the parameter packet, its decoding and a host-side encoder.
- `Delay`: the scan-rate delay.
- `Waveforms`: the test loops.
- `Tests`: the cleaning, CV, SWV and water tests.
- `Session`: the command loop.
- `SigChain`, `MagPhase`, `Uart`: the EIS program.

## Model

| member | source | states |
|---|---|---|
| CInt.Wrap32 | AmperometricMeasurement.c:713-717 | a value already in `uint32_t` range is kept by the conversion to `uint32_t` |
| CInt.WrapSummand | AmperometricMeasurement.c:713-717 | reducing a summand modulo 2^32 first does not change the `uint32_t` sum, so WE2 values moved step by step equal the start value moved by the total |
| CInt.CDiv | AmperometricMeasurement.c:720 | C's `/` on `int`: the remainder is smaller than the divisor and has the dividend's sign (truncation toward zero) |
| CInt.Trunc | AmperometricMeasurement.c:492 | a float-to-integer cast drops the fraction toward zero, keeping the sign |
| CInt.CDivOfEven | AmperometricMeasurement.c:889 | halving an even `no_step` with C division is exact |
| Templates.Template | AmperometricMeasurement.c:107-306 | every declared sequence has 22 commands. Word 7 leaves the IVS switch open. Word 14 is word 7 with IVS_STATE set. Word 18 is word 7 again |
| Templates.ElectrodeTemplatesAgree | AmperometricMeasurement.c:107-281 | the six electrode sequences differ only in their switch-matrix words 7, 14 and 18 |
| Templates.SwitchWordPattern | AmperometricMeasurement.c:107-281 | electrode n's switch word routes both mux pairs to n - 2; the rest of the word is common |
| Setup.Slot | AmperometricMeasurement.c:107-306 | every sequence id has its own slot, and the slot gives the id back |
| Setup.Put | AmperometricMeasurement.c:457-557 | replacing one sequence leaves every other sequence unchanged |
| Setup.WithLevels | AmperometricMeasurement.c:854-866 | the DAC-level words 4 and 16 receive the two levels; every other word is kept |
| Setup.WithLevelsTwice | AmperometricMeasurement.c:1100-1131 | only the last levels written count |
| Setup.SetLevels | AmperometricMeasurement.c:854-866 | one sequence's levels are rewritten and the others are untouched |
| Setup.SetLevelsIdempotent | AmperometricMeasurement.c:777-801 | writing the same levels again changes nothing (both arms of the `loop > 79` test write the same code) |
| Setup.SetLevelsTwice | AmperometricMeasurement.c:828-852 | a later level write to the same sequence overrides an earlier one |
| Setup.SetDelay | AmperometricMeasurement.c:725-730 | word 10 of the six electrode sequences gets the delay in 16 MHz ticks; the warm-up sequence and all other words are kept |
| Setup.SplitDurations | AmperometricMeasurement.c:457-469 | with shunting, each level duration splits around its IVS window. The halves add to the level duration modulo 2^32, and exactly when the window fits |
| Setup.Ticks | AmperometricMeasurement.c:503-530 | microseconds become 16 ticks each when the product fits in 32 bits |
| Setup.TicksAdd | AmperometricMeasurement.c:503-530 | scaling to ticks commutes with a 32-bit sum |
| Setup.ClearIvs | AmperometricMeasurement.c:548-557 | `&= 0xFFFEFFFF` clears IVS_STATE and keeps every other bit |
| Setup.ClearIvsOpensSwitch | AmperometricMeasurement.c:548-557 | clearing IVS_STATE in the closing word gives back the declared open switch word |
| Setup.SetupElectrode | AmperometricMeasurement.c:493-557 | the set-up writes only placeholder indices; word 14 loses IVS_STATE exactly when shunting is off |
| Setup.SetupWarm | AmperometricMeasurement.c:471-480 | the warm-up sequence changes only in words 16 and 19 |
| Setup.SetupStoreAt | AmperometricMeasurement.c:457-557 | how each slot of the set-up store is produced from its template |
| Setup.SetupTouchesOnlyPlaceholders | AmperometricMeasurement.c:493-557 | outside the placeholder words every electrode sequence keeps its declared words |
| Setup.SetupWarmTouchesTwoWords | AmperometricMeasurement.c:471-480 | the warm-up sequence keeps every declared word except 16 and 19 |
| Setup.SetupKeepsElectrodesAlike | AmperometricMeasurement.c:457-557 | after set-up the six electrode sequences still agree everywhere except in their switch words |
| Setup.SetupElectrodeWords | AmperometricMeasurement.c:493-546 | the exact words written: the delay, four durations and two DAC levels |
| Setup.DurationWordsCoverLevels | AmperometricMeasurement.c:457-530 | the four duration words add, in 32-bit ticks, to the two level durations, in both shunt configurations |
| Setup.ShuntConfiguration | AmperometricMeasurement.c:548-557 | without shunting, the IVS switch never closes (word 14 equals words 7 and 18); with shunting, word 14 is the declared closing word |
| Packet.DefaultParams | AmperometricMeasurement.c:586-598 | the start-up parameters have an even `no_step` and a non-zero step |
| Packet.Decode | AmperometricMeasurement.c:638-736 | a packet is rejected exactly when its WE2 field is negative (the wrapped `uint32_t` value, stored through `float` into the `int` V_DAC_Water at line 694, does not fit) or its step is zero (division by zero). Otherwise `no_step` is twice the truncated step count, `V_Fin` is the final voltage as sent, and the WE2 bias is computed in `uint32_t` |
| Packet.Interpret | AmperometricMeasurement.c:638-736 | the parameters the fields set: initial and final voltages negated, amplitude doubled in `uint32_t`, `no_step = 2 * ((final - initial) / step)` |
| Packet.We2Bias | AmperometricMeasurement.c:711-718 | 1100 plus or minus the WE2 magnitude, less V_Init, modulo 2^32, the sign taken from byte 20 |
| Packet.DigitsRoundTrip | AmperometricMeasurement.c:646-698 | three digits read back as the number they came from |
| Packet.VoltFieldRoundTrip | AmperometricMeasurement.c:646-698 | a signed volt field reads back as the millivolts it encodes |
| Packet.EncodedFields | AmperometricMeasurement.c:638-698 | reading the fields of an encoded packet gives back the request (encode then read is the identity) |
| Packet.DecodeEncode | AmperometricMeasurement.c:638-736 | decoding an encoded well-formed request gives its parameters; a zero step is the only error |
| Packet.DecodeRequest | AmperometricMeasurement.c:638-736 | any packet whose fields read as a well-formed request decodes to that request's parameters |
| Packet.NoStepEven | AmperometricMeasurement.c:720 | `no_step` is even whatever the packet |
| Packet.NoStepFitsFloat | AmperometricMeasurement.c:1156-1213 | `no_step + 1` lies within 2^24, so the water loop's `float` counter counts exactly |
| Packet.FieldBound | AmperometricMeasurement.c:646-698 | a volt field is at most 255 * 1110 mV in magnitude, whatever its bytes |
| Delay.DelayFromSeconds | AmperometricMeasurement.c:492 | the cast to `uint32_t` is defined only when the value fits; the result is then the truncated delay in microseconds |
| Delay.SetupDelayValue | AmperometricMeasurement.c:486-498 | with a scan rate of 100 the set-up delay is 50265 us |
| Delay.ScanDelayAsWritten | AmperometricMeasurement.c:723 | both divisions are integer divisions, so any defined result is a whole number of seconds less the 48.5 ms settling time |
| Delay.WholeSeconds | AmperometricMeasurement.c:723 | a whole number of seconds yields `q * 10^6 - 48500` or no defined value |
| Delay.ScanDelay | AmperometricMeasurement.c:723 | the intended delay: the point duration in real arithmetic, less the settling time, truncated to microseconds |
| Delay.AsWrittenExactAgrees | AmperometricMeasurement.c:723 | when both integer divisions are exact, the code as written computes the intended delay |
| Delay.AsWrittenRejectsShortPoints | AmperometricMeasurement.c:723 | any scan whose points last less than a second has no defined delay as written |
| Delay.LongPointsDiffer | AmperometricMeasurement.c:723 | points of a second or more are defined as written but differ from the intended delay when a division is inexact: a 100 mV span at 1 mV/s with `no_step` 20 gives 8951500 us as written and 9042409 us as intended |
| Delay.StartupPacketDelay | AmperometricMeasurement.c:720-736 | the packet that reproduces the start-up state (-200 to +600 mV, step 10 mV, 100 mV/s, so `no_step` is 160 and V_Fin 600, the values of lines 589-592) has no defined delay as written; the intended delay is the set-up's own 50265 us (line 492) |
| Waveforms.RunCountAppend | AmperometricMeasurement.c:808-1239 | the runs of concatenated traces add up |
| Waveforms.RunEvents | AmperometricMeasurement.c:777-801 | one run event per repetition, in order |
| Waveforms.RunThenPatch | AmperometricMeasurement.c:777-801 | the dither loop makes n runs and keeps the store well-formed |
| Waveforms.RunThenPatchSettles | AmperometricMeasurement.c:828-852 | the dither loop equals its closed form: the first run sees the store as found, every later run sees it patched, and the store ends patched once |
| Waveforms.PatchRunPatchIsPrepatched | AmperometricMeasurement.c:1100-1131 | writing the levels before and after each run equals writing them once up front |
| Waveforms.PatchRunPatchSettles | AmperometricMeasurement.c:1100-1131 | the water-test dither is the closed form started from the once-patched store |
| Waveforms.HalfIsCDiv | AmperometricMeasurement.c:899-926 | `no_step/2` is C's truncating halving |
| Waveforms.CvDriftIsSum | AmperometricMeasurement.c:899-926 | the accumulated movement of the CV level equals the counted closed form for every number of runs |
| Waveforms.CvLoop | AmperometricMeasurement.c:889-932 | the staircase makes `no_step + 1` runs from iteration 0 |
| Waveforms.CvLoopEnd | AmperometricMeasurement.c:889-932 | at the end of the loop, the level and V_WE2 have moved by the whole drift and WE3 holds the last level |
| Waveforms.CvLoopTrace | AmperometricMeasurement.c:889-932 | each run applies the start level moved by the drift so far; the WE2 value after it has moved by the same drift |
| Waveforms.CvDriftDown | AmperometricMeasurement.c:899-910 | 'n' with `no_step = 2k` goes down k steps, then up |
| Waveforms.CvDriftUp | AmperometricMeasurement.c:912-924 | 'p' goes up k + 1 steps (the test is `loop > no_step/2`), then down |
| Waveforms.SwvLoop | AmperometricMeasurement.c:996-1070 | the SWV loop makes one pulse pair per iteration |
| Waveforms.SwvLoopTrace | AmperometricMeasurement.c:996-1070 | every pulse pair is the current base plus and minus the amplitude; the base is recomputed, not accumulated |
| Waveforms.SwvLoopEnd | AmperometricMeasurement.c:996-1070 | the base and V_WE2 move once per pulse pair; WE3 ends at the last base plus the amplitude |
| Waveforms.WaterDriftIsSum | AmperometricMeasurement.c:1133-1239 | the accumulated WE2 DAC movement equals the counted closed form |
| Waveforms.WaterLoop | AmperometricMeasurement.c:1133-1239 | the ramp makes `no_step + 1` runs |
| Waveforms.WaterLoopTrace | AmperometricMeasurement.c:1133-1239 | once WE3 holds the water level, every run applies it and the WE2 DAC value has moved by the drift |
| Waveforms.WaterLoopStepAt | AmperometricMeasurement.c:1133-1239 | the first run sees WE3 as found; every later run sees it at the water level |
| Waveforms.WaterLoopEnd | AmperometricMeasurement.c:1133-1239 | WE3 ends at the water level |
| Waveforms.WaterDriftDown | AmperometricMeasurement.c:1156-1213 | 'n' ramps up k steps, then down, ending one step below the start |
| Tests.CleanPhase | AmperometricMeasurement.c:762-802 | cleaning makes 30 runs exactly when requested and writes V_WE2 |
| Tests.CleanShape | AmperometricMeasurement.c:762-802 | cleaning runs WE3 thirty times unchanged, while the cleaning voltage goes to WE4, which is never run |
| Tests.UpOffset | AmperometricMeasurement.c:854-866 | for 'p' the WE2 value starts 1100 less the WE2 magnitude above the working level, whatever byte 20 said |
| Tests.DownOffset | AmperometricMeasurement.c:711-718 | for 'n' the WE2 value starts at the requested bias above the working level |
| Tests.BiasOffset | AmperometricMeasurement.c:854-866 | a WE2 value set `b` above the initial level keeps that offset at the start of an 'n' sweep |
| Tests.CvDither | AmperometricMeasurement.c:828-852 | ten dither runs |
| Tests.CvStart | AmperometricMeasurement.c:854-866 | the store keeps its shape after the start level is written |
| Tests.CvSweep | AmperometricMeasurement.c:879-936 | the staircase has `max(0, no_step + 1)` runs |
| Tests.CvTest | AmperometricMeasurement.c:811-939 | the CV test makes `10 + max(0, no_step + 1)` runs |
| Tests.CvLoopStart | AmperometricMeasurement.c:854-866 | the loop starts from WE3 at the start level and WE4 at level 0, with the rest unchanged |
| Tests.CvTestRuns | AmperometricMeasurement.c:879-936 | run j applies WE3 as before the test, at the current level; the WE2 value written after it moves in step |
| Tests.CvTestEnd | AmperometricMeasurement.c:811-939 | after the test V_WE2 has moved by the whole drift, WE3 holds the last level, WE4 holds 0, and nothing else changed |
| Tests.CvOffsetKept | AmperometricMeasurement.c:899-926 | WE2 minus the working level stays at its starting value, modulo 2^32 |
| Tests.CvLevelsDown | AmperometricMeasurement.c:899-910 | the 'n' staircase returns to V_Init on its last run |
| Tests.CvLevelsUp | AmperometricMeasurement.c:912-924 | the 'p' staircase ends two steps above V_Final |
| Tests.CvLevelsStill | AmperometricMeasurement.c:899-926 | with any other direction byte the level stays 0 and WE2 never moves |
| Tests.SwvDither | AmperometricMeasurement.c:961-985 | ten dither runs |
| Tests.SwvStart | AmperometricMeasurement.c:986-994 | the store keeps its shape after the start level plus the amplitude is written |
| Tests.SwvSweep | AmperometricMeasurement.c:996-1070 | `max(0, no_step/2 + 1)` pulse pairs |
| Tests.SwvTest | AmperometricMeasurement.c:947-1071 | the SWV test makes `10 + 2 * max(0, no_step/2 + 1)` runs |
| Tests.SwvTestHigh | AmperometricMeasurement.c:996-1070 | pair j first runs WE3 at `start + j * step + amplitude` |
| Tests.SwvTestWe2 | AmperometricMeasurement.c:996-1070 | between its runs, pair j writes WE2 moved by `j * step` |
| Tests.SwvTestLow | AmperometricMeasurement.c:996-1070 | pair j then runs WE3 at the same base minus the amplitude |
| Tests.SwvDitherRuns | AmperometricMeasurement.c:961-985 | the dither runs WE3 as found, then nine times at level 0 |
| Tests.WaterDither | AmperometricMeasurement.c:1100-1131 | ten dither runs |
| Tests.WaterSweep | AmperometricMeasurement.c:1135-1236 | the ramp has `max(0, no_step + 1)` runs |
| Tests.WaterTest | AmperometricMeasurement.c:1082-1239 | the water test keeps V_WE2 and makes ten runs, plus the ramp for 'n' or 'p' |
| Tests.WaterTestRun | AmperometricMeasurement.c:1135-1236 | the first water run applies WE3 as found, every later one WE3 at -V_DAC_Water |
| Tests.WaterTestWe2 | AmperometricMeasurement.c:1135-1236 | after run j the WE2 DAC value has moved by the drift of j runs |
| Tests.WaterRamp | AmperometricMeasurement.c:1156-1213 | the 'n' ramp climbs k steps and descends; 'p' mirrors it; both end one step past the start |
| Session.Initial | AmperometricMeasurement.c:457-598 | the machine starts with the set-up store and the default parameters |
| Session.SweepPhase | AmperometricMeasurement.c:808-1070 | CV or SWV by the test type; any other type runs nothing |
| Session.Start | AmperometricMeasurement.c:751-1247 | a start runs cleaning, sweep and water runs in that number; the water test keeps V_WE2 |
| Session.Configure | AmperometricMeasurement.c:620-736 | a packet that does not decode leaves no defined effect |
| Session.Command | AmperometricMeasurement.c:606-1270 | every completed pass ends with 1100 mV to WE2. A missing packet waits. `e` terminates, and only `e` |
| Session.CommandPrefix | AmperometricMeasurement.c:606-1270 | a pass reads no byte beyond its command |
| Session.Execute | AmperometricMeasurement.c:606-1270 | the loop over the input ends on a WE2 write of 1100 mV, or made no events |
| Session.ExecuteAppend | AmperometricMeasurement.c:606-1270 | a session that consumed its input whole is a prefix of any longer one |
| Session.StopIgnoresRest | AmperometricMeasurement.c:740-743 | after `e`, or undefined behaviour, later bytes change nothing |
| Session.NoStartNoRuns | AmperometricMeasurement.c:751 | without a start byte no sequence runs |
| Session.OtherByteIgnored | AmperometricMeasurement.c:1270 | a non-command byte writes 1100 mV to WE2 and changes nothing else |
| Session.RequestParams | AmperometricMeasurement.c:720-736 | the parameters of a well-formed request: `no_step` even and `V_Fin + V_Init` equal to the span |
| Session.ParamsCommand | AmperometricMeasurement.c:620-736 | `n` plus an encoded request sets its parameters and delay; a zero step or an undefined delay leaves the behaviour undefined |
| Session.ConfigureRequest | AmperometricMeasurement.c:620-736 | the same at the level of one packet |
| Session.StartCommandRuns | AmperometricMeasurement.c:751-1247 | a lone start byte runs the cleaning, the sweep and the water test |
| Session.DefaultStart | AmperometricMeasurement.c:586-598 | with the defaults a start runs 171 sequences |
| Session.NoStepsOnlyDither | AmperometricMeasurement.c:879-1239 | with `no_step <= -2` only the cleaning and dither runs happen |
| SigChain.Band | M355_ECSns_EIS.c:373-537 | the band chosen lies between its edges |
| SigChain.BandUnique | M355_ECSns_EIS.c:373-537 | the band whose edges enclose a frequency is the one chosen |
| SigChain.BandMonotone | M355_ECSns_EIS.c:373-537 | a higher frequency never selects a lower band |
| SigChain.ConfigFor | M355_ECSns_EIS.c:373-567 | per frequency range: power mode, oscillator, clock divider, chop, filter ratios, ADC rate, DFT length and input, DAC rate |
| SigChain.DacControl | M355_ECSns_EIS.c:369-370 | the rate field holds the band's rate, bits 0 and 9..15 are kept, and the upper half is zero |
| SigChain.DacControlIgnoresRateBits | M355_ECSns_EIS.c:384-385 | the old rate bits do not matter |
| SigChain.AfeconWrites | M355_ECSns_EIS.c:388-401 | each flush first clears its enable, then sets it |
| SigChain.AfeconEnds | M355_ECSns_EIS.c:388-401 | both enables end set; every value written agrees with the old one outside the two masks |
| SigChain.Fcw | M355_ECSns_EIS.c:407-408 | the frequency word is the nearest step of 16 MHz / 2^30 when it fits `uint32_t` |
| SigChain.HalfHertzWord | M355_ECSns_EIS.c:442-444 | half a hertz gives 34, so the 0x21 assigned first is dead |
| SigChain.SigChainCfg | M355_ECSns_EIS.c:364-571 | the configuration is the band's settings plus the three registers written |
| SigChain.SweepSettings | M355_ECSns_EIS.c:93-101 | the five sweep frequencies fall in bands 3, 2, 2, 1 and 0, all in low-power mode fed from SINC2, and only the first uses the 8192-point DFT |
| MagPhase.Sources | M355_ECSns_EIS.c:778-783 | `Src` holds the six DFT results, then the load slot less the sensor-plus-load slot (`Src[2..3] - Src[0..1]`) |
| MagPhase.SquaredMags | M355_ECSns_EIS.c:784-786 | the squared magnitudes of the four values, none negative |
| MagPhase.SquaresZero | M355_ECSns_EIS.c:786-788 | a squared magnitude is zero exactly when both parts are |
| MagPhase.Magnitude | M355_ECSns_EIS.c:801-804 | the sensor magnitude times `DFT_Mag[0]` is `DFT_Mag[2] * RCAL`; a zero `DFT_Mag[0]` has no result |
| MagPhase.MagnitudeSquared | M355_ECSns_EIS.c:784-804 | the squared magnitude equals RCAL^2 times the ratio of the squared DFT magnitudes, whatever roots were taken |
| MagPhase.LoadMagnitude | M355_ECSns_EIS.c:807-811 | the load magnitude is defined exactly when `DFT_Mag[0]` is non-zero |
| MagPhase.LoadMagnitudeIsZero | M355_ECSns_EIS.c:807-811 | with the load term removed from the formula, the load magnitude is always zero |
| MagPhase.TurnDown | M355_ECSns_EIS.c:819-825 | turning down lands in (-180, 180] after at least one whole turn |
| MagPhase.TurnUp | M355_ECSns_EIS.c:826-833 | turning up lands in [-180, 180) after at least one whole turn |
| MagPhase.Normalise | M355_ECSns_EIS.c:818-834 | the phase differs from the input by whole turns and lies in [-180, 180]; an input already there is kept |
| MagPhase.NormaliseCanonical | M355_ECSns_EIS.c:818-834 | any value strictly inside (-180, 180) that differs by whole turns is the result |
| MagPhase.MinusHalfTurnKept | M355_ECSns_EIS.c:818 | -180 and -540 both give -180: the range is [-180, 180], not the (-180, 180] the comment states |
| MagPhase.MagPhaseCal | M355_ECSns_EIS.c:767-842 | fails exactly when the first DFT value is zero. Otherwise it gives the calibrated magnitude, a zero load magnitude and the normalised phase |
| Uart.Put | M355_ECSns_EIS.c:954 | a store at or past the end has no defined result; otherwise the byte lands at the index and the index moves on |
| Uart.ReceiveStore | M355_ECSns_EIS.c:954-956 | the receive path keeps a valid ring valid |
| Uart.TimeoutStoreAsWritten | M355_ECSns_EIS.c:965-969 | the time-out path wraps before storing; its index can reach 64 |
| Uart.StoreAsWritten | M355_ECSns_EIS.c:944-969 | the time-out path never fails; the receive path fails exactly at an index of 64 or more |
| Uart.Store | M355_ECSns_EIS.c:954-956 | the corrected store: the byte at the index, the index moved on modulo 64 |
| Uart.StoreAgrees | M355_ECSns_EIS.c:954-969 | receive as written equals `Store`. Time-out as written stores the same bytes, but leaves the index at 64 rather than 0 exactly when it was 63 |
| Uart.TimeoutThenReceiveOverruns | M355_ECSns_EIS.c:954-969 | from index 63, one time-out byte and then one received byte writes `szInSring[64]` |
| Uart.StoreAllAsWritten | M355_ECSns_EIS.c:962-970 | a FIFO read stored as written keeps the buffer size |
| Uart.BurstThenReceiveOverruns | M355_ECSns_EIS.c:954-969 | 64 time-out bytes from reset and then one received byte writes out of bounds |
| Uart.TimeoutCount | M355_ECSns_EIS.c:962-970 | as written, the time-out index counts up to 64 and only wraps on the next byte |
| Uart.StoreAll | M355_ECSns_EIS.c:947-957 | the corrected ring stays valid over any FIFO read |
| Uart.StoreAllIndex | M355_ECSns_EIS.c:947-957 | after n bytes the index has moved n places modulo 64 |
| Uart.StoreAllContents | M355_ECSns_EIS.c:947-957 | each of the last 64 bytes is at its own place after the old index |
| Uart.StoreAllKeeps | M355_ECSns_EIS.c:947-957 | positions not yet reached keep their old bytes |
| Uart.RingDistinct | M355_ECSns_EIS.c:947-957 | fewer than 64 places apart, two positions differ |
| Uart.Initial | M355_ECSns_EIS.c:69-87 | the handler starts active with an empty ring |
| Uart.Classify | M355_ECSns_EIS.c:944-953 | '1'..'6' requests a measurement from any state and latches the digit; '9' or 0x01 completes a wake-up only from the waking state; other bytes change nothing |
| Uart.ReceiveByte | M355_ECSns_EIS.c:944-956 | one received byte: classified, then stored |
| Uart.ReceiveAllEffect | M355_ECSns_EIS.c:938-957 | the receive path stores the bytes and latches the last digit command; any digit leaves a measurement requested |
| Uart.LastDigit | M355_ECSns_EIS.c:944-948 | the latched setting is the old one or a digit command |
| Uart.TimeoutAll | M355_ECSns_EIS.c:959-971 | the time-out path only stores: no request and no setting changes |
| Uart.Interrupt | M355_ECSns_EIS.c:932-974 | the interrupt id selects receive (`& 0xE == 4`), time-out (`0xC`) or nothing |
| Uart.InterruptAsWritten | M355_ECSns_EIS.c:932-974 | interrupt id 2 stores the FIFO bytes by the receive path as written, id 6 by the time-out path as written, and any other id leaves the ring alone |
| Uart.InterruptAsWrittenOverruns | M355_ECSns_EIS.c:954-969 | as written, a one-byte time-out read at index 63 leaves the index at 64, and a following one-byte receive read stores out of bounds |
| Uart.AfeWake | M355_ECSns_EIS.c:918-929 | the AFE interrupt marks the processor as waking and touches nothing else |
| Uart.MainStep | M355_ECSns_EIS.c:207-247 | a pass clears any request. A wake request becomes active. A measure request becomes slept and runs the sweep, and nothing else runs it |
| Uart.MainWrite | M355_ECSns_EIS.c:207-216 | the loop's write depends only on the value it tested: an acting pass writes over whatever a handler stored after the test, and a pass that does not act keeps it |
| Uart.MainWriteUninterrupted | M355_ECSns_EIS.c:207-216 | with no interrupt between test and write, the split pass is the atomic `MainStep` |
| Uart.DigitLostInWindow | M355_ECSns_EIS.c:207-209 | a digit received between the test of a completed wake-up and the write of ACTIVE requests a measurement, which the write then overwrites: no sweep runs |
| Uart.WakeLostInWindow | M355_ECSns_EIS.c:214-216 | an AFE wake-up between the test of a measurement request and the write of SLEPT is overwritten, and a later wake byte no longer completes the wake-up |
| Uart.WakeHandshake | M355_ECSns_EIS.c:207-213 | AFE interrupt, wake byte, then one pass of the main loop leaves the processor active from any state |
| Uart.WakeByteNeedsWaking | M355_ECSns_EIS.c:949-953 | a wake byte without the AFE interrupt first changes nothing but the ring |
| Uart.TimeoutDigitIgnored | M355_ECSns_EIS.c:959-971 | a digit arriving on the time-out path never starts a sweep |

## Left out

- I/O: the UART driver calls, `printf`, the GPIO lights, the push button and its interrupt, the AD5683R driver. A WE2 write is an event carrying the value.
- The sequencer's execution, the AFE's DMA and ADC data, the sample readout. A run is recorded as the words it was given.
- The float conversion of a millivolt level to a DAC code (`VL / DAC_LSB_SIZE + 0x800`). A DAC-code word is recorded by its level.
- Floating point. Arithmetic on reals is exact. `sqrt` results are inputs required to be the non-negative roots. The `atan2` phases are unconstrained inputs: their range [-pi, pi] is not used. `PI` is an input known only to be positive.
- The receive-buffer contents the `uint8_t` FIFO loop counter reads. The FIFO is given as a byte sequence.
- SnsACInit, SnsACTest and the busy-wait on the DFT-ready flag: hardware calls. M355_ECSns_EIS.c models only the signal chain, the magnitude/phase computation, the UART handler and the main loop's state changes.
- Register field positions and masks from device headers. HSDACCON's rate field is the constant bits 8:1. AFECON's two enable masks are parameters.
- SigChain.HalfHertzWord: the dead `0x21` store is shown to be overwritten, not modelled as a separate write.
- MagPhase.Normalise: it follows the code's range [-180, 180]. The comment promises (-180, 180]; MagPhase.MinusHalfTurnKept records the difference.
- MagPhase.MagPhaseCal: `DFT_Mag[0] == 0` divides by zero in `float`. It is modelled as an error rather than an infinity or NaN.
- Session.Configure: `V_Step == 0` divides by zero. A negative WE2 field wraps, defined, to a `uint32_t` above INT_MAX at line 693, and storing that through `float` into the `int` V_DAC_Water at line 694 is undefined. Both are modelled as errors that leave the behaviour undefined.
- Session.Configure: the new word-10 delay is the intended delay of line 723 (`Delay.ScanDelay`, real arithmetic), not the code as written (`Delay.ScanDelayAsWritten`). This changes two kinds of behaviour. Where the source is undefined, the session goes on: every scan whose points last under one second converts a negative value to `uint32_t` (`Delay.AsWrittenRejectsShortPoints`). Where the source is defined, the value differs: points of a second or more whose divisions are inexact are truncated to whole seconds as written, so the delays differ by up to a second (`Delay.LongPointsDiffer`: 8951500 us as written, 9042409 us intended). The discrepancy is the first row under Findings.
- Session.ParamsCommand: states the delay an 'n' packet sets through the intended `Delay.ScanDelay`, not the value line 723 computes as written, for the reasons on the Session.Configure line.
- Session.ConfigureRequest: states the delay of one packet through the intended `Delay.ScanDelay`, not the value line 723 computes as written, for the reasons on the Session.Configure line.
- Uart.TimeoutAll: stores through the corrected `Uart.Store`. From index 63 it leaves the index at 0, where lines 965-969 leave 64. `Uart.StoreAgrees`, `Uart.TimeoutThenReceiveOverruns` and `Uart.TimeoutCount` state the as-written effect.
- Uart.MainStep: treats a pass of the main loop as one atomic step. In the source the test of `wakeup` (lines 207 and 214) and the write (lines 209 and 216) are separate accesses to a volatile variable, and either handler can run between them. Then the loop overwrites the handler's write: a digit's measurement request or an AFE wake-up is lost. `Uart.MainWrite`, `Uart.DigitLostInWindow` and `Uart.WakeLostInWindow` state this window. `Uart.WakeHandshake` and the request that `Uart.ReceiveAllEffect` promises hold only for interrupts that arrive between passes.
- MagPhase.Sources: takes all six DFT values as inputs. The measurement writes only slots 0, 1, 4 and 5 (lines 695-696 and 744-745) and the results start at zero (the initialisers at lines 93-108, copied in again at line 228), so in the running program `Src[2..3]` is 0 and `Src[6..7]` is `-Src[0..1]`.
- Delay.WholeSeconds: holds of exact reals. In IEEE double, `q - 0.0485` is rounded, and for some whole `q` (65, 66, 67 and 1025 among them) the delay truncates to `q * 10^6 - 48501`, not `- 48500`.
- Uart.Interrupt: its time-out path is `Uart.TimeoutAll`, so it uses the corrected store. `Uart.InterruptAsWritten` is the handler's ring effect as written, which fails on the overrun. The discrepancy is the second row under Findings.
- The `ucUARTPress` branch of the EIS main loop: nothing sets the flag.
- Setup.SplitDurations: `SHUNTREQD` is a parameter rather than the constant 1, so both configurations are covered.

## Findings

| source | as written | input that shows it | evidently intended | confidence | as-written member | corrected member |
|---|---|---|---|---|---|---|
| AmperometricMeasurement.c:723 | `(2*(V_Final - V_Init))/Scan_Rate/(no_step+2)` uses integer division, so the seconds per point are truncated to whole seconds before 0.0485 s is subtracted; for points shorter than one second the negative value is converted to `uint32_t` | the packet that reproduces the start-up state: -200 to +600 mV (span 800 mV) in 10 mV steps at 100 mV/s, so `no_step` is 160 | the same formula in real arithmetic: 50265 us, the set-up's own delay of line 492 | not executed | Delay.StartupPacketDelay | Delay.ScanDelay |
| M355_ECSns_EIS.c:965-969 | the time-out path wraps `ucInCnt` before storing, so it can leave it at 64; the next byte on the receive path writes `szInSring[64]`, one past the 64-byte buffer | index 63, one byte by time-out, then one byte by receive (or 64 time-out bytes from reset, then one received byte) | wrap after the increment, as the receive path does | not executed | Uart.TimeoutThenReceiveOverruns | Uart.Store |

=== FILE: cint.dfy ===
/**
  C integer semantics used by the firmware: 32-bit unsigned wrap-around,
  division that truncates toward zero, float-to-integer casts that truncate,
  and the Ok/Err wrapper for the cases where the C code is undefined.
 */
module CInt {

  const TwoTo32: int := 0x1_0000_0000

  type byte = x: int | 0 <= x < 256
  type uint32 = x: int | 0 <= x < 0x1_0000_0000

  datatype Result<T, E> = Ok(value: T) | Err(error: E)

  /** Conversion of any C integer value to `uint32_t` (reduction modulo 2^32). */
  function Wrap32(x: int): (r: uint32)
    ensures 0 <= x < TwoTo32 ==> r == x
  {
    x % TwoTo32
  }

  /** The reduction differs from the value by a whole multiple of 2^32. */
  lemma {:induction false} WrapCongruent(x: int)
    ensures Wrap32(x) == x - TwoTo32 * (x / TwoTo32)
  {
  }

  /** Reduction modulo 2^32 may be applied to a summand first. */
  lemma {:induction false} WrapSummand(a: int, x: int)
    ensures Wrap32(a + Wrap32(x)) == Wrap32(a + x)
  {
    var k := x / TwoTo32;
    assert Wrap32(x) == x - TwoTo32 * k;
  }

  function Abs(x: int): nat
  {
    if x < 0 then -x else x
  }

  /** C's `/` on `int`: the quotient is truncated toward zero. */
  function CDiv(a: int, b: int): (q: int)
    requires b != 0
    ensures Abs(a - q * b) < Abs(b)
    ensures a - q * b == 0 || ((a - q * b < 0) == (a < 0))
  {
    var x := if a < 0 then -a else a;
    var y := if b < 0 then -b else b;
    var m := x / y;
    var q := if (a < 0) != (b < 0) then -m else m;
    SignedProduct(a, b, m, q);
    q
  }

  lemma {:induction false} SignedProduct(a: int, b: int, m: int, q: int)
    requires b != 0
    requires m == Abs(a) / Abs(b)
    requires q == if (a < 0) != (b < 0) then -m else m
    ensures a - q * b == (if a < 0 then -(Abs(a) - m * Abs(b)) else Abs(a) - m * Abs(b))
    ensures 0 <= Abs(a) - m * Abs(b) < Abs(b)
  {
    var y: int := Abs(b);
    if a < 0 && b < 0 {
      calc { q * b; m * (-y); { NegMul(m, y); } -(m * y); }
      assert q * b == -(m * y);
    } else if a < 0 {
      calc { q * b; (-m) * y; { NegMul(y, m); } -(m * y); }
    } else if b < 0 {
      calc { q * b; (-m) * (-y); { NegMul(m, y); NegMul(y, m); } m * y; }
    }
  }

  lemma {:induction false} NegMul(x: int, y: int)
    ensures (-x) * y == -(x * y) && x * (-y) == -(x * y) && (-x) * (-y) == x * y
  {
  }

  /** A float-to-integer cast: truncation toward zero. */
  function Trunc(x: real): (n: int)
    ensures Abs(n) as real <= (if x < 0.0 then -x else x) < Abs(n) as real + 1.0
    ensures n != 0 ==> ((n < 0) <==> (x < 0.0))
  {
    if x >= 0.0 then x.Floor else -((-x).Floor)
  }

  /** A truncated quotient is no larger in magnitude than the dividend. */
  lemma {:induction false} CDivBound(a: int, b: int)
    requires b != 0
    ensures Abs(CDiv(a, b)) <= Abs(a)
  {
    var x, y := Abs(a), Abs(b);
    var m := x / y;
    assert m * y <= x;
    assert m * y == m + m * (y - 1);
    assert Abs(CDiv(a, b)) == m;
  }

  lemma {:induction false} CDivOfEven(n: int)
    ensures CDiv(2 * n, 2) == n
  {
  }
}

=== FILE: delay.dfy ===
/**
  The scan-rate delay written to word 10 of the electrode sequences: the
  fixed one of the set-up (AmperometricMeasurement.c line 492) and the one
  each 'n' packet recomputes (line 723). Either is the time one voltage
  point should last, less the 0.0485 s the converter needs at every point,
  in microseconds, converted to `uint32_t`.

  Floating-point arithmetic is taken as exact real arithmetic.
 */
module Delay {
  import opened CInt

  datatype DelayError =
    | ScanRateIsZero     // `/ Scan_Rate` with Scan_Rate == 0
    | NoPointsIsZero     // `/ (no_step + 2)` with no_step == -2
    | DelayOutOfRange    // a double outside (-1, 2^32) converted to `uint32_t`

  /** The converter's own settling time at every point, 0.0485 s. */
  const SettleUs: int := 48500

  /**
    `(uint32_t)((t - 0.0485) * 1000000)`: the conversion is defined only when
    the truncated value fits, and then truncates toward zero.
   */
  function DelayFromSeconds(t: real): (r: Result<uint32, DelayError>)
    ensures r.Ok? <==> -1.0 < (t - 0.0485) * 1000000.0 < TwoTo32 as real
    ensures r.Ok? ==> r.value as real <= (t - 0.0485) * 1000000.0 + 1.0
    ensures r.Ok? && t >= 0.0485 ==> r.value as real <= (t - 0.0485) * 1000000.0 < r.value as real + 1.0
    ensures !r.Ok? ==> r == Err(DelayOutOfRange)
  {
    var us := (t - 0.0485) * 1000000.0;
    if us <= -1.0 || us >= TwoTo32 as real then Err(DelayOutOfRange)
    else
      var n := Trunc(us);
      Ok(n)
  }

  /** The set-up's delay: `(9.8765432 / scan_r - 0.0485) * 1000000` with `scan_r` fixed at 100. */
  const SetupDelayUs: uint32 := 50265

  lemma {:induction false} SetupDelayValue()
    ensures DelayFromSeconds(9.8765432 / 100.0) == Ok(SetupDelayUs)
  {
    var us := (9.8765432 / 100.0 - 0.0485) * 1000000.0;
    assert 50265.0 <= us < 50266.0;
    assert Trunc(us) == 50265;
  }

  /**
    The delay of line 723 as written: both divisions are C integer
    divisions, so the seconds per point are truncated to a whole number
    before the settling time is subtracted. `span` is `V_Final - V_Init`
    in millivolts, before either is negated.
   */
  function ScanDelayAsWritten(span: int, scanRate: int, noStep: int): (r: Result<uint32, DelayError>)
    ensures r == Err(ScanRateIsZero) <==> scanRate == 0
    ensures r == Err(NoPointsIsZero) <==> scanRate != 0 && noStep + 2 == 0
    ensures r.Ok? ==> r.value % 1000000 == 1000000 - SettleUs
  {
    if scanRate == 0 then Err(ScanRateIsZero)
    else if noStep + 2 == 0 then Err(NoPointsIsZero)
    else
      var q := CDiv(CDiv(2 * span, scanRate), noStep + 2);
      WholeSeconds(q);
      DelayFromSeconds(q as real)
  }

  /**
    A whole number of seconds gives whole seconds less the settling time,
    or nothing. This holds of exact reals; in IEEE double arithmetic
    `q - 0.0485` is rounded, and for some `q` (65, 66, 67 and 1025 among
    them) the product truncates to one microsecond less.
   */
  lemma {:induction false} WholeSeconds(q: int)
    ensures var r := DelayFromSeconds(q as real);
      r.Ok? ==> q >= 1 && r.value == q * 1000000 - SettleUs && r.value % 1000000 == 1000000 - SettleUs
  {
    var us := (q as real - 0.0485) * 1000000.0;
    assert us == (q * 1000000 - SettleUs) as real;
    if q >= 1 && us < TwoTo32 as real {
      assert Trunc(us) == q * 1000000 - SettleUs;
      assert q * 1000000 - SettleUs == (q - 1) * 1000000 + (1000000 - SettleUs);
    }
  }

  /**
    The seconds one point lasts: a triangular sweep covers the span twice
    at `Scan_Rate` mV/s, over `no_step + 2` points.
   */
  function PointSeconds(span: int, scanRate: int, noStep: int): real
    requires scanRate != 0 && noStep + 2 != 0
  {
    (2 * span) as real / (scanRate as real * (noStep + 2) as real)
  }

  /** The delay of line 723 as evidently intended: the same formula in real arithmetic. */
  function ScanDelay(span: int, scanRate: int, noStep: int): (r: Result<uint32, DelayError>)
    ensures r == Err(ScanRateIsZero) <==> scanRate == 0
    ensures r == Err(NoPointsIsZero) <==> scanRate != 0 && noStep + 2 == 0
    ensures r.Ok? ==> (r.value + SettleUs) as real <= PointSeconds(span, scanRate, noStep) * 1000000.0 + 1.0
    ensures r.Ok? && PointSeconds(span, scanRate, noStep) >= 0.0485 ==>
      && (r.value + SettleUs) as real <= PointSeconds(span, scanRate, noStep) * 1000000.0
      && PointSeconds(span, scanRate, noStep) * 1000000.0 < (r.value + SettleUs + 1) as real
  {
    if scanRate == 0 then Err(ScanRateIsZero)
    else if noStep + 2 == 0 then Err(NoPointsIsZero)
    else DelayFromSeconds(PointSeconds(span, scanRate, noStep))
  }

  /** When both integer divisions are exact the code as written computes the intended delay. */
  lemma {:induction false} AsWrittenExactAgrees(span: int, scanRate: int, noStep: int, q: int)
    requires scanRate != 0 && noStep + 2 != 0
    requires 2 * span == q * scanRate * (noStep + 2)
    ensures ScanDelayAsWritten(span, scanRate, noStep) == ScanDelay(span, scanRate, noStep)
  {
    ExactQuotients(span, scanRate, noStep + 2, q);
    assert ScanDelayAsWritten(span, scanRate, noStep) == DelayFromSeconds(q as real);
    RealQuotient(span, q, scanRate, noStep + 2);
    assert PointSeconds(span, scanRate, noStep) == q as real;
  }

  lemma {:induction false} ExactQuotients(span: int, scanRate: int, n: int, q: int)
    requires scanRate != 0 && n != 0
    requires 2 * span == q * scanRate * n
    ensures CDiv(CDiv(2 * span, scanRate), n) == q
  {
    assert 2 * span == (q * n) * scanRate;
    CDivExact(q * n, scanRate);
    CDivExact(q, n);
  }

  lemma {:induction false} CDivExact(q: int, b: int)
    requires b != 0
    ensures CDiv(q * b, b) == q
  {
    var c := CDiv(q * b, b);
    assert Abs(q * b - c * b) < Abs(b);
    assert q * b - c * b == (q - c) * b;
    if q != c {
      AbsProduct(q - c, b);
    }
  }

  lemma {:induction false} AbsProduct(a: int, b: int)
    requires a != 0 && b != 0
    ensures Abs(a * b) >= Abs(b)
  {
    NegMul(a, b);
    assert Abs(a * b) == Abs(a) * Abs(b);
    var x: nat, y: nat := Abs(a) - 1, Abs(b);
    assert Abs(a) * Abs(b) == y + x * y;
  }

  lemma {:induction false} RealQuotient(span: int, q: int, b: int, n: int)
    requires b != 0 && n != 0 && 2 * span == q * b * n
    ensures PointSeconds(span, b, n - 2) == q as real
  {
    assert (q * b * n) as real == q as real * (b as real * n as real);
  }

  /**
    As written, any point shorter than one second truncates to zero
    seconds, and `(0 - 0.0485) * 1000000` is a negative value converted to
    `uint32_t`: no delay can be computed for such a scan.
   */
  lemma {:induction false} AsWrittenRejectsShortPoints(span: int, scanRate: int, noStep: int)
    requires scanRate != 0 && noStep + 2 != 0
    requires Abs(2 * span) < Abs(scanRate) * Abs(noStep + 2)
    ensures ScanDelayAsWritten(span, scanRate, noStep) == Err(DelayOutOfRange)
  {
    var a := CDiv(2 * span, scanRate);
    QuotientBelow(2 * span, scanRate, Abs(noStep + 2));
    SmallQuotient(a, noStep + 2);
    WholeSeconds(0);
  }

  lemma {:induction false} SmallQuotient(a: int, b: int)
    requires b != 0 && Abs(a) < Abs(b)
    ensures CDiv(a, b) == 0
  {
    assert Abs(a) / Abs(b) == 0;
  }

  /** |a| < |b| * k gives a truncated quotient a / b below k in magnitude. */
  lemma {:induction false} QuotientBelow(a: int, b: int, k: nat)
    requires b != 0 && Abs(a) < Abs(b) * k
    ensures Abs(CDiv(a, b)) < k
  {
    var x, y := Abs(a), Abs(b);
    var m := x / y;
    assert Abs(CDiv(a, b)) == m;
    assert m * y <= x;
  }

  /**
    Points of a second or more are defined as written but still differ
    when a division is inexact: a 100 mV span at 1 mV/s over 22 points
    lasts 9.09 s a point, which the code truncates to 9 s.
   */
  lemma {:induction false} LongPointsDiffer()
    ensures ScanDelayAsWritten(100, 1, 20) == Ok(8951500)
    ensures ScanDelay(100, 1, 20) == Ok(9042409)
  {
    assert CDiv(200, 1) == 200;
    assert CDiv(200, 22) == 9;
    WholeSeconds(9);
    var us := (PointSeconds(100, 1, 20) - 0.0485) * 1000000.0;
    assert PointSeconds(100, 1, 20) == 200.0 / 22.0;
    assert 9042409.0 <= us < 9042410.0;
    assert Trunc(us) == 9042409;
  }

  /**
    The packet that reproduces the start-up state (-0.20 V to +0.60 V in
    10 mV steps at 100 mV/s: after the negation at lines 735-736 it leaves
    V_Init 200, V_Final -600, V_Fin 600 and `no_step` 160, the values of
    lines 589-592) asks for points of 1600/16200 s. As intended, its delay
    is the set-up's own 50265 us; the code as written has no defined result.
   */
  lemma {:induction false} StartupPacketDelay()
    ensures ScanDelayAsWritten(800, 100, 160) == Err(DelayOutOfRange)
    ensures ScanDelay(800, 100, 160) == Ok(SetupDelayUs)
  {
    AsWrittenRejectsShortPoints(800, 100, 160);
    var us := (PointSeconds(800, 100, 160) - 0.0485) * 1000000.0;
    assert PointSeconds(800, 100, 160) == 1600.0 / 16200.0;
    assert 50265.0 <= us < 50266.0;
    assert Trunc(us) == 50265;
  }
}

=== FILE: magphase.dfy ===
/**
  The impedance computation of the EIS program (M355_ECSns_EIS.c lines
  767..842): from the six DFT results of one frequency, the squared
  magnitudes of the four complex values, the sensor magnitude relative to
  the calibration resistor, and the phase in degrees brought back into
  [-180, 180] by whole turns.

  Floating-point arithmetic is exact real arithmetic here. `sqrt` and
  `atan2` are not computed: their results are inputs. The square roots are
  constrained to be the non-negative roots of the squared magnitudes; the
  `atan2` phases are unconstrained, and of `PI` only its sign is used.
 */
module MagPhase {
  import opened CInt

  /**
    The eight values of `Src`: the six DFT results (real and imaginary
    parts of the slots for sensor plus load, load and calibration
    resistor) and the load slot less the sensor-plus-load slot. The
    measurement writes only slots 0, 1, 4 and 5 (lines 695-696 and 744-745)
    and the results start at zero (lines 93-108, copied in again at line
    228), so in the running program the load slot is zero and the last two
    values are the negated first two.
   */
  function Sources(dft: seq<real>): (src: seq<real>)
    requires |dft| == 6
    ensures |src| == 8 && src[..6] == dft
    ensures src[6] + dft[0] == dft[2] && src[7] + dft[1] == dft[3]
  {
    dft + [dft[2] - dft[0], dft[3] - dft[1]]
  }

  /** `Src[2k]^2 + Src[2k+1]^2` for the four complex values, before the square root. */
  function SquaredMags(src: seq<real>): (m: seq<real>)
    requires |src| == 8
    ensures |m| == 4
    ensures forall k :: 0 <= k < 4 ==> m[k] == src[2 * k] * src[2 * k] + src[2 * k + 1] * src[2 * k + 1]
    ensures forall k :: 0 <= k < 4 ==> m[k] >= 0.0
  {
    seq(4, k requires 0 <= k < 4 => SquareSign(src[2 * k]); SquareSign(src[2 * k + 1]);
      src[2 * k] * src[2 * k] + src[2 * k + 1] * src[2 * k + 1])
  }

  // ---- facts of real multiplication, each small enough for the solver on its own

  lemma {:induction false} SquareSign(x: real)
    ensures x * x >= 0.0
    ensures x != 0.0 ==> x * x > 0.0
  {
  }

  lemma {:induction false} ZeroProduct(a: real, b: real)
    requires a * b == 0.0
    ensures a == 0.0 || b == 0.0
  {
  }

  lemma {:induction false} ZeroSquare(x: real)
    requires x == 0.0
    ensures x * x == 0.0
  {
  }

  lemma {:induction false} SquareZero(x: real)
    ensures x * x == 0.0 <==> x == 0.0
  {
    if x * x == 0.0 {
      ZeroProduct(x, x);
    }
    if x == 0.0 {
      ZeroSquare(x);
    }
  }

  /** A sum of two squares is zero exactly when both terms are. */
  lemma {:induction false} SquaresZero(x: real, y: real)
    ensures x * x + y * y == 0.0 <==> x == 0.0 && y == 0.0
  {
    SquareSign(x);
    SquareSign(y);
    SquareZero(x);
    SquareZero(y);
  }

  lemma {:induction false} DivMul(y: real, z: real)
    requires z != 0.0
    ensures y / z * z == y
  {
  }

  lemma {:induction false} Quotient(y: real, z: real, x: real)
    requires z != 0.0 && y == x * z
    ensures y / z == x
  {
  }

  /** Multiplying and dividing by the same non-zero value twice changes nothing. */
  lemma {:induction false} Cancel(a: real, b: real, c: real)
    requires a != 0.0
    ensures b * a * c / (a * a) == b * c / a
  {
    var x := b * c / a;
    DivMul(b * c, a);
    assert x * a == b * c;
    var y, z := b * a * c, a * a;
    assert z != 0.0 by {
      if z == 0.0 {
        ZeroProduct(a, a);
      }
    }
    assert y == x * z;
    Quotient(y, z, x);
  }

  /** `mags` are the square roots `sqrt` returns for `SquaredMags`: non-negative, squaring back. */
  predicate AreRoots(mags: seq<real>, squares: seq<real>)
  {
    |mags| == |squares| && forall k :: 0 <= k < |mags| ==> mags[k] >= 0.0 && mags[k] * mags[k] == squares[k]
  }

  datatype MagError = ZeroReference   // DFT_Mag[0] == 0: the division of line 803 has no finite result

  /**
    The sensor magnitude in ohms from `DFT_Mag[0]` and `DFT_Mag[2]`: the
    calibration resistor scaled by the ratio of the calibration magnitude
    to the sensor-plus-load magnitude (lines 801..804).
   */
  function Magnitude(m0: real, m2: real, rcal: real): (r: Result<real, MagError>)
    ensures r.Err? <==> m0 == 0.0
    ensures r.Ok? ==> r.value * m0 == m2 * rcal
  {
    if m0 == 0.0 then Err(ZeroReference)
    else
      DivMul(m2 * rcal, m0);
      Ok(m2 * rcal / m0)
  }

  /**
    The squared magnitude is the calibration resistance squared times the
    ratio of the squared DFT magnitudes, whatever square roots were taken.
   */
  lemma {:induction false} MagnitudeSquared(dft: seq<real>, mags: seq<real>, rcal: real)
    requires |dft| == 6 && AreRoots(mags, SquaredMags(Sources(dft)))
    requires Magnitude(mags[0], mags[2], rcal).Ok?
    ensures var m := SquaredMags(Sources(dft));
      var x := Magnitude(mags[0], mags[2], rcal).value;
      x * x * m[0] == rcal * rcal * m[2]
  {
    var m := SquaredMags(Sources(dft));
    var x := Magnitude(mags[0], mags[2], rcal).value;
    var a, b := mags[0], mags[2];
    assert x * a == b * rcal;
    calc {
      x * x * m[0];
      x * x * (a * a);
      (x * a) * (x * a);
      (b * rcal) * (b * rcal);
      rcal * rcal * (b * b);
      rcal * rcal * m[2];
    }
  }

  /**
    The load magnitude of lines 807..811: `m2 * m0 * rcal / (m0 * m0)`
    less the sensor magnitude.
   */
  function LoadMagnitude(m0: real, m2: real, rcal: real): (r: Result<real, MagError>)
    ensures r.Err? <==> m0 == 0.0
  {
    match Magnitude(m0, m2, rcal)
    case Err(e) => Err(e)
    case Ok(mag) => Ok(m2 * m0 * rcal / (m0 * m0) - mag)
  }

  /**
    With the load measurement removed from the formula, the "load
    magnitude" is the sensor magnitude less itself: always zero.
   */
  lemma {:induction false} LoadMagnitudeIsZero(m0: real, m2: real, rcal: real)
    requires m0 != 0.0
    ensures LoadMagnitude(m0, m2, rcal) == Ok(0.0)
  {
    Cancel(m0, m2, rcal);
  }

  // ---- the phase (lines 815..835)

  /** `-(Phase[2] - Phase[0]) * 180 / PI`: the phase of the sensor against the calibration, in degrees. */
  function Degrees(phase0: real, phase2: real, pi: real): real
    requires pi > 0.0
  {
    -(phase2 - phase0) * 180.0 / pi
  }

  /** A phase and the whole turns of 360 degrees taken off it: positive turning down, negative turning up. */
  datatype Turned = Turned(phase: real, turns: int)

  /** `do { d -= 360; } while (d > 180);` */
  function TurnDown(d: real): (r: Turned)
    requires d > 180.0
    ensures -180.0 < r.phase <= 180.0
    ensures r.turns >= 1 && r.phase == d - 360.0 * r.turns as real
    decreases d.Floor
  {
    var e := d - 360.0;
    if e > 180.0 then
      var t := TurnDown(e);
      Turned(t.phase, t.turns + 1)
    else Turned(e, 1)
  }

  /** `do { d += 360; } while (d < -180);` */
  function TurnUp(d: real): (r: Turned)
    requires d < -180.0
    ensures -180.0 <= r.phase < 180.0
    ensures r.turns <= -1 && r.phase == d - 360.0 * r.turns as real
    decreases (-d).Floor
  {
    var e := d + 360.0;
    if e < -180.0 then
      var t := TurnUp(e);
      Turned(t.phase, t.turns - 1)
    else Turned(e, -1)
  }

  /**
    The phase brought into range: above 180 it is turned down, below -180
    turned up, otherwise kept.
   */
  function Normalise(d: real): (r: Turned)
    ensures -180.0 <= r.phase <= 180.0
    ensures r.phase == d - 360.0 * r.turns as real
    ensures -180.0 <= d <= 180.0 ==> r == Turned(d, 0)
    ensures d > 180.0 ==> r.phase > -180.0
    ensures d < -180.0 ==> r.phase < 180.0
  {
    if d > 180.0 then TurnDown(d)
    else if d < -180.0 then TurnUp(d)
    else Turned(d, 0)
  }

  /**
    Any value strictly inside (-180, 180) that differs from the phase by
    whole turns is the one the normalisation returns.
   */
  lemma {:induction false} NormaliseCanonical(d: real, r: real, k: int)
    requires -180.0 < r < 180.0 && r == d - 360.0 * k as real
    ensures Normalise(d).phase == r && Normalise(d).turns == k
  {
  }

  /**
    The range the normalisation reaches is [-180, 180], not (-180, 180]:
    a phase of -180 degrees, or of -540, comes out as -180.
   */
  lemma {:induction false} MinusHalfTurnKept()
    ensures Normalise(-180.0).phase == -180.0
    ensures Normalise(-540.0).phase == -180.0
  {
    assert TurnUp(-540.0) == Turned(-180.0, -1);
  }

  /** The impedance of one frequency: sensor magnitude, load magnitude, phase in degrees. */
  datatype Impedance = Impedance(mag: real, loadMag: real, phase: real)

  /**
    SnsMagPhaseCal for one frequency: the DFT results, the square roots of
    their squared magnitudes and the `atan2` phases of the four values
    (radians), the calibration resistance and pi.
   */
  function MagPhaseCal(dft: seq<real>, mags: seq<real>, phases: seq<real>, rcal: real, pi: real): (r: Result<Impedance, MagError>)
    requires |dft| == 6 && |phases| == 4 && pi > 0.0
    requires AreRoots(mags, SquaredMags(Sources(dft)))
    ensures r.Err? <==> dft[0] == 0.0 && dft[1] == 0.0
    ensures r.Ok? ==> r.value.mag * mags[0] == mags[2] * rcal && r.value.loadMag == 0.0
    ensures r.Ok? ==> r.value.phase == Normalise(Degrees(phases[0], phases[2], pi)).phase
  {
    var m := SquaredMags(Sources(dft));
    assert mags[0] * mags[0] == m[0];
    SquaresZero(dft[0], dft[1]);
    SquareZero(mags[0]);
    match Magnitude(mags[0], mags[2], rcal)
    case Err(e) => Err(e)
    case Ok(mag) =>
      LoadMagnitudeIsZero(mags[0], mags[2], rcal);
      Ok(Impedance(mag, LoadMagnitude(mags[0], mags[2], rcal).value, Normalise(Degrees(phases[0], phases[2], pi)).phase))
  }
}

=== FILE: packet.dfy ===
/**
  The 27-byte parameter packet that follows an 'n' command, and the scan
  parameters it sets (AmperometricMeasurement.c lines 586..736).

  Byte layout: 0 test type; 1 sign, 2 digit, 3 point, 4..5 digits of the
  initial voltage; 6..10 the final voltage likewise; 11..13 step, 14..16 scan
  rate, 17..19 square-wave amplitude (three decimal digits each); 20 sign,
  21 digit, 22 point, 23..24 digits of the WE2 voltage; 25 sweep direction;
  26 cleaning flag. Voltages are "d.dd" volts, read as millivolts.
 */
module Packet {
  import opened CInt

  const PacketLen: nat := 27

  const Minus: byte := 45   // '-'
  const Plus: byte := 43    // '+'
  const Point: byte := 46   // '.'
  const Zero: byte := 48    // '0'

  /** `RxBuffer[k] - '0'`: not checked to be a decimal digit. */
  function Digit(b: byte): int
  {
    b - Zero
  }

  /** A "d.dd" volt field read as millivolts: d*1000 + d*100 + d*10. */
  function Millivolts(units: byte, tenths: byte, hundredths: byte): int
  {
    Digit(units) * 1000 + Digit(tenths) * 100 + Digit(hundredths) * 10
  }

  /** A three-digit decimal field. */
  function Decimal3(hundreds: byte, tens: byte, ones: byte): int
  {
    Digit(hundreds) * 100 + Digit(tens) * 10 + Digit(ones)
  }

  /**
    The scan parameters of the main loop. `vInit`, `vFinal` are held with
    the sign flipped (relative to the working electrode), `vFin` is the
    final voltage as sent; `dir` is byte 25 of the receive buffer, which
    later one-byte reads never overwrite.
   */
  datatype Params = Params(
    chem: byte,
    vInit: int,
    vFinal: int,
    vFin: int,
    noStep: int,
    vStep: int,
    vWe2: uint32,
    swvAmp: int,
    swvAmpPkpk: uint32,
    water: int,
    clean: byte,
    dir: byte)

  /** The values `main` starts with (lines 586..598); the receive buffer is zeroed static storage. */
  function DefaultParams(): (p: Params)
    ensures p.noStep % 2 == 0 && p.vStep != 0
  {
    Params(97 /* 'a' */, 200, -600, 600, 160, 10, 0, 50, 0, 0, 110 /* 'n' */, 0)
  }

  /** The cases where the C code has no defined behaviour. */
  datatype DecodeError =
    | StepIsZero          // `/ V_Step` with V_Step == 0 at line 720
    | WaterOutOfRange     // `(float)V_WE2` above INT_MAX converted to `int` at line 694

  /** A decoded packet: the new parameters and the scan rate, used only by the delay formula. */
  datatype Decoded = Decoded(p: Params, scanRate: int)

  /**
    Decodes an 'n' packet (lines 638..736): its fields are read as a
    request, which is then interpreted.
   */
  function Decode(rx: seq<byte>): (r: Result<Decoded, DecodeError>)
    requires |rx| == PacketLen
    ensures r.Ok? ==> r.value.p.vStep != 0
    ensures r.Ok? ==> r.value.p.noStep == 2 * CDiv(r.value.p.vInit - r.value.p.vFinal, r.value.p.vStep)
    ensures r.Ok? ==> r.value.p.vFin == -r.value.p.vFinal
    ensures r.Ok? ==> r.value.p.vWe2 == Wrap32(1100 + (if rx[20] == Minus then -r.value.p.water else r.value.p.water) + r.value.p.vInit)
    ensures r == Err(WaterOutOfRange) <==> Millivolts(rx[21], rx[23], rx[24]) < 0
    ensures r == Err(StepIsZero) <==> Millivolts(rx[21], rx[23], rx[24]) >= 0 && Decimal3(rx[11], rx[12], rx[13]) == 0
  {
    Interpret(ReadRequest(rx))
  }

  /**
    The fields of a packet as they are read: sign bytes negate the volt
    fields, digits are `byte - '0'` whatever the byte.
   */
  function ReadRequest(rx: seq<byte>): (q: Request)
    requires |rx| == PacketLen
  {
    var initMag := Millivolts(rx[2], rx[4], rx[5]);
    var finalMag := Millivolts(rx[7], rx[9], rx[10]);
    Request(rx[0],
            if rx[1] == Minus then -initMag else initMag,
            if rx[6] == Minus then -finalMag else finalMag,
            Decimal3(rx[11], rx[12], rx[13]),
            Decimal3(rx[14], rx[15], rx[16]),
            Decimal3(rx[17], rx[18], rx[19]),
            Millivolts(rx[21], rx[23], rx[24]),
            rx[20] == Minus,
            rx[25], rx[26])
  }

  /**
    The parameters a packet's fields set. The WE2 bias is `1100 -+ |WE2| -
    V_Init` in `uint32_t`; `no_step` is twice the truncated quotient of the
    sweep span by the step, taken before the initial and final voltages are
    negated.
   */
  function Interpret(q: Request): (r: Result<Decoded, DecodeError>)
    ensures r == Err(WaterOutOfRange) <==> q.we2Mv < 0
    ensures r == Err(StepIsZero) <==> q.we2Mv >= 0 && q.step == 0
    ensures r.Ok? ==>
      && r.value.p.chem == q.chem && r.value.p.dir == q.dir && r.value.p.clean == q.clean
      && r.value.p.vInit == -q.initMv && r.value.p.vFinal == -q.finalMv && r.value.p.vFin == q.finalMv
      && r.value.p.vStep == q.step && r.value.scanRate == q.scanRate
      && r.value.p.swvAmp == q.amp && r.value.p.swvAmpPkpk == Wrap32(2 * q.amp)
      && r.value.p.noStep == 2 * CDiv(q.finalMv - q.initMv, q.step)
      && r.value.p.water == q.we2Mv
      && r.value.p.vWe2 == Wrap32(1100 + (if q.we2Negative then -q.we2Mv else q.we2Mv) - q.initMv)
  {
    var vWe2 := We2Bias(if q.we2Negative then Minus else Plus, q.we2Mv, q.initMv);
    if q.we2Mv < 0 then Err(WaterOutOfRange)
    else if q.step == 0 then Err(StepIsZero)
    else
      var noStep := 2 * CDiv(q.finalMv - q.initMv, q.step);
      Ok(Decoded(Params(q.chem, -q.initMv, -q.finalMv, q.finalMv, noStep, q.step, vWe2, q.amp, Wrap32(q.amp * 2),
                        q.we2Mv, q.clean, q.dir), q.scanRate))
  }

  /** `V_WE2 = 1100 -+ V_WE2 - V_Init` on `uint32_t` (lines 711..718). */
  function We2Bias(sign: byte, we2Mag: int, vInit: int): (b: uint32)
    ensures b == Wrap32(1100 + (if sign == Minus then -we2Mag else we2Mag) - vInit)
  {
    if sign == Minus then Wrap32(1100 - Wrap32(we2Mag) - vInit)
    else Wrap32(1100 + Wrap32(we2Mag) - vInit)
  }

  // ---- the packet as the host application builds it

  /**
    A well-formed request: volt fields are whole multiples of 10 mV below
    10 V in magnitude, the three-digit fields are below 1000.
   */
  datatype Request = Request(
    chem: byte,
    initMv: int,
    finalMv: int,
    step: int,
    scanRate: int,
    amp: int,
    we2Mv: int,
    we2Negative: bool,
    dir: byte,
    clean: byte)

  predicate VoltField(mv: int)
  {
    -9990 <= mv <= 9990 && mv % 10 == 0
  }

  predicate WellFormed(q: Request)
  {
    && VoltField(q.initMv) && VoltField(q.finalMv) && VoltField(q.we2Mv) && q.we2Mv >= 0
    && 0 <= q.step < 1000 && 0 <= q.scanRate < 1000 && 0 <= q.amp < 1000
  }

  function DigitByte(d: int): byte
    requires 0 <= d < 10
  {
    Zero + d
  }

  /** Digit k (0 units, 1 tens, 2 hundreds) of a natural number. */
  function DecimalDigit(n: nat, k: nat): byte
  {
    DigitByte(if k == 0 then n % 10 else if k == 1 then n / 10 % 10 else n / 100 % 10)
  }

  function SignByte(negative: bool): byte
  {
    if negative then Minus else Plus
  }

  /**
    The packet a host sends for a request: each volt field as sign, the
    digits of |mV| / 10 around a decimal point.
   */
  function Encode(q: Request): (rx: seq<byte>)
    requires WellFormed(q)
    ensures |rx| == PacketLen
  {
    seq(PacketLen, k requires 0 <= k < PacketLen => EncodedByte(q, k))
  }

  /** Byte `k` of the packet for a request. */
  function EncodedByte(q: Request, k: nat): byte
    requires WellFormed(q) && k < PacketLen
  {
    var i, f, w := Abs(q.initMv) / 10, Abs(q.finalMv) / 10, q.we2Mv / 10;
    match k
    case 0 => q.chem
    case 1 => SignByte(q.initMv < 0)
    case 2 => DecimalDigit(i, 2)
    case 3 => Point
    case 4 => DecimalDigit(i, 1)
    case 5 => DecimalDigit(i, 0)
    case 6 => SignByte(q.finalMv < 0)
    case 7 => DecimalDigit(f, 2)
    case 8 => Point
    case 9 => DecimalDigit(f, 1)
    case 10 => DecimalDigit(f, 0)
    case 11 => DecimalDigit(q.step, 2)
    case 12 => DecimalDigit(q.step, 1)
    case 13 => DecimalDigit(q.step, 0)
    case 14 => DecimalDigit(q.scanRate, 2)
    case 15 => DecimalDigit(q.scanRate, 1)
    case 16 => DecimalDigit(q.scanRate, 0)
    case 17 => DecimalDigit(q.amp, 2)
    case 18 => DecimalDigit(q.amp, 1)
    case 19 => DecimalDigit(q.amp, 0)
    case 20 => SignByte(q.we2Negative)
    case 21 => DecimalDigit(w, 2)
    case 22 => Point
    case 23 => DecimalDigit(w, 1)
    case 24 => DecimalDigit(w, 0)
    case 25 => q.dir
    case _ => q.clean
  }

  /** Three digits read back as the number they came from. */
  lemma {:induction false} DigitsRoundTrip(n: nat)
    requires n < 1000
    ensures Decimal3(DecimalDigit(n, 2), DecimalDigit(n, 1), DecimalDigit(n, 0)) == n
    ensures Millivolts(DecimalDigit(n, 2), DecimalDigit(n, 1), DecimalDigit(n, 0)) == 10 * n
  {
    var a, b, c := n / 100, n / 10 % 10, n % 10;
    assert n / 10 == 10 * a + b;
    assert n == 10 * (n / 10) + c;
    assert Digit(DecimalDigit(n, 2)) == a && Digit(DecimalDigit(n, 1)) == b && Digit(DecimalDigit(n, 0)) == c;
  }

  /** A volt field is read back as its magnitude, signed by its sign byte. */
  lemma {:induction false} VoltFieldRoundTrip(mv: int)
    requires VoltField(mv)
    ensures var n := Abs(mv) / 10;
      var m := Millivolts(DecimalDigit(n, 2), DecimalDigit(n, 1), DecimalDigit(n, 0));
      (if SignByte(mv < 0) == Minus then -m else m) == mv
  {
    DigitsRoundTrip(Abs(mv) / 10);
  }

  /**
    Decoding what the host encoded gives back the request: the voltages
    negated relative to the working electrode, the step, amplitude and
    scan rate, `no_step = 2 * ((final - initial) / step)`, and the WE2 bias
    `1100 -+ |WE2| - initial` modulo 2^32; a zero step is the one error.
   */
  lemma {:induction false} DecodeEncode(q: Request)
    requires WellFormed(q)
    ensures var r := Decode(Encode(q));
      && (q.step == 0 ==> r == Err(StepIsZero))
      && (q.step != 0 ==>
            && r.Ok?
            && r.value.p.chem == q.chem && r.value.p.dir == q.dir && r.value.p.clean == q.clean
            && r.value.p.vInit == -q.initMv && r.value.p.vFinal == -q.finalMv && r.value.p.vFin == q.finalMv
            && r.value.p.vStep == q.step && r.value.scanRate == q.scanRate
            && r.value.p.swvAmp == q.amp && r.value.p.swvAmpPkpk == 2 * q.amp
            && r.value.p.noStep == 2 * CDiv(q.finalMv - q.initMv, q.step)
            && r.value.p.water == q.we2Mv
            && r.value.p.vWe2 == Wrap32(1100 + (if q.we2Negative then -q.we2Mv else q.we2Mv) - q.initMv))
  {
    EncodedFields(q);
    DecodeRequest(Encode(q), q);
  }

  /** A packet whose fields read as a well-formed request decodes to that request's parameters. */
  lemma {:induction false} DecodeRequest(rx: seq<byte>, q: Request)
    requires |rx| == PacketLen && ReadRequest(rx) == q && WellFormed(q)
    ensures var r := Decode(rx);
      && (q.step == 0 ==> r == Err(StepIsZero))
      && (q.step != 0 ==>
            && r.Ok?
            && r.value.p.chem == q.chem && r.value.p.dir == q.dir && r.value.p.clean == q.clean
            && r.value.p.vInit == -q.initMv && r.value.p.vFinal == -q.finalMv && r.value.p.vFin == q.finalMv
            && r.value.p.vStep == q.step && r.value.scanRate == q.scanRate
            && r.value.p.swvAmp == q.amp && r.value.p.swvAmpPkpk == 2 * q.amp
            && r.value.p.noStep == 2 * CDiv(q.finalMv - q.initMv, q.step)
            && r.value.p.water == q.we2Mv
            && r.value.p.vWe2 == Wrap32(1100 + (if q.we2Negative then -q.we2Mv else q.we2Mv) - q.initMv))
  {
    assert Decode(rx) == Interpret(q);
  }

  /** Reading the fields of an encoded packet gives back the request. */
  lemma {:induction false} EncodedFields(q: Request)
    requires WellFormed(q)
    ensures ReadRequest(Encode(q)) == q
  {
    var rx := Encode(q);
    var r := ReadRequest(rx);
    assert r.initMv == q.initMv by {
      VoltFieldDigits(rx, 2, Abs(q.initMv) / 10);
      VoltFieldRoundTrip(q.initMv);
    }
    assert r.finalMv == q.finalMv by {
      VoltFieldDigits(rx, 7, Abs(q.finalMv) / 10);
      VoltFieldRoundTrip(q.finalMv);
    }
    assert r.we2Mv == q.we2Mv && r.we2Negative == q.we2Negative by {
      VoltFieldDigits(rx, 21, q.we2Mv / 10);
      DigitsRoundTrip(q.we2Mv / 10);
    }
    assert r.step == q.step by { DecimalFieldDigits(rx, 11, q.step); }
    assert r.scanRate == q.scanRate by { DecimalFieldDigits(rx, 14, q.scanRate); }
    assert r.amp == q.amp by { DecimalFieldDigits(rx, 17, q.amp); }
  }

  /** A volt field whose digits, around the point, are those of `n`, reads back as 10 * n. */
  lemma {:induction false} VoltFieldDigits(rx: seq<byte>, k: nat, n: nat)
    requires k + 3 < |rx| && n < 1000
    requires rx[k] == DecimalDigit(n, 2) && rx[k + 2] == DecimalDigit(n, 1) && rx[k + 3] == DecimalDigit(n, 0)
    ensures Millivolts(rx[k], rx[k + 2], rx[k + 3]) == 10 * n
  {
    DigitsRoundTrip(n);
  }

  /** A three-digit field holding the digits of `n` reads back as `n`. */
  lemma {:induction false} DecimalFieldDigits(rx: seq<byte>, k: nat, n: nat)
    requires k + 2 < |rx| && n < 1000
    requires rx[k] == DecimalDigit(n, 2) && rx[k + 1] == DecimalDigit(n, 1) && rx[k + 2] == DecimalDigit(n, 0)
    ensures Decimal3(rx[k], rx[k + 1], rx[k + 2]) == n
  {
    DigitsRoundTrip(n);
  }

  /** `no_step` is even whatever the packet (lines 720 and 889). */
  lemma {:induction false} NoStepEven(rx: seq<byte>)
    requires |rx| == PacketLen && Decode(rx).Ok?
    ensures Decode(rx).value.p.noStep % 2 == 0
  {
    var p := Decode(rx).value.p;
    DoubleIsEven(CDiv(p.vInit - p.vFinal, p.vStep));
  }

  /** Every integer of magnitude up to 2^24 is exactly representable as a `float`. */
  const FloatExact: int := 0x100_0000

  /**
    Whatever the packet, `no_step + 1` is far inside the range where a
    `float` counts exactly, so the water loop's `float` counter (lines 1156
    and 1213) behaves as an integer one: digits are `byte - '0'`, so a
    volt field is at most 255 * 1110 in magnitude (`FieldBound`) and the step at least 1.
   */
  lemma {:induction false} NoStepFitsFloat(rx: seq<byte>)
    requires |rx| == PacketLen && Decode(rx).Ok?
    ensures -FloatExact < Decode(rx).value.p.noStep + 1 <= FloatExact
  {
    var q := ReadRequest(rx);
    var p := Decode(rx).value.p;
    assert p.noStep == 2 * CDiv(q.finalMv - q.initMv, q.step);
    FieldBound(rx[1], rx[2], rx[4], rx[5]);
    FieldBound(rx[6], rx[7], rx[9], rx[10]);
    CDivBound(q.finalMv - q.initMv, q.step);
  }

  /** A signed volt field is at most 255 * 1110 mV in magnitude, whatever its bytes. */
  lemma {:induction false} FieldBound(sign: byte, units: byte, tenths: byte, hundredths: byte)
    ensures var m := Millivolts(units, tenths, hundredths);
      Abs(if sign == Minus then -m else m) <= 255 * 1110
  {
  }

  lemma {:induction false} DoubleIsEven(h: int)
    ensures (2 * h) % 2 == 0
  {
  }
}

=== FILE: session.dfy ===
/**
  The command loop of the amperometric program (AmperometricMeasurement.c
  lines 586..1270). The host sends one byte at a time: 'n' followed by a
  27-byte packet sets new scan parameters, ' ' starts the tests the
  parameters select, 'e' ends the loop. Every pass of the loop, whatever
  the byte, ends by writing 1100 mV to the WE2 DAC.

  The byte stream is an input sequence; a session consumes it until the
  loop ends, the program reaches undefined behaviour, or the bytes run out.
 */
module Session {
  import opened CInt
  import opened Setup
  import opened Packet
  import opened Delay
  import opened Waveforms
  import opened Tests

  const CmdParams: byte := 110   // 'n'
  const CmdEnd: byte := 101      // 'e'
  const CmdStart: byte := 32     // ' '
  const ChemWater: byte := 119   // 'w'

  /** What the loop carries from one command to the next: the sequences and the scan parameters. */
  datatype Machine = Machine(store: Store, p: Params)

  /** The set-up store with the fixed scan-rate delay and the default parameters (lines 457..598). */
  function Initial(): (m: Machine)
    ensures Valid(m.store) && m.p == DefaultParams()
  {
    Machine(SetupStore(ShuntRequired, SetupDelayUs), DefaultParams())
  }

  /** Why a session stopped with no defined behaviour. */
  datatype Fault = BadPacket(packet: DecodeError) | BadDelay(delay: DelayError)

  datatype Outcome =
    | Terminated          // an 'e' ended the loop
    | Idle                // every byte was consumed by a whole command
    | AwaitingPacket      // an 'n' was read, its 27-byte packet is incomplete
    | Undefined(fault: Fault)

  /** A session: the machine it leaves, the hardware events in order and how it stopped. */
  datatype Session = Session(m: Machine, events: seq<Event>, outcome: Outcome)

  predicate IsCv(chem: byte)
  {
    chem == 97 || chem == 99     // 'a', 'c'
  }

  predicate IsSwv(chem: byte)
  {
    chem == 98 || chem == 100    // 'b', 'd'
  }

  /** The runs the sweep test of `chem` makes: ten dither runs and the staircase or the pulse pairs. */
  function SweepRuns(p: Params): nat
  {
    if IsCv(p.chem) then 10 + Max0(p.noStep + 1)
    else if IsSwv(p.chem) then 10 + 2 * Max0(Half(p.noStep) + 1)
    else 0
  }

  /** The runs of the water test: ten dither runs and, for a ramping direction, the ramp. */
  function WaterRuns(p: Params): nat
  {
    if p.chem != ChemWater then 0
    else 10 + (if Ramps(p.dir) then Max0(p.noStep + 1) else 0)
  }

  function CleanRuns(p: Params): nat
  {
    if p.clean == CleanYes then 30 else 0
  }

  /** The CV or SWV test (lines 808..1070); any other test type runs neither. */
  function SweepPhase(s: Store, p: Params): (o: Phase)
    requires Valid(s)
    ensures Valid(o.store)
    ensures RunCount(o.events) == SweepRuns(p)
    ensures !IsCv(p.chem) && !IsSwv(p.chem) ==> o == Phase(s, p.vWe2, [])
  {
    if IsCv(p.chem) then CvTest(s, p)
    else if IsSwv(p.chem) then SwvTest(s, p)
    else Phase(s, p.vWe2, [])
  }

  /**
    The start command (lines 751..1247): cleaning, then the sweep test, then
    1100 mV to WE2, then for 'w' the water test. V_WE2 carries the sweep's
    drift into the water test and into later commands.
   */
  function Start(m: Machine): (o: Phase)
    requires Valid(m.store)
    ensures Valid(o.store)
    ensures RunCount(o.events) == CleanRuns(m.p) + SweepRuns(m.p) + WaterRuns(m.p)
    ensures m.p.chem == ChemWater ==> o.vWe2 == m.p.vWe2
  {
    var c := CleanPhase(m.store, m.p);
    var t := SweepPhase(c.store, m.p);
    var p := m.p.(vWe2 := t.vWe2);
    var w := if p.chem == ChemWater then WaterTest(t.store, p) else Phase(t.store, p.vWe2, []);
    RunCount3(c.events, t.events, [SetWe2(We2Rest)]);
    RunCountAppend(c.events + t.events + [SetWe2(We2Rest)], w.events);
    Phase(w.store, w.vWe2, c.events + t.events + [SetWe2(We2Rest)] + w.events)
  }

  /**
    The new parameters and delay of an 'n' packet, or why it has no defined
    effect (lines 620..736). The delay is the one line 723 evidently
    intends (`ScanDelay`): as written (`ScanDelayAsWritten`) it has no
    defined value for points shorter than a second, where this model goes
    on with the intended delay.
   */
  function Configure(m: Machine, rx: seq<byte>): (r: Result<Machine, Fault>)
    requires Valid(m.store) && |rx| == PacketLen
    ensures r.Ok? ==> Valid(r.value.store)
    ensures Decode(rx).Err? ==> r == Err(BadPacket(Decode(rx).error))
  {
    match Decode(rx)
    case Err(e) => Err(BadPacket(e))
    case Ok(d) =>
      match ScanDelay(d.p.vFin + d.p.vInit, d.scanRate, d.p.noStep)
      case Err(e) => Err(BadDelay(e))
      case Ok(us) => Ok(Machine(SetDelay(m.store, us), d.p))
  }

  /** The session `rest` leaves, after the events `head` already produced. */
  function After(head: seq<Event>, rest: Session): Session
  {
    Session(rest.m, head + rest.events, rest.outcome)
  }

  /** What one pass of the loop leaves: the machine and events so far and the bytes it took, or a stop. */
  datatype Pass =
    | Continue(m: Machine, events: seq<Event>, used: nat)
    | Stop(session: Session)

  /**
    One pass of the loop (lines 606..1270) over the bytes still to come:
    the command byte and, for 'n', its 27-byte packet; every pass that
    completes ends with 1100 mV written to WE2.
   */
  function Command(m: Machine, input: seq<byte>): (r: Pass)
    requires Valid(m.store) && input != []
    ensures r.Continue? ==> Valid(r.m.store) && 1 <= r.used <= |input| && r.used <= 1 + PacketLen
    ensures r.Continue? ==> |r.events| > 0 && r.events[|r.events| - 1] == SetWe2(We2Rest)
    ensures r.Continue? && input[0] != CmdStart ==> r.events == [SetWe2(We2Rest)]
    ensures r.Stop? ==> Valid(r.session.m.store) && r.session.outcome != Idle
    ensures r.Stop? ==> r.session.events == [] || r.session.events == [SetWe2(We2Rest)]
    ensures (r.Stop? && r.session.outcome == AwaitingPacket) <==> input[0] == CmdParams && |input| < 1 + PacketLen
    ensures (r.Stop? && r.session.outcome == Terminated) <==> input[0] == CmdEnd
  {
    if input[0] == CmdParams then
      if |input| < 1 + PacketLen then Stop(Session(m, [], AwaitingPacket))
      else
        match Configure(m, input[1..1 + PacketLen])
        case Err(f) => Stop(Session(m, [], Undefined(f)))
        case Ok(m') => Continue(m', [SetWe2(We2Rest)], 1 + PacketLen)
    else if input[0] == CmdEnd then Stop(Session(m, [SetWe2(We2Rest)], Terminated))
    else if input[0] == CmdStart then
      var o := Start(m);
      Continue(Machine(o.store, m.p.(vWe2 := o.vWe2)), o.events + [SetWe2(We2Rest)], 1)
    else Continue(m, [SetWe2(We2Rest)], 1)
  }

  /** A pass looks at no byte beyond its command: more input behind it does not change it. */
  lemma {:induction false} CommandPrefix(m: Machine, a: seq<byte>, b: seq<byte>)
    requires Valid(m.store) && a != []
    requires !(Command(m, a).Stop? && Command(m, a).session.outcome == AwaitingPacket)
    ensures Command(m, a + b) == Command(m, a)
  {
    assert (a + b)[0] == a[0];
    if a[0] == CmdParams {
      assert (a + b)[1..1 + PacketLen] == a[1..1 + PacketLen];
    }
  }

  /** The command loop over the bytes `input`, pass after pass, until a pass stops or the bytes run out. */
  function Execute(m: Machine, input: seq<byte>): (r: Session)
    requires Valid(m.store)
    ensures Valid(r.m.store)
    ensures r.events == [] || r.events[|r.events| - 1] == SetWe2(We2Rest)
    ensures input == [] ==> r == Session(m, [], Idle)
    decreases |input|
  {
    if input == [] then Session(m, [], Idle)
    else
      match Command(m, input)
      case Stop(s) => s
      case Continue(m', head, used) => After(head, Execute(m', input[used..]))
  }

  /**
    A session that consumed its bytes whole is a prefix of any longer one:
    the longer session continues from the machine the shorter one left.
   */
  lemma {:induction false} ExecuteAppend(m: Machine, a: seq<byte>, b: seq<byte>)
    requires Valid(m.store) && Execute(m, a).outcome == Idle
    ensures Execute(m, a + b) == After(Execute(m, a).events, Execute(Execute(m, a).m, b))
    decreases |a|
  {
    if a == [] {
      assert a + b == b;
    } else {
      var c := Command(m, a);
      CommandPrefix(m, a, b);
      var e := Execute(c.m, a[c.used..]);
      DropAppend(a, b, c.used);
      ExecuteAppend(c.m, a[c.used..], b);
      AppendAssoc(c.events, e.events, Execute(e.m, b).events);
    }
  }

  lemma {:induction false} DropAppend(a: seq<byte>, b: seq<byte>, k: nat)
    requires k <= |a|
    ensures (a + b)[k..] == a[k..] + b
  {
  }

  lemma {:induction false} AppendAssoc(a: seq<Event>, b: seq<Event>, c: seq<Event>)
    ensures a + (b + c) == (a + b) + c
  {
  }

  /** After an 'e', or once behaviour is undefined, later bytes change nothing. */
  lemma {:induction false} StopIgnoresRest(m: Machine, a: seq<byte>, b: seq<byte>)
    requires Valid(m.store)
    requires Execute(m, a).outcome == Terminated || Execute(m, a).outcome.Undefined?
    ensures Execute(m, a + b) == Execute(m, a)
    decreases |a|
  {
    var c := Command(m, a);
    CommandPrefix(m, a, b);
    if c.Continue? {
      DropAppend(a, b, c.used);
      StopIgnoresRest(c.m, a[c.used..], b);
    }
  }

  /** Without a start byte no sequence is run: only WE2 writes happen. */
  lemma {:induction false} NoStartNoRuns(m: Machine, input: seq<byte>)
    requires Valid(m.store)
    requires forall i :: 0 <= i < |input| ==> input[i] != CmdStart
    ensures RunCount(Execute(m, input).events) == 0
    decreases |input|
  {
    if input != [] {
      var c := Command(m, input);
      if c.Continue? {
        var rest := input[c.used..];
        assert forall i :: 0 <= i < |rest| ==> rest[i] == input[c.used + i];
        NoStartNoRuns(c.m, rest);
        RunCountAppend(c.events, Execute(c.m, rest).events);
      }
      assert RunCount([SetWe2(We2Rest)]) == 0;
    }
  }

  /** A byte that is no command writes 1100 mV to WE2 and changes nothing else. */
  lemma {:induction false} OtherByteIgnored(m: Machine, c: byte, rest: seq<byte>)
    requires Valid(m.store) && c != CmdParams && c != CmdEnd && c != CmdStart
    ensures Execute(m, [c] + rest) == After([SetWe2(We2Rest)], Execute(m, rest))
  {
    assert ([c] + rest)[1..] == rest;
  }

  /**
    The parameters a well-formed request sets, in the signs the loop keeps
    them: initial and final voltage negated, the final one also kept as
    sent, `no_step` twice the truncated number of steps.
   */
  function RequestParams(q: Request): (p: Params)
    requires WellFormed(q) && q.step != 0
    ensures p.noStep % 2 == 0 && p.vFin + p.vInit == q.finalMv - q.initMv
  {
    Params(q.chem, -q.initMv, -q.finalMv, q.finalMv, 2 * CDiv(q.finalMv - q.initMv, q.step), q.step,
           Wrap32(1100 + (if q.we2Negative then -q.we2Mv else q.we2Mv) - q.initMv),
           q.amp, 2 * q.amp, q.we2Mv, q.clean, q.dir)
  }

  /**
    An 'n' followed by the encoding of a well-formed request sets that
    request's parameters and the delay its sweep needs, then writes 1100 mV
    to WE2; a zero step, or a delay that cannot be computed, leaves the
    behaviour undefined. The delay is the intended one of `Configure`.
   */
  lemma {:induction false} ParamsCommand(m: Machine, q: Request, rest: seq<byte>)
    requires Valid(m.store) && WellFormed(q)
    ensures var r := Execute(m, [CmdParams] + Encode(q) + rest);
      && (q.step == 0 ==> r == Session(m, [], Undefined(BadPacket(StepIsZero))))
      && (q.step != 0 ==>
            var p := RequestParams(q);
            match ScanDelay(q.finalMv - q.initMv, q.scanRate, p.noStep)
            case Err(e) => r == Session(m, [], Undefined(BadDelay(e)))
            case Ok(us) => r == After([SetWe2(We2Rest)], Execute(Machine(SetDelay(m.store, us), p), rest)))
  {
    var input := [CmdParams] + Encode(q) + rest;
    assert input[0] == CmdParams;
    assert input[1..1 + PacketLen] == Encode(q);
    assert input[1 + PacketLen..] == rest;
    EncodedFields(q);
    ConfigureRequest(m, Encode(q), q);
  }

  /** The effect on the machine of a packet whose fields read as a well-formed request. */
  lemma {:induction false} ConfigureRequest(m: Machine, rx: seq<byte>, q: Request)
    requires Valid(m.store) && |rx| == PacketLen && ReadRequest(rx) == q && WellFormed(q)
    ensures q.step == 0 ==> Configure(m, rx) == Err(BadPacket(StepIsZero))
    ensures q.step != 0 ==>
      var p := RequestParams(q);
      match ScanDelay(q.finalMv - q.initMv, q.scanRate, p.noStep)
      case Err(e) => Configure(m, rx) == Err(BadDelay(e))
      case Ok(us) => Configure(m, rx) == Ok(Machine(SetDelay(m.store, us), p))
  {
    DecodeRequest(rx, q);
    if q.step != 0 {
      var d := Decode(rx).value;
      assert d.p == RequestParams(q);
    }
  }

  /** A start command alone runs the cleaning, the sweep and the water test the parameters select. */
  lemma {:induction false} StartCommandRuns(m: Machine)
    requires Valid(m.store)
    ensures Execute(m, [CmdStart]).outcome == Idle
    ensures RunCount(Execute(m, [CmdStart]).events) == CleanRuns(m.p) + SweepRuns(m.p) + WaterRuns(m.p)
  {
    var o := Start(m);
    var c := Command(m, [CmdStart]);
    assert c.events == o.events + [SetWe2(We2Rest)] && c.used == 1;
    assert [CmdStart][1..] == [];
    var e := Execute(c.m, []);
    assert e == Session(c.m, [], Idle);
    assert Execute(m, [CmdStart]) == After(c.events, e);
    assert c.events + [] == c.events;
    RunCountAppend(o.events, [SetWe2(We2Rest)]);
    assert RunCount([SetWe2(We2Rest)]) == 0;
  }

  /**
    With the default parameters a start command runs 171 sequences: no
    cleaning, then the CV test's ten dither runs and 161 staircase runs.
   */
  lemma {:induction false} DefaultStart(m: Machine)
    requires Valid(m.store) && m.p == DefaultParams()
    ensures var r := Execute(m, [CmdStart]);
      RunCount(r.events) == 171 && r.outcome == Idle
  {
    StartCommandRuns(m);
    assert SweepRuns(m.p) == 171 && CleanRuns(m.p) == 0 && WaterRuns(m.p) == 0;
  }

  /**
    With `no_step` at -2 or below neither sweep nor ramp runs a step: a
    start command makes only the cleaning and dither runs.
   */
  lemma {:induction false} NoStepsOnlyDither(m: Machine)
    requires Valid(m.store) && m.p.noStep <= -2
    ensures RunCount(Start(m).events) ==
      CleanRuns(m.p) + (if IsCv(m.p.chem) || IsSwv(m.p.chem) || m.p.chem == ChemWater then 10 else 0)
  {
    assert Half(m.p.noStep) <= -1;
  }
}

=== FILE: setup.dfy ===
/**
  The sequence store of the amperometric program and its one-time set-up:
  the level/IVS durations are split and scaled to 16 MHz clock ticks, the
  scan-rate delay and the two DAC levels are written, and, when shunting is
  not required, the IVS switch is kept open by clearing bit 16 of word 14.
 */
module Setup {
  import opened CInt
  import opened Templates

  /** The seven global command arrays, one slot per sequence id. */
  type Store = seq<Sequence>

  function Slot(id: SeqId): (k: nat)
    ensures k < 7 && SlotId(k) == id
  {
    match id
    case We3 => 0
    case We4 => 1
    case We5 => 2
    case We6 => 3
    case We7 => 4
    case We8 => 5
    case Warm => 6
  }

  /** The sequence id of a slot: the inverse of `Slot`. */
  function SlotId(k: nat): (id: SeqId)
    requires k < 7
  {
    match k
    case 0 => We3
    case 1 => We4
    case 2 => We5
    case 3 => We6
    case 4 => We7
    case 5 => We8
    case _ => Warm
  }

  predicate Valid(s: Store)
  {
    |s| == 7 && forall k :: 0 <= k < 7 ==> |s[k]| == SeqLen
  }

  function Get(s: Store, id: SeqId): (t: Sequence)
    requires Valid(s)
    ensures |t| == SeqLen
  {
    s[Slot(id)]
  }

  /** One sequence of the store replaced; every other one is kept. */
  function Put(s: Store, id: SeqId, t: Sequence): (r: Store)
    requires Valid(s) && |t| == SeqLen
    ensures Valid(r) && Get(r, id) == t
    ensures forall id' :: id' != id ==> Get(r, id') == Get(s, id')
  {
    s[Slot(id) := t]
  }

  /** Words 4 and 16 of one sequence set to the DAC levels of the two halves of a run. */
  function WithLevels(t: Sequence, level1: int, level2: int): (r: Sequence)
    requires |t| == SeqLen
    ensures |r| == SeqLen
    ensures r[IdxDac1] == DacLevel(level1) && r[IdxDac2] == DacLevel(level2)
    ensures forall j :: 0 <= j < SeqLen && j != IdxDac1 && j != IdxDac2 ==> r[j] == t[j]
  {
    t[IdxDac1 := DacLevel(level1)][IdxDac2 := DacLevel(level2)]
  }

  /** Only the last levels written count. */
  lemma {:induction false} WithLevelsTwice(t: Sequence, a: int, b: int, c: int, d: int)
    requires |t| == SeqLen
    ensures WithLevels(WithLevels(t, a, b), c, d) == WithLevels(t, c, d)
  {
  }

  /** The two DAC-level words of one sequence of the store are rewritten. */
  function SetLevels(s: Store, id: SeqId, level1: int, level2: int): (r: Store)
    requires Valid(s)
    ensures Valid(r)
    ensures Get(r, id) == WithLevels(Get(s, id), level1, level2)
    ensures forall id' :: id' != id ==> Get(r, id') == Get(s, id')
  {
    s[Slot(id) := WithLevels(s[Slot(id)], level1, level2)]
  }

  /** Rewriting the same levels twice is rewriting them once. */
  lemma {:induction false} SetLevelsIdempotent(s: Store, id: SeqId, level1: int, level2: int)
    requires Valid(s)
    ensures SetLevels(SetLevels(s, id, level1, level2), id, level1, level2) == SetLevels(s, id, level1, level2)
  {
    SetLevelsTwice(s, id, level1, level2, level1, level2);
  }

  /** A later rewrite of the same sequence's levels overrides an earlier one. */
  lemma {:induction false} SetLevelsTwice(s: Store, id: SeqId, a: int, b: int, c: int, d: int)
    requires Valid(s)
    ensures SetLevels(SetLevels(s, id, a, b), id, c, d) == SetLevels(s, id, c, d)
  {
    WithLevelsTwice(Get(s, id), a, b, c, d);
  }

  /**
    Word 10 of the six electrode sequences receives the scan-rate delay in
    16 MHz ticks (lines 493..498 and 725..730); the warm-up sequence keeps its own.
   */
  function SetDelay(s: Store, delayUs: uint32): (r: Store)
    requires Valid(s)
    ensures Valid(r)
    ensures forall id :: id != Warm ==> Get(r, id) == Get(s, id)[IdxDelay := Raw(TickWord(delayUs))]
    ensures Get(r, Warm) == Get(s, Warm)
  {
    var w := Raw(TickWord(delayUs));
    [s[0][IdxDelay := w], s[1][IdxDelay := w], s[2][IdxDelay := w],
     s[3][IdxDelay := w], s[4][IdxDelay := w], s[5][IdxDelay := w], s[6]]
  }

  // ---- timing configuration (lines 57..72 of the amperometric program)

  const DurLevel1: uint32 := 2250
  const DurLevel2: uint32 := 2250
  const DurIvs1: uint32 := 100
  const DurIvs2: uint32 := 100
  const ShuntRequired: bool := true
  const Level1Mv: int := 200
  const Level2Mv: int := 200
  const WarmLevelMv: int := -200
  const WarmDurationUs: uint32 := 2000000 - 46450

  /** The four wait phases of one run, in microseconds. */
  datatype Durations = Durations(d1: uint32, d2: uint32, d3: uint32, d4: uint32)

  /**
    Splits the two level durations around the IVS (shunt) windows, with the
    source's `uint32_t` subtraction. Whatever the inputs, the halves add up
    to the level durations modulo 2^32, and exactly when the IVS window fits.
   */
  function SplitDurations(shunt: bool, l1: uint32, l2: uint32, ivs1: uint32, ivs2: uint32): (d: Durations)
    ensures Wrap32(d.d1 + d.d2) == l1 && Wrap32(d.d3 + d.d4) == l2
    ensures (!shunt || ivs1 <= l1) ==> d.d1 + d.d2 == l1
    ensures (!shunt || ivs2 <= l2) ==> d.d3 + d.d4 == l2
    ensures !shunt ==> d.d2 == 0 && d.d3 == 0
    ensures shunt ==> d.d2 == ivs1 && d.d3 == ivs2
  {
    if shunt then Durations(Wrap32(l1 - ivs1), ivs1, ivs2, Wrap32(l2 - ivs2))
    else Durations(l1, 0, 0, l2)
  }

  /** Microseconds to 16 MHz sequencer clock ticks, as a `uint32_t` product. */
  function Ticks(us: uint32): (t: uint32)
    ensures us < TwoTo32 / 16 ==> t == 16 * us
  {
    Wrap32(us * 16)
  }

  function TickWord(us: uint32): bv32
  {
    Ticks(us) as bv32
  }

  /** `w &= 0xFFFEFFFF`: IVS_STATE cleared, every other bit kept. */
  function ClearIvs(w: bv32): (r: bv32)
    ensures r & IvsBit == 0
    ensures r | IvsBit == w | IvsBit
  {
    w & 0xFFFE_FFFF
  }

  /** Indices of an electrode template written by the set-up. */
  predicate IsSetupIndex(i: int)
  {
    i == IdxDac1 || i == IdxDelay || i == IdxDur1 || i == IdxIvsClose ||
    i == IdxDur2 || i == IdxDac2 || i == IdxDur3 || i == IdxDur4
  }

  /** The set-up of one electrode template (lines 493..557). */
  function SetupElectrode(t: Sequence, shunt: bool, d: Durations, delayUs: uint32): (r: Sequence)
    requires |t| == SeqLen && t[IdxIvsClose].Raw?
    ensures |r| == SeqLen
    ensures forall i :: 0 <= i < SeqLen && !IsSetupIndex(i) ==> r[i] == t[i]
    ensures r[IdxIvsClose] == if shunt then t[IdxIvsClose] else Raw(ClearIvs(t[IdxIvsClose].word))
  {
    var ivs := if shunt then t[IdxIvsClose] else Raw(ClearIvs(t[IdxIvsClose].word));
    t[IdxDelay := Raw(TickWord(delayUs))]
     [IdxDur1 := Raw(TickWord(d.d1))]
     [IdxDur2 := Raw(TickWord(d.d2))]
     [IdxDur3 := Raw(TickWord(d.d3))]
     [IdxDur4 := Raw(TickWord(d.d4))]
     [IdxDac1 := DacLevel(Level1Mv)]
     [IdxDac2 := DacLevel(Level2Mv)]
     [IdxIvsClose := ivs]
  }

  /** The warm-up template: its level-2 duration and DAC level (lines 474..480). */
  function SetupWarm(t: Sequence): (r: Sequence)
    requires |t| == SeqLen
    ensures |r| == SeqLen
    ensures forall i :: 0 <= i < SeqLen && i != IdxDur4 && i != IdxDac2 ==> r[i] == t[i]
  {
    t[IdxDur4 := Raw(TickWord(WarmDurationUs))][IdxDac2 := DacLevel(WarmLevelMv)]
  }

  /** One slot of the set-up store: an electrode template or the warm-up one, set up. */
  function SetupSlot(id: SeqId, shunt: bool, delayUs: uint32): (t: Sequence)
    ensures |t| == SeqLen
  {
    if id == Warm then SetupWarm(Template(Warm))
    else SetupElectrode(Template(id), shunt, SplitDurations(shunt, DurLevel1, DurLevel2, DurIvs1, DurIvs2), delayUs)
  }

  /**
    The store after the one-time set-up of `main` (lines 457..557), given the
    scan-rate delay in microseconds computed at line 492.
   */
  function SetupStore(shunt: bool, delayUs: uint32): (s: Store)
    ensures Valid(s)
  {
    seq(7, k requires 0 <= k < 7 => SetupSlot(SlotId(k), shunt, delayUs))
  }

  /** How each slot of the set-up store was produced. */
  lemma {:induction false} SetupStoreAt(id: SeqId, shunt: bool, delayUs: uint32)
    ensures id != Warm ==>
      Get(SetupStore(shunt, delayUs), id) ==
      SetupElectrode(Template(id), shunt, SplitDurations(shunt, DurLevel1, DurLevel2, DurIvs1, DurIvs2), delayUs)
    ensures id == Warm ==> Get(SetupStore(shunt, delayUs), id) == SetupWarm(Template(Warm))
  {
    var s := SetupStore(shunt, delayUs);
    assert s[Slot(id)] == SetupSlot(id, shunt, delayUs);
  }

  /**
    The set-up writes only the placeholder words of an electrode template:
    outside indices 4, 10, 13..17 and 19 the declared words are kept.
   */
  lemma {:induction false} SetupTouchesOnlyPlaceholders(id: SeqId, shunt: bool, delayUs: uint32, i: nat)
    requires id != Warm && i < SeqLen && !IsSetupIndex(i)
    ensures Get(SetupStore(shunt, delayUs), id)[i] == Template(id)[i]
  {
    SetupStoreAt(id, shunt, delayUs);
  }

  /** The warm-up template changes only in words 16 and 19. */
  lemma {:induction false} SetupWarmTouchesTwoWords(shunt: bool, delayUs: uint32, i: nat)
    requires i < SeqLen && i != IdxDac2 && i != IdxDur4
    ensures Get(SetupStore(shunt, delayUs), Warm)[i] == Template(Warm)[i]
  {
    SetupStoreAt(Warm, shunt, delayUs);
  }

  /**
    After set-up the six electrode sequences still agree everywhere except
    in their switch words: the durations, delay and DAC levels written are
    the same in all six.
   */
  lemma {:induction false} SetupKeepsElectrodesAlike(a: SeqId, b: SeqId, shunt: bool, delayUs: uint32, i: nat)
    requires a != Warm && b != Warm
    requires i < SeqLen && !IsSwitchIndex(i)
    ensures Get(SetupStore(shunt, delayUs), a)[i] == Get(SetupStore(shunt, delayUs), b)[i]
  {
    var d := SplitDurations(shunt, DurLevel1, DurLevel2, DurIvs1, DurIvs2);
    var ta, tb := Template(a), Template(b);
    SetupStoreAt(a, shunt, delayUs);
    SetupStoreAt(b, shunt, delayUs);
    if IsSetupIndex(i) {
      SetupElectrodeWords(ta, shunt, d, delayUs);
      SetupElectrodeWords(tb, shunt, d, delayUs);
    } else {
      ElectrodeTemplatesAgree(a, b, i);
    }
  }

  /** The words the electrode set-up writes, whatever the template. */
  lemma {:induction false} SetupElectrodeWords(t: Sequence, shunt: bool, d: Durations, delayUs: uint32)
    requires |t| == SeqLen && t[IdxIvsClose].Raw?
    ensures var r := SetupElectrode(t, shunt, d, delayUs);
      && r[IdxDelay] == Raw(TickWord(delayUs))
      && r[IdxDur1] == Raw(TickWord(d.d1)) && r[IdxDur2] == Raw(TickWord(d.d2))
      && r[IdxDur3] == Raw(TickWord(d.d3)) && r[IdxDur4] == Raw(TickWord(d.d4))
      && r[IdxDac1] == DacLevel(Level1Mv) && r[IdxDac2] == DacLevel(Level2Mv)
  {
  }

  /**
    The four duration words of every electrode add up, in 32-bit sequencer
    ticks, to the two level durations: words 13 + 15 to level 1 and words
    17 + 19 to level 2, in both shunt configurations.
   */
  lemma {:induction false} DurationWordsCoverLevels(id: SeqId, shunt: bool, delayUs: uint32)
    requires id != Warm
    ensures var s := Get(SetupStore(shunt, delayUs), id);
      var d := SplitDurations(shunt, DurLevel1, DurLevel2, DurIvs1, DurIvs2);
      && s[IdxDur1] == Raw(TickWord(d.d1)) && s[IdxDur2] == Raw(TickWord(d.d2))
      && s[IdxDur3] == Raw(TickWord(d.d3)) && s[IdxDur4] == Raw(TickWord(d.d4))
      && Wrap32(Ticks(d.d1) + Ticks(d.d2)) == Ticks(DurLevel1)
      && Wrap32(Ticks(d.d3) + Ticks(d.d4)) == Ticks(DurLevel2)
  {
    var d := SplitDurations(shunt, DurLevel1, DurLevel2, DurIvs1, DurIvs2);
    var t := Template(id);
    SetupStoreAt(id, shunt, delayUs);
    SetupElectrodeWords(t, shunt, d, delayUs);
    TicksAdd(d.d1, d.d2, DurLevel1);
    TicksAdd(d.d3, d.d4, DurLevel2);
  }

  /** Scaling to ticks commutes with a 32-bit sum. */
  lemma {:induction false} TicksAdd(a: uint32, b: uint32, c: uint32)
    requires Wrap32(a + b) == c
    ensures Wrap32(Ticks(a) + Ticks(b)) == Ticks(c)
  {
    var qa := (a * 16) / TwoTo32;
    var qb := (b * 16) / TwoTo32;
    var qc := (a + b) / TwoTo32;
    var q := (c * 16) / TwoTo32;
    assert Ticks(a) == a * 16 - TwoTo32 * qa;
    assert Ticks(b) == b * 16 - TwoTo32 * qb;
    assert c == a + b - TwoTo32 * qc;
    assert Ticks(c) == c * 16 - TwoTo32 * q;
    ShiftMod(Ticks(c), q + 16 * qc - qa - qb);
  }

  lemma {:induction false} ShiftMod(y: uint32, k: int)
    ensures Wrap32(y + TwoTo32 * k) == y
  {
  }

  /**
    Without shunting the IVS switch never closes: word 14 of every
    electrode sequence equals its switch word 7 (the same word as word 18);
    with shunting it is the declared word 14, word 7 with IVS_STATE set.
   */
  lemma {:induction false} ShuntConfiguration(id: SeqId, shunt: bool, delayUs: uint32)
    requires id != Warm
    ensures var s := Get(SetupStore(shunt, delayUs), id);
      && s[IdxSwitch] == s[IdxIvsOpen] == Template(id)[IdxSwitch]
      && (!shunt ==> s[IdxIvsClose] == s[IdxSwitch])
      && (shunt ==> s[IdxIvsClose] == Template(id)[IdxIvsClose])
  {
    var d := SplitDurations(shunt, DurLevel1, DurLevel2, DurIvs1, DurIvs2);
    var t := Template(id);
    SetupStoreAt(id, shunt, delayUs);
    SwitchConfigurationOf(Get(SetupStore(shunt, delayUs), id), t, shunt, d, delayUs);
  }

  /** The shunt configuration after set-up of any template shaped like the declared ones. */
  lemma {:induction false} SwitchConfigurationOf(s: Sequence, t: Sequence, shunt: bool, d: Durations, delayUs: uint32)
    requires |t| == SeqLen && t[IdxIvsClose].Raw? && t[IdxSwitch].Raw? && t[IdxSwitch].word & IvsBit == 0
    requires t[IdxIvsClose].word == t[IdxSwitch].word | IvsBit && t[IdxIvsOpen] == t[IdxSwitch]
    requires s == SetupElectrode(t, shunt, d, delayUs)
    ensures && s[IdxSwitch] == s[IdxIvsOpen] == t[IdxSwitch]
      && (!shunt ==> s[IdxIvsClose] == s[IdxSwitch])
      && (shunt ==> s[IdxIvsClose] == t[IdxIvsClose])
  {
    ClearIvsOpensSwitch(t[IdxSwitch].word);
  }

  /** Clearing IVS_STATE in a closed switch word gives back the open one. */
  lemma {:induction false} ClearIvsOpensSwitch(sw: bv32)
    requires sw & IvsBit == 0
    ensures ClearIvs(sw | IvsBit) == sw
  {
  }
}

=== FILE: sigchain.dfy ===
/**
  The impedance signal-chain configuration for one excitation frequency
  (M355_ECSns_EIS.c lines 364..571): six frequency bands, each with its own
  filter, DFT and clock settings; the DAC update-rate field of HSDACCON;
  the two flush-and-enable steps on AFECON; and the frequency control word
  of the waveform generator.

  The frequency, a `float` in the source, is a real here and all
  floating-point arithmetic is exact. Register fields whose positions come
  from device headers are stated through the constants below.
 */
module SigChain {
  import opened CInt

  /** The five band edges in Hz, in increasing order (lines 373, 411, 447, 477, 507). */
  function Edge(i: nat): real
    requires i < 5
  {
    match i
    case 0 => 0.11
    case 1 => 0.51
    case 2 => 5.0
    case 3 => 450.0
    case _ => 80000.0
  }

  lemma {:induction false} EdgesIncrease(i: nat, j: nat)
    requires i < j < 5
    ensures Edge(i) < Edge(j)
  {
  }

  /** The band the `if`/`else if` chain on `freq < edge` selects: 0 below 0.11 Hz, 5 from 80 kHz up. */
  function Band(freq: real): (b: nat)
    ensures b < 6
    ensures b == 0 || Edge(b - 1) <= freq
    ensures b == 5 || freq < Edge(b)
  {
    if freq < 0.11 then 0
    else if freq < 0.51 then 1
    else if freq < 5.0 then 2
    else if freq < 450.0 then 3
    else if freq < 80000.0 then 4
    else 5
  }

  /** A band whose edges enclose the frequency is the band selected: every frequency lies in exactly one. */
  lemma {:induction false} BandUnique(freq: real, k: nat)
    requires k < 6
    requires k == 0 || Edge(k - 1) <= freq
    requires k == 5 || freq < Edge(k)
    ensures Band(freq) == k
  {
    var b := Band(freq);
    if b < k {
      EdgesIncrease(b, k - 1);
    } else if k < b {
      EdgesIncrease(k, b - 1);
    }
  }

  /** A higher frequency never selects a lower band. */
  lemma {:induction false} BandMonotone(f: real, g: real)
    requires f <= g
    ensures Band(f) <= Band(g)
  {
  }

  datatype PowerMode = LowPower | HighPower
  datatype DftInput = FromSinc2 | FromSinc3

  /**
    The settings one band leaves: AFE power mode and oscillator, the
    system clock divider, whether the ADC input chop was switched off, the
    SINC3 and SINC2 oversampling ratios, the low-pass bypass, the ADC
    sample rate, the DFT window, length and input, and the DAC rate field.
   */
  datatype Config = Config(
    power: PowerMode,
    oscMHz: nat,
    sysClkDiv: nat,
    chopOff: bool,
    sinc3Osr: nat,
    sinc2Osr: nat,
    lpfBypass: bool,
    adcRate: nat,
    hanning: bool,
    dftLen: nat,
    dftIn: DftInput,
    dacRate: bv32)

  /** The DAC rate field: 0x1b in low-power mode, 0x07 in high-power mode. */
  const RateLowPower: bv32 := 0x1b
  const RateHighPower: bv32 := 0x07

  function LowBand(sinc2Osr: nat, dftLen: nat, dftIn: DftInput): Config
  {
    Config(LowPower, 16, 1, false, 4, sinc2Osr, true, 800000, true, dftLen, dftIn, RateLowPower)
  }

  /** The settings of each band (lines 373..409, 411..445, 447..476, 477..506, 507..536, 537..567). */
  function BandConfig(b: nat): Config
    requires b < 6
  {
    match b
    case 0 => LowBand(1067, 16384, FromSinc2)
    case 1 => LowBand(640, 16384, FromSinc2)
    case 2 => LowBand(533, 16384, FromSinc2)
    case 3 => LowBand(178, 8192, FromSinc2)
    case 4 => LowBand(178, 16384, FromSinc3)
    case _ => Config(HighPower, 32, 2, true, 2, 178, true, 1600000, true, 16384, FromSinc3, RateHighPower)
  }

  /** The settings for an excitation frequency, stated by where the frequency lies. */
  function ConfigFor(freq: real): (c: Config)
    ensures c.lpfBypass && c.hanning
    ensures c.dftIn == FromSinc2 <==> freq < 450.0
    ensures c.dftLen == (if 5.0 <= freq < 450.0 then 8192 else 16384)
    ensures c.sinc2Osr == (if freq < 0.11 then 1067 else if freq < 0.51 then 640 else if freq < 5.0 then 533 else 178)
    ensures freq < 80000.0 ==> c.power == LowPower && c.oscMHz == 16 && c.sysClkDiv == 1 && !c.chopOff
    ensures freq < 80000.0 ==> c.sinc3Osr == 4 && c.adcRate == 800000 && c.dacRate == RateLowPower
    ensures freq >= 80000.0 ==> c.power == HighPower && c.oscMHz == 32 && c.sysClkDiv == 2 && c.chopOff
    ensures freq >= 80000.0 ==> c.sinc3Osr == 2 && c.adcRate == 1600000 && c.dacRate == RateHighPower
  {
    BandConfig(Band(freq))
  }

  // ---- the DAC control word (lines 366..370, 384..385, 568)

  /** Position and mask of the HSDACCON rate field, bits 8:1. */
  const RatePos: bv32 := 1
  const RateMask: bv32 := 0x1FE

  /**
    HSDACCON is read into a `uint16_t`, the rate field cleared twice (by
    its mask and by `& 0xFE01`), the band's rate or-ed in at bit 1, and the
    16-bit value written back.
   */
  function DacControl(hsdaccon: bv32, rate: bv32): (r: bv32)
    requires rate <= 0xFF
    ensures (r >> RatePos) & 0xFF == rate
    ensures r & 0xFE01 == hsdaccon & 0xFE01
    ensures r & 0xFFFF_0000 == 0
  {
    var dacCon := hsdaccon & 0xFFFF;
    var cleared := (dacCon & !RateMask) & 0xFE01;
    cleared | (rate << RatePos)
  }

  /** Two values of HSDACCON that agree outside the rate field give the same control word. */
  lemma {:induction false} DacControlIgnoresRateBits(h1: bv32, h2: bv32, rate: bv32)
    requires rate <= 0xFF && h1 & 0xFE01 == h2 & 0xFE01
    ensures DacControl(h1, rate) == DacControl(h2, rate)
  {
  }

  // ---- the AFECON flushes (lines 388..401 and the like in every band)

  /** A register value as the set of positions of its 1 bits; `&= ~m` is removal, `|= m` union. */
  type Bits = set<nat>

  /**
    The four AFECON values written: SINC2EN cleared, to flush the SINC2
    filter, and set again; then DFTEN likewise. `sinc2` and `dft` are the
    bits of the two enable masks.
   */
  datatype Flush = Flush(sinc2Off: Bits, sinc2On: Bits, dftOff: Bits, dftOn: Bits)

  function AfeconWrites(afecon: Bits, sinc2: Bits, dft: Bits): (w: Flush)
    ensures w.sinc2Off !! sinc2 && sinc2 <= w.sinc2On
    ensures w.dftOff !! dft && dft <= w.dftOn
  {
    var a := afecon - sinc2;
    var b := a + sinc2;
    var c := b - dft;
    Flush(a, b, c, c + dft)
  }

  /**
    After the flushes both enables are set, and every value written agrees
    with the old one outside the two enable masks.
   */
  lemma {:induction false} AfeconEnds(afecon: Bits, sinc2: Bits, dft: Bits)
    ensures var w := AfeconWrites(afecon, sinc2, dft);
      && w.dftOn == afecon + sinc2 + dft
      && w.sinc2Off - (sinc2 + dft) == afecon - (sinc2 + dft)
      && w.sinc2On - (sinc2 + dft) == afecon - (sinc2 + dft)
      && w.dftOff - (sinc2 + dft) == afecon - (sinc2 + dft)
      && w.dftOn - (sinc2 + dft) == afecon - (sinc2 + dft)
  {
  }

  // ---- the frequency control word (lines 407..408 and the like in every band)

  datatype FcwError = FcwOutOfRange   // a value outside (-1, 2^32) converted to `uint32_t`

  const TwoTo30: real := 1073741824.0
  const ClockHz: real := 16000000.0

  /** `(uint32_t)((freq / 16000000) * 2^30 + 0.5)`: the nearest step of 16 MHz / 2^30. */
  function Fcw(freq: real): (r: Result<uint32, FcwError>)
    ensures r.Ok? <==> -1.0 < freq / ClockHz * TwoTo30 + 0.5 < TwoTo32 as real
    ensures r.Ok? && freq >= 0.0 ==>
      r.value as real - 0.5 <= freq * TwoTo30 / ClockHz < r.value as real + 0.5
  {
    var v := freq / ClockHz * TwoTo30 + 0.5;
    if v <= -1.0 || v >= TwoTo32 as real then Err(FcwOutOfRange)
    else
      var n := Trunc(v);
      Ok(n)
  }

  /**
    Half a hertz gives the word 34: the value 0x21 assigned first in the
    second band is overwritten by the formula and never reaches the
    generator.
   */
  lemma {:induction false} HalfHertzWord()
    ensures Fcw(0.5) == Ok(34)
  {
    var v := 0.5 / ClockHz * TwoTo30 + 0.5;
    assert 34.0 <= v < 35.0;
    assert Trunc(v) == 34;
  }

  /** What one configuration leaves: the band's settings and the registers it writes. */
  datatype Chain = Chain(config: Config, hsdaccon: bv32, afecon: Flush, fcw: Result<uint32, FcwError>)

  /** SnsACSigChainCfg for `freq`, from the current HSDACCON and AFECON values. */
  function SigChainCfg(freq: real, hsdaccon: bv32, afecon: Bits, sinc2: Bits, dft: Bits): (r: Chain)
    ensures r.config == BandConfig(Band(freq))
    ensures r.hsdaccon == DacControl(hsdaccon, if freq < 80000.0 then RateLowPower else RateHighPower)
    ensures r.afecon == AfeconWrites(afecon, sinc2, dft)
    ensures r.fcw == Fcw(freq)
  {
    var c := ConfigFor(freq);
    Chain(c, DacControl(hsdaccon, c.dacRate), AfeconWrites(afecon, sinc2, dft), Fcw(freq))
  }

  /** The frequencies the sleep request measures in turn, in Hz (lines 93..101, 226..233). */
  const SweepFrequencies: seq<real> := [10.0, 3.1623, 1.0, 0.31623, 0.1]

  /**
    The sweep spans four bands, from the 5..450 Hz band down to the one
    below 0.11 Hz; every point runs in low-power mode with the DFT fed from
    SINC2, and only the first uses the 8192-point DFT.
   */
  lemma {:induction false} SweepSettings()
    ensures forall k :: 0 <= k < |SweepFrequencies| ==> Band(SweepFrequencies[k]) == [3, 2, 2, 1, 0][k]
    ensures forall k :: 0 <= k < |SweepFrequencies| ==>
      var c := ConfigFor(SweepFrequencies[k]);
      c.power == LowPower && c.dftIn == FromSinc2 && (c.dftLen == 8192 <==> k == 0)
  {
    forall k | 0 <= k < |SweepFrequencies|
      ensures Band(SweepFrequencies[k]) == [3, 2, 2, 1, 0][k]
    {
      BandUnique(SweepFrequencies[k], [3, 2, 2, 1, 0][k]);
    }
  }
}

=== FILE: templates.dfy ===
/**
  The sequencer command lists of the amperometric program: one 22-word
  template per working electrode WE3..WE8 and one for the warm-up voltage.

  A word is either a raw 32-bit sequencer command or a DAC-code write
  `SEQ_MMR_WRITE(REG_AFE_AFE_WG_DAC_CODE, code(mv))`. The latter is kept by the
  millivolt level it was computed from: the register encoder is injective, so
  the constructor stands for it, and the float conversion mv -> code is left
  abstract (level 0 is code 0x800, the placeholder the templates carry).
 */
module Templates {

  datatype Command = Raw(word: bv32) | DacLevel(mv: int)

  type Sequence = seq<Command>

  /** The electrode templates and the warm-up template. */
  datatype SeqId = We3 | We4 | We5 | We6 | We7 | We8 | Warm

  const SeqLen: nat := 22

  /** Word indices with a fixed role in every template. */
  const IdxDac1: nat := 4
  const IdxSwitch: nat := 7
  const IdxDelay: nat := 10
  const IdxDur1: nat := 13
  const IdxIvsClose: nat := 14
  const IdxDur2: nat := 15
  const IdxDac2: nat := 16
  const IdxDur3: nat := 17
  const IdxIvsOpen: nat := 18
  const IdxDur4: nat := 19

  /** Bit 16 of a switch-matrix command: IVS_STATE, the shunt switch. */
  const IvsBit: bv32 := 0x0001_0000

  const TemplateWe3: Sequence := [
    Raw(0x0015_0065),
    Raw(0x8400_7818),
    Raw(0x8A00_0030),
    Raw(0x8800_0F00),
    Raw(0xAA00_0800),
    Raw(0xA000_0002),
    Raw(0xA200_0000),
    Raw(0x8600_1178),
    Raw(0x0001_A900),
    Raw(0x8002_4EF0),
    Raw(0x0000_0000),
    Raw(0x8003_4FF0),
    Raw(0x0009_0880),
    Raw(0x0000_0000),
    Raw(0x8601_1178),
    Raw(0x0000_0000),
    Raw(0xAA00_0800),
    Raw(0x0000_0000),
    Raw(0x8600_1178),
    Raw(0x0000_0000),
    Raw(0x8002_0EF0),
    Raw(0x8200_0002)
  ]

  const TemplateWe4: Sequence := [
    Raw(0x0015_0065),
    Raw(0x8400_7818),
    Raw(0x8A00_0030),
    Raw(0x8800_0F00),
    Raw(0xAA00_0800),
    Raw(0xA000_0002),
    Raw(0xA200_0000),
    Raw(0x8600_2278),
    Raw(0x0001_A900),
    Raw(0x8002_4EF0),
    Raw(0x0000_0000),
    Raw(0x8003_4FF0),
    Raw(0x0009_0880),
    Raw(0x0000_0000),
    Raw(0x8601_2278),
    Raw(0x0000_0000),
    Raw(0xAA00_0800),
    Raw(0x0000_0000),
    Raw(0x8600_2278),
    Raw(0x0000_0000),
    Raw(0x8002_0EF0),
    Raw(0x8200_0002)
  ]

  const TemplateWe5: Sequence := [
    Raw(0x0015_0065),
    Raw(0x8400_7818),
    Raw(0x8A00_0030),
    Raw(0x8800_0F00),
    Raw(0xAA00_0800),
    Raw(0xA000_0002),
    Raw(0xA200_0000),
    Raw(0x8600_3378),
    Raw(0x0001_A900),
    Raw(0x8002_4EF0),
    Raw(0x0000_0000),
    Raw(0x8003_4FF0),
    Raw(0x0009_0880),
    Raw(0x0000_0000),
    Raw(0x8601_3378),
    Raw(0x0000_0000),
    Raw(0xAA00_0800),
    Raw(0x0000_0000),
    Raw(0x8600_3378),
    Raw(0x0000_0000),
    Raw(0x8002_0EF0),
    Raw(0x8200_0002)
  ]

  const TemplateWe6: Sequence := [
    Raw(0x0015_0065),
    Raw(0x8400_7818),
    Raw(0x8A00_0030),
    Raw(0x8800_0F00),
    Raw(0xAA00_0800),
    Raw(0xA000_0002),
    Raw(0xA200_0000),
    Raw(0x8600_4478),
    Raw(0x0001_A900),
    Raw(0x8002_4EF0),
    Raw(0x0000_0000),
    Raw(0x8003_4FF0),
    Raw(0x0009_0880),
    Raw(0x0000_0000),
    Raw(0x8601_4478),
    Raw(0x0000_0000),
    Raw(0xAA00_0800),
    Raw(0x0000_0000),
    Raw(0x8600_4478),
    Raw(0x0000_0000),
    Raw(0x8002_0EF0),
    Raw(0x8200_0002)
  ]

  const TemplateWe7: Sequence := [
    Raw(0x0015_0065),
    Raw(0x8400_7818),
    Raw(0x8A00_0030),
    Raw(0x8800_0F00),
    Raw(0xAA00_0800),
    Raw(0xA000_0002),
    Raw(0xA200_0000),
    Raw(0x8600_5578),
    Raw(0x0001_A900),
    Raw(0x8002_4EF0),
    Raw(0x0000_0000),
    Raw(0x8003_4FF0),
    Raw(0x0009_0880),
    Raw(0x0000_0000),
    Raw(0x8601_5578),
    Raw(0x0000_0000),
    Raw(0xAA00_0800),
    Raw(0x0000_0000),
    Raw(0x8600_5578),
    Raw(0x0000_0000),
    Raw(0x8002_0EF0),
    Raw(0x8200_0002)
  ]

  const TemplateWe8: Sequence := [
    Raw(0x0015_0065),
    Raw(0x8400_7818),
    Raw(0x8A00_0030),
    Raw(0x8800_0F00),
    Raw(0xAA00_0800),
    Raw(0xA000_0002),
    Raw(0xA200_0000),
    Raw(0x8600_6678),
    Raw(0x0001_A900),
    Raw(0x8002_4EF0),
    Raw(0x0000_0000),
    Raw(0x8003_4FF0),
    Raw(0x0009_0880),
    Raw(0x0000_0000),
    Raw(0x8601_6678),
    Raw(0x0000_0000),
    Raw(0xAA00_0800),
    Raw(0x0000_0000),
    Raw(0x8600_6678),
    Raw(0x0000_0000),
    Raw(0x8002_0EF0),
    Raw(0x8200_0002)
  ]

  const TemplateWarm: Sequence := [
    Raw(0x0015_0065),
    Raw(0x8400_7818),
    Raw(0x8A00_0030),
    Raw(0x8800_0F00),
    Raw(0xAA00_0800),
    Raw(0xA000_0002),
    Raw(0xA200_0000),
    Raw(0x8600_1288),
    Raw(0x0001_A900),
    Raw(0x8002_4EF0),
    Raw(0x0000_0C80),
    Raw(0x8003_4FF0),
    Raw(0x0009_0880),
    Raw(0x0000_0000),
    Raw(0x8601_1288),
    Raw(0x0000_0000),
    Raw(0xAA00_0800),
    Raw(0x1E1A_3000),
    Raw(0x8600_1288),
    Raw(0x0000_0000),
    Raw(0x8002_0EF0),
    Raw(0x8200_0002)
  ]

  function ElectrodeNumber(id: SeqId): nat
    requires id != Warm
  {
    match id
    case We3 => 3
    case We4 => 4
    case We5 => 5
    case We6 => 6
    case We7 => 7
    case We8 => 8
  }

  /**
    The template a sequence id names, as declared. In every template the
    switch word 7 leaves IVS_STATE open, the
    shunt-closing word 14 is word 7 with IVS_STATE set, and the
    shunt-opening word 18 is word 7 itself.
   */
  function Template(id: SeqId): (t: Sequence)
    ensures |t| == SeqLen
    ensures forall i :: 0 <= i < |t| ==> t[i].Raw?
    ensures t[IdxSwitch].word & IvsBit == 0
    ensures t[IdxIvsClose].word == t[IdxSwitch].word | IvsBit
    ensures t[IdxIvsOpen] == t[IdxSwitch]
  {
    match id
    case We3 => TemplateWe3
    case We4 => TemplateWe4
    case We5 => TemplateWe5
    case We6 => TemplateWe6
    case We7 => TemplateWe7
    case We8 => TemplateWe8
    case Warm => TemplateWarm
  }

  /** The index set on which two electrode templates may differ. */
  predicate IsSwitchIndex(i: int)
  {
    i == IdxSwitch || i == IdxIvsClose || i == IdxIvsOpen
  }

  /**
    The six electrode templates are identical except in the three
    switch-matrix words 7, 14 and 18.
   */
  lemma {:induction false} ElectrodeTemplatesAgree(a: SeqId, b: SeqId, i: nat)
    requires a != Warm && b != Warm
    requires i < SeqLen && !IsSwitchIndex(i)
    ensures Template(a)[i] == Template(b)[i]
  {
    AgreesWithWe3(a, i);
    AgreesWithWe3(b, i);
  }

  lemma {:induction false} AgreesWithWe3(a: SeqId, i: nat)
    requires a != Warm
    requires i < SeqLen && !IsSwitchIndex(i)
    ensures Template(a)[i] == TemplateWe3[i]
  {
    match a
    case We3 =>
    case We4 =>
    case We5 =>
    case We6 =>
    case We7 =>
    case We8 =>
  }

  /**
    Word 7 of electrode n's template routes the switch matrix through the
    pair of mux fields at bits 15:8, both holding n - 2; the rest of the
    word is the same for every electrode.
   */
  lemma {:induction false} SwitchWordPattern(id: SeqId)
    requires id != Warm
    ensures Template(id)[IdxSwitch].word & 0xFFFF_00FF == 0x8600_0078
    ensures (Template(id)[IdxSwitch].word >> 8) & 0xFF == ((ElectrodeNumber(id) - 2) * 0x11) as bv32
  {
  }
}

=== FILE: tests.dfy ===
/**
  The four phases a start command can run (AmperometricMeasurement.c lines
  762..1239): electrode cleaning, the cyclic-voltammetry test ('a', 'c'),
  the square-wave test ('b', 'd') and the water test ('w'). Each is a
  function of the store and the parameters and returns the new store, the
  new V_WE2 and the hardware events it produced.
 */
module Tests {
  import opened CInt
  import opened Templates
  import opened Setup
  import opened Packet
  import opened Waveforms

  const CleanYes: byte := 121    // 'y'

  /** The WE2 DAC value (mV) the program returns to between and around tests. */
  const We2Rest: uint32 := 1100

  datatype Phase = Phase(store: Store, vWe2: uint32, events: seq<Event>)

  /** RunCount of a concatenation of three traces. */
  lemma {:induction false} RunCount3(a: seq<Event>, b: seq<Event>, c: seq<Event>)
    ensures RunCount(a + b + c) == RunCount(a) + RunCount(b) + RunCount(c)
  {
    RunCountAppend(a, b);
    RunCountAppend(a + b, c);
  }

  // ---- cleaning (lines 762..802)

  /**
    With the cleaning flag 'y': write V_WE2, then 30 times run WE3 and
    write V_Init to both DAC words of WE4.
   */
  function CleanPhase(s: Store, p: Params): (o: Phase)
    requires Valid(s)
    ensures Valid(o.store) && o.vWe2 == p.vWe2
    ensures RunCount(o.events) == (if p.clean == CleanYes then 30 else 0)
  {
    if p.clean != CleanYes then Phase(s, p.vWe2, [])
    else
      var r := SettledRepeat(s, We3, We4, p.vInit, 30);
      RunCountAppend([SetWe2(p.vWe2)], RunEvents(We3, r.runs));
      Phase(r.store, p.vWe2, [SetWe2(p.vWe2)] + RunEvents(We3, r.runs))
  }

  /**
    The cleaning runs WE3 thirty times exactly as it stands: the cleaning
    voltage goes to WE4, which it does not run, and nothing else changes.
   */
  lemma {:induction false} CleanShape(s: Store, p: Params)
    requires Valid(s) && p.clean == CleanYes
    ensures var o := CleanPhase(s, p);
      && |o.events| == 31 && o.events[0] == SetWe2(p.vWe2)
      && (forall j :: 1 <= j < 31 ==> o.events[j] == Run(We3, Get(s, We3)))
      && o.store == SetLevels(s, We4, p.vInit, p.vInit)
  {
    var r := SettledRepeat(s, We3, We4, p.vInit, 30);
    var o := CleanPhase(s, p);
    forall j | 1 <= j < 31
      ensures o.events[j] == Run(We3, Get(s, We3))
    {
      RunEventsAfter([SetWe2(p.vWe2)], We3, r.runs, j - 1);
    }
  }

  // ---- where the staircases start (lines 854..865 and 996..1008)

  /** `v` at the start: V_Init for 'n', V_Final for 'p', otherwise 0. */
  function StartLevel(p: Params): int
  {
    if p.dir == DirDown then p.vInit else if p.dir == DirUp then p.vFinal else 0
  }

  /** V_WE2 at the start: for 'p' it is replaced by `1100 - V_DAC_Water - V_Fin`. */
  function StartWe2(p: Params): uint32
  {
    if p.dir == DirUp then Wrap32(1100 - p.water - p.vFin) else p.vWe2
  }

  /**
    For 'p' the WE2 value starts 1100 - |WE2| above the working level,
    whatever the sign byte of the WE2 field said.
   */
  lemma {:induction false} UpOffset(p: Params)
    requires p.dir == DirUp && p.vFin == -p.vFinal
    ensures Wrap32(StartWe2(p) - StartLevel(p)) == Wrap32(1100 - p.water)
  {
    WrapSummand(-StartLevel(p), 1100 - p.water - p.vFin);
  }

  /**
    For 'n' the WE2 value starts at the requested bias: `1100 +- |WE2|`
    above the working level, modulo 2^32.
   */
  lemma {:induction false} DownOffset(rx: seq<byte>)
    requires |rx| == PacketLen && Decode(rx).Ok? && Decode(rx).value.p.dir == DirDown
    ensures var p := Decode(rx).value.p;
      Wrap32(StartWe2(p) - StartLevel(p)) == Wrap32(1100 + (if rx[20] == Minus then -p.water else p.water))
  {
    var p := Decode(rx).value.p;
    BiasOffset(p, 1100 + (if rx[20] == Minus then -p.water else p.water));
  }

  /** A WE2 value set `b` above the initial level keeps that offset from the start of an 'n' sweep. */
  lemma {:induction false} BiasOffset(p: Params, b: int)
    requires p.dir == DirDown && p.vWe2 == Wrap32(b + p.vInit)
    ensures Wrap32(StartWe2(p) - StartLevel(p)) == Wrap32(b)
  {
    WrapSummand(-p.vInit, b + p.vInit);
  }

  // ---- cyclic voltammetry, chem 'a' or 'c' (lines 811..939)

  /** Ten dither runs of WE4, each followed by level 0 written to WE4 (lines 828..852). */
  function CvDither(s: Store): (r: Repeat)
    requires Valid(s)
    ensures Valid(r.store) && |r.runs| == 10
  {
    SettledRepeat(s, We4, We4, 0, 10)
  }

  /** The store after the dither, with the start level written to WE3 (lines 854..866). */
  function CvStart(s: Store, p: Params): (r: Store)
    requires Valid(s)
    ensures Valid(r)
  {
    SetLevels(CvDither(s).store, We3, StartLevel(p), StartLevel(p))
  }

  /** The staircase, from WE3 at the start level (lines 879..936). */
  function CvSweep(s: Store, p: Params): (w: Sweep<Step>)
    requires Valid(s)
    ensures |w.we3| == SeqLen && |w.trace| == Max0(p.noStep + 1)
  {
    CvLoop(Get(CvStart(s, p), We3), StartLevel(p), StartWe2(p), p.dir, p.vStep, p.noStep, 0)
  }

  /** What precedes the staircase: V_WE2, the dither runs, 1100 to WE2. */
  function CvHead(s: Store, p: Params): (h: seq<Event>)
    requires Valid(s)
    ensures |h| == 12 && RunCount(h) == 10
  {
    RunCount3([SetWe2(p.vWe2)], RunEvents(We4, CvDither(s).runs), [SetWe2(We2Rest)]);
    [SetWe2(p.vWe2)] + RunEvents(We4, CvDither(s).runs) + [SetWe2(We2Rest)]
  }

  /**
    Write V_WE2; ten dither runs of WE4 at level 0; write the start level to
    WE3 and 1100 to WE2; then the staircase of `no_step + 1` runs of WE3.
   */
  function CvTest(s: Store, p: Params): (o: Phase)
    requires Valid(s)
    ensures Valid(o.store)
    ensures RunCount(o.events) == 10 + Max0(p.noStep + 1)
  {
    var w := CvSweep(s, p);
    RunCountAppend(CvHead(s, p), StepEvents(We3, w.trace));
    Phase(Put(CvStart(s, p), We3, w.we3), w.we2, CvHead(s, p) + StepEvents(We3, w.trace))
  }

  /** The level of CV run `j`: the start level moved by the drift of the first `j` runs. */
  function CvRunLevel(p: Params, j: int): int
  {
    StartLevel(p) + CvDrift(p.dir, p.noStep, p.vStep, j)
  }

  /** The V_WE2 value written after CV run `j`: the start value moved by the same drift. */
  function CvWe2At(p: Params, j: int): uint32
  {
    Wrap32(StartWe2(p) + CvDrift(p.dir, p.noStep, p.vStep, j))
  }

  /** The store the CV loop starts from: WE3 at the start level, WE4 at level 0, the rest as found. */
  lemma {:induction false} CvLoopStart(s: Store, p: Params)
    requires Valid(s)
    ensures var v := StartLevel(p);
      var s1 := CvStart(s, p);
      && Get(s1, We3) == WithLevels(Get(s, We3), v, v)
      && (forall id :: id != We3 && id != We4 ==> Get(s1, id) == Get(s, id))
      && Get(s1, We4) == WithLevels(Get(s, We4), 0, 0)
  {
  }

  lemma {:induction false} CvSweepTrace(s: Store, p: Params)
    requires Valid(s)
    ensures CvTraceFrom(CvSweep(s, p).trace, Get(s, We3), StartLevel(p), StartWe2(p), p.dir, p.vStep, p.noStep, 0)
  {
    var v := StartLevel(p);
    CvLoopStart(s, p);
    CvLoopTrace(Get(s, We3), Get(CvStart(s, p), We3), v, StartWe2(p), v, StartWe2(p), p.dir, p.vStep, p.noStep, 0);
  }

  /**
    Run `j` of the staircase applies WE3 as it stood before the test with
    both DAC words at the current level, and is followed by the WE2 value
    moved by the same drift as the level.
   */
  lemma {:induction false} CvTestRuns(s: Store, p: Params, j: int)
    requires Valid(s) && 0 <= j < p.noStep + 1
    ensures var o := CvTest(s, p);
      && o.events[12 + 2 * j] == Run(We3, WithLevels(Get(s, We3), CvRunLevel(p, j), CvRunLevel(p, j)))
      && o.events[13 + 2 * j] == SetWe2(CvWe2At(p, j))
  {
    var h, w, o := CvHead(s, p), CvSweep(s, p), CvTest(s, p);
    CvSweepTrace(s, p);
    CvEventAt(o.events, h, w.trace, j, Get(s, We3), StartLevel(p), StartWe2(p), p.dir, p.vStep, p.noStep,
              CvRunLevel(p, j), CvWe2At(p, j));
  }

  /** Entry `j` of a CV trace placed after `head`, given its level and WE2 value. */
  lemma {:induction false} CvEventAt(events: seq<Event>, head: seq<Event>, t: seq<Step>, j: int,
                  base: Sequence, v0: int, we20: int, dir: byte, step: int, noStep: int, level: int, we2: uint32)
    requires |base| == SeqLen && events == head + StepEvents(We3, t) && 0 <= j < |t|
    requires CvTraceFrom(t, base, v0, we20, dir, step, noStep, 0)
    requires level == v0 + CvDrift(dir, noStep, step, j) && we2 == Wrap32(we20 + CvDrift(dir, noStep, step, j))
    ensures events[|head| + 2 * j] == Run(We3, WithLevels(base, level, level))
    ensures events[|head| + 2 * j + 1] == SetWe2(we2)
  {
    assert t[j] == CvStepAt(base, v0, we20, dir, step, noStep, j);
    StepEventsAfter(head, We3, t, j);
  }

  /**
    After the CV test V_WE2 has moved by the whole drift, WE3 holds the last
    level, WE4 holds level 0 and no other sequence changed.
   */
  lemma {:induction false} CvTestEnd(s: Store, p: Params)
    requires Valid(s)
    ensures var o := CvTest(s, p);
      var n := Max0(p.noStep + 1);
      && o.vWe2 == CvWe2At(p, n)
      && Get(o.store, We3) == WithLevels(Get(s, We3), CvRunLevel(p, n), CvRunLevel(p, n))
      && Get(o.store, We4) == WithLevels(Get(s, We4), 0, 0)
      && (forall id :: id != We3 && id != We4 ==> Get(o.store, id) == Get(s, id))
  {
    var v := StartLevel(p);
    CvLoopStart(s, p);
    CvLoopEnd(Get(s, We3), Get(CvStart(s, p), We3), v, StartWe2(p), v, StartWe2(p), p.dir, p.vStep, p.noStep, 0);
  }

  /**
    WE2 and the working level move in lock step: the difference between the
    WE2 value written after a run and the run's level is the one set at the
    start, modulo 2^32.
   */
  lemma {:induction false} CvOffsetKept(p: Params, j: int)
    ensures Wrap32(CvWe2At(p, j) - CvRunLevel(p, j)) == Wrap32(StartWe2(p) - StartLevel(p))
  {
    var d := CvDrift(p.dir, p.noStep, p.vStep, j);
    WrapSummand(-CvRunLevel(p, j), StartWe2(p) + d);
  }

  /**
    The 'n' staircase with `no_step = 2k`: run `j` is `min(j, k)` steps
    below V_Init and then climbs back, so the last run is at V_Init again.
   */
  lemma {:induction false} CvLevelsDown(p: Params, k: int, j: int)
    requires p.dir == DirDown && p.noStep == 2 * k && k >= 0 && 0 <= j <= 2 * k
    ensures CvRunLevel(p, j) == p.vInit - p.vStep * Min(j, k) + p.vStep * Max0(j - k)
    ensures CvRunLevel(p, 2 * k) == p.vInit
  {
    CvDriftDown(p.noStep, p.vStep, k, j);
    CvDriftDown(p.noStep, p.vStep, k, 2 * k);
  }

  /**
    The 'p' staircase with `no_step = 2k` climbs `k + 1` steps before
    turning (the test is `loop > no_step/2`), so with k >= 1 the last run
    is two steps above V_Final rather than at it.
   */
  lemma {:induction false} CvLevelsUp(p: Params, k: int, j: int)
    requires p.dir == DirUp && p.noStep == 2 * k && k >= 0 && 0 <= j <= 2 * k
    ensures CvRunLevel(p, j) == p.vFinal + p.vStep * Min(j, k + 1) - p.vStep * Max0(j - k - 1)
    ensures k >= 1 ==> CvRunLevel(p, 2 * k) == p.vFinal + 2 * p.vStep
  {
    CvDriftUp(p.noStep, p.vStep, k, j);
    CvDriftUp(p.noStep, p.vStep, k, 2 * k);
  }

  /** With any other direction byte every run is at level 0 and WE2 never moves. */
  lemma {:induction false} CvLevelsStill(p: Params, j: int)
    requires p.dir != DirDown && p.dir != DirUp
    ensures CvRunLevel(p, j) == 0
    ensures CvWe2At(p, j) == p.vWe2
  {
  }

  // ---- square-wave voltammetry, chem 'b' or 'd' (lines 947..1071)

  /** Ten dither runs of WE3, each followed by level 0 written to WE3 (lines 961..985). */
  function SwvDither(s: Store): (r: Repeat)
    requires Valid(s)
    ensures Valid(r.store) && |r.runs| == 10
  {
    SettledRepeat(s, We3, We3, 0, 10)
  }

  /** The store after the dither, with the start level plus the amplitude written to WE3 (lines 986..994). */
  function SwvStart(s: Store, p: Params): (r: Store)
    requires Valid(s)
    ensures Valid(r)
  {
    SetLevels(SwvDither(s).store, We3, StartLevel(p) + p.swvAmp, StartLevel(p) + p.swvAmp)
  }

  /** The pulse pairs, from WE3 at the start level plus the amplitude (lines 996..1070). */
  function SwvSweep(s: Store, p: Params): (w: Sweep<Pulse>)
    requires Valid(s)
    ensures |w.we3| == SeqLen && |w.trace| == Max0(Half(p.noStep) + 1)
  {
    SwvLoop(Get(SwvStart(s, p), We3), StartLevel(p), StartWe2(p), p.dir, p.vStep, p.swvAmp, Half(p.noStep) + 1, 0)
  }

  function SwvHead(s: Store): (h: seq<Event>)
    requires Valid(s)
    ensures |h| == 11 && RunCount(h) == 10
  {
    RunCountAppend([SetWe2(We2Rest)], RunEvents(We3, SwvDither(s).runs));
    [SetWe2(We2Rest)] + RunEvents(We3, SwvDither(s).runs)
  }

  /**
    Write 1100 to WE2; ten dither runs of WE3 at level 0; write the start
    level plus the amplitude to WE3; then `no_step/2 + 1` pulse pairs.
   */
  function SwvTest(s: Store, p: Params): (o: Phase)
    requires Valid(s)
    ensures Valid(o.store)
    ensures RunCount(o.events) == 10 + 2 * Max0(Half(p.noStep) + 1)
  {
    var w := SwvSweep(s, p);
    RunCountAppend(SwvHead(s), PulseEvents(w.trace));
    Phase(Put(SwvStart(s, p), We3, w.we3), w.we2, SwvHead(s) + PulseEvents(w.trace))
  }

  lemma {:induction false} SwvSweepTrace(s: Store, p: Params)
    requires Valid(s)
    ensures SwvTraceFrom(SwvSweep(s, p).trace, Get(s, We3), StartLevel(p), StartWe2(p), SwvDelta(p.dir, p.vStep), p.swvAmp, 0)
  {
    var v := StartLevel(p);
    var t := Get(SwvStart(s, p), We3);
    WithLevelsTwice(Get(s, We3), 0, 0, v + p.swvAmp, v + p.swvAmp);
    assert t == WithLevels(Get(s, We3), v + p.swvAmp, v + p.swvAmp);
    SwvLoopTrace(Get(s, We3), t, v, StartWe2(p), v, StartWe2(p), p.dir, p.vStep, p.swvAmp, Half(p.noStep) + 1, 0);
  }

  /** The base of SWV pulse pair `j`: the start level moved `j` steps. */
  function SwvBase(p: Params, j: int): int
  {
    StartLevel(p) + j * SwvDelta(p.dir, p.vStep)
  }

  /**
    Pulse pair `j` first runs WE3 at the base `start + j * step` plus the
    amplitude: the amplitude is added to the recomputed base, never
    accumulated.
   */
  lemma {:induction false} SwvTestHigh(s: Store, p: Params, j: int)
    requires Valid(s) && 0 <= j < Half(p.noStep) + 1
    ensures SwvTest(s, p).events[11 + 3 * j] == Run(We3, WithLevels(Get(s, We3), SwvBase(p, j) + p.swvAmp, SwvBase(p, j) + p.swvAmp))
  {
    SwvSweepTrace(s, p);
    PulseEventAt(SwvTest(s, p).events, SwvHead(s), SwvSweep(s, p).trace, j, Get(s, We3), StartLevel(p), StartWe2(p),
                 SwvDelta(p.dir, p.vStep), p.swvAmp, 11 + 3 * j);
  }

  /** Between its two runs pulse pair `j` writes WE2 moved by the same `j * step` as the base. */
  lemma {:induction false} SwvTestWe2(s: Store, p: Params, j: int)
    requires Valid(s) && 0 <= j < Half(p.noStep) + 1
    ensures SwvTest(s, p).events[12 + 3 * j] == SetWe2(Wrap32(StartWe2(p) + j * SwvDelta(p.dir, p.vStep)))
  {
    SwvSweepTrace(s, p);
    PulseEventAt(SwvTest(s, p).events, SwvHead(s), SwvSweep(s, p).trace, j, Get(s, We3), StartLevel(p), StartWe2(p),
                 SwvDelta(p.dir, p.vStep), p.swvAmp, 12 + 3 * j);
  }

  /** Pulse pair `j` then runs WE3 at the same base minus the amplitude. */
  lemma {:induction false} SwvTestLow(s: Store, p: Params, j: int)
    requires Valid(s) && 0 <= j < Half(p.noStep) + 1
    ensures SwvTest(s, p).events[13 + 3 * j] == Run(We3, WithLevels(Get(s, We3), SwvBase(p, j) - p.swvAmp, SwvBase(p, j) - p.swvAmp))
  {
    SwvSweepTrace(s, p);
    PulseEventAt(SwvTest(s, p).events, SwvHead(s), SwvSweep(s, p).trace, j, Get(s, We3), StartLevel(p), StartWe2(p),
                 SwvDelta(p.dir, p.vStep), p.swvAmp, 13 + 3 * j);
  }

  /** Event `i` of pulse pair `j` of an SWV trace placed after `head`. */
  lemma {:induction false} PulseEventAt(events: seq<Event>, head: seq<Event>, t: seq<Pulse>, j: int,
                                        base: Sequence, v0: int, we20: int, d: int, amp: int, i: int)
    requires |base| == SeqLen && events == head + PulseEvents(t) && 0 <= j < |t|
    requires SwvTraceFrom(t, base, v0, we20, d, amp, 0)
    requires |head| + 3 * j <= i <= |head| + 3 * j + 2
    ensures var b := v0 + j * d;
      && (i == |head| + 3 * j ==> events[i] == Run(We3, WithLevels(base, b + amp, b + amp)))
      && (i == |head| + 3 * j + 1 ==> events[i] == SetWe2(Wrap32(we20 + j * d)))
      && (i == |head| + 3 * j + 2 ==> events[i] == Run(We3, WithLevels(base, b - amp, b - amp)))
  {
    assert t[j] == SwvPulseAt(base, v0, we20, d, amp, j);
    PulseEventsAfter(head, t, j);
  }

  /** The SWV dither runs WE3 as it stood, then nine times at level 0. */
  lemma {:induction false} SwvDitherRuns(s: Store, p: Params, j: int)
    requires Valid(s) && 1 <= j < 11
    ensures SwvTest(s, p).events[1] == Run(We3, Get(s, We3))
    ensures j > 1 ==> SwvTest(s, p).events[j] == Run(We3, WithLevels(Get(s, We3), 0, 0))
  {
    var runs := SwvDither(s).runs;
    RunEventsAfter([SetWe2(We2Rest)], We3, runs, 0);
    RunEventsAfter([SetWe2(We2Rest)], We3, runs, j - 1);
    assert SwvTest(s, p).events == SwvHead(s) + PulseEvents(SwvSweep(s, p).trace);
  }

  // ---- the water test, chem 'w' (lines 1082..1239)

  /** The WE2 DAC value the water ramp starts from, computed in `uint32_t`. */
  function WaterStart(p: Params): uint32
  {
    if p.dir == DirDown then Wrap32(1100 - p.vInit - p.water)
    else Wrap32(1100 + p.vFin - p.water)
  }

  predicate Ramps(dir: byte)
  {
    dir == DirDown || dir == DirUp
  }

  /** Ten dither runs of WE4, with level 0 written to WE4 before and after each (lines 1100..1131). */
  function WaterDither(s: Store): (r: Repeat)
    requires Valid(s)
    ensures Valid(r.store) && |r.runs| == 10
  {
    SettledRepeat(SetLevels(s, We4, 0, 0), We4, We4, 0, 10)
  }

  /** The ramp, run at the constant level -V_DAC_Water (lines 1135..1236). */
  function WaterSweep(s: Store, p: Params): (w: Sweep<Step>)
    requires Valid(s)
    ensures |w.we3| == SeqLen && |w.trace| == Max0(p.noStep + 1)
  {
    WaterLoop(Get(WaterDither(s).store, We3), -p.water, WaterStart(p), p.dir, p.vStep, p.noStep, 0)
  }

  function WaterHead(s: Store, p: Params): (h: seq<Event>)
    requires Valid(s)
    ensures |h| == 11 && RunCount(h) == 10
  {
    RunCountAppend([SetWe2(p.vWe2)], RunEvents(We4, WaterDither(s).runs));
    [SetWe2(p.vWe2)] + RunEvents(We4, WaterDither(s).runs)
  }

  /**
    Write V_WE2; ten dither runs of WE4 at level 0; then for 'n' or 'p'
    write 1100 to WE2 and run WE3 `no_step + 1` times at the constant
    level -V_DAC_Water while the WE2 DAC value ramps. V_WE2 is not changed.
   */
  function WaterTest(s: Store, p: Params): (o: Phase)
    requires Valid(s)
    ensures Valid(o.store) && o.vWe2 == p.vWe2
    ensures RunCount(o.events) == 10 + (if Ramps(p.dir) then Max0(p.noStep + 1) else 0)
  {
    if !Ramps(p.dir) then Phase(WaterDither(s).store, p.vWe2, WaterHead(s, p))
    else
      var w := WaterSweep(s, p);
      RunCount3(WaterHead(s, p), [SetWe2(We2Rest)], StepEvents(We3, w.trace));
      Phase(Put(WaterDither(s).store, We3, w.we3), p.vWe2, WaterHead(s, p) + [SetWe2(We2Rest)] + StepEvents(We3, w.trace))
  }

  lemma {:induction false} WaterDitherKeepsWe3(s: Store)
    requires Valid(s)
    ensures Get(WaterDither(s).store, We3) == Get(s, We3)
  {
  }

  /** Run `j` of the water ramp and the WE2 write after it are step `j` of the sweep. */
  lemma {:induction false} WaterTestEvents(s: Store, p: Params, j: int)
    requires Valid(s) && Ramps(p.dir) && 0 <= j < p.noStep + 1
    ensures WaterTest(s, p).events[12 + 2 * j] == Run(We3, WaterSweep(s, p).trace[j].run)
    ensures WaterTest(s, p).events[13 + 2 * j] == SetWe2(WaterSweep(s, p).trace[j].we2)
  {
    StepEventsAfter(WaterHead(s, p) + [SetWe2(We2Rest)], We3, WaterSweep(s, p).trace, j);
  }

  /** Step `j` of the water sweep, in terms of the store before the test. */
  lemma {:induction false} WaterSweepStep(s: Store, p: Params, j: int)
    requires Valid(s) && 0 <= j < p.noStep + 1
    ensures WaterSweep(s, p).trace[j]
      == Step(if j == 0 then Get(s, We3) else WithLevels(Get(s, We3), -p.water, -p.water),
              Wrap32(WaterStart(p) + WaterDrift(p.dir, p.noStep, p.vStep, j)))
  {
    WaterDitherKeepsWe3(s);
    WaterLoopStepAt(Get(WaterDither(s).store, We3), -p.water, WaterStart(p), p.dir, p.vStep, p.noStep, j);
  }

  /** The first water run applies WE3 as it stood, every later one WE3 at -V_DAC_Water. */
  lemma {:induction false} WaterTestRun(s: Store, p: Params, j: int)
    requires Valid(s) && Ramps(p.dir) && 0 <= j < p.noStep + 1
    ensures WaterTest(s, p).events[12 + 2 * j]
      == Run(We3, if j == 0 then Get(s, We3) else WithLevels(Get(s, We3), -p.water, -p.water))
  {
    WaterTestEvents(s, p, j);
    WaterSweepStep(s, p, j);
  }

  /** After water run `j` the WE2 DAC value is the start value moved by the drift of the first `j` runs. */
  lemma {:induction false} WaterTestWe2(s: Store, p: Params, j: int)
    requires Valid(s) && Ramps(p.dir) && 0 <= j < p.noStep + 1
    ensures WaterTest(s, p).events[13 + 2 * j] == SetWe2(Wrap32(WaterStart(p) + WaterDrift(p.dir, p.noStep, p.vStep, j)))
  {
    WaterTestEvents(s, p, j);
    WaterSweepStep(s, p, j);
  }

  /**
    The 'n' water ramp with `no_step = 2k`: the WE2 DAC value climbs k steps
    from `1100 - V_Init - V_DAC_Water` and then descends, ending one step
    below where it started; the 'p' ramp is its mirror image from
    `1100 + V_Fin - V_DAC_Water`.
   */
  lemma {:induction false} WaterRamp(p: Params, k: int, j: int)
    requires Ramps(p.dir) && p.noStep == 2 * k && k >= 0 && 0 <= j <= 2 * k + 1
    ensures var m := p.vStep * (Min(j, k) - Max0(j - k));
      WaterDrift(p.dir, p.noStep, p.vStep, j) == (if p.dir == DirDown then m else -m)
    ensures WaterDrift(p.dir, p.noStep, p.vStep, 2 * k + 1) == (if p.dir == DirDown then -p.vStep else p.vStep)
  {
    WaterDriftDown(p.noStep, p.vStep, k, j);
    WaterDriftDown(p.noStep, p.vStep, k, 2 * k + 1);
  }
}

=== FILE: uart.dfy ===
/**
  The serial-port side of the EIS program (M355_ECSns_EIS.c): the
  interrupt handler that reads the receive FIFO into a 64-byte ring and
  turns command bytes into requests (lines 932..974), the AFE wake-up
  interrupt (line 928), and the main loop that acts on those requests
  (lines 207..247).

  The `wakeup` variable takes five values; here they are the constructors
  of `Wakeup`. The handler runs one of two paths chosen by the interrupt
  identification register: the receive path classifies every byte, the
  time-out path only stores it. The two paths check the ring index at
  different moments, and the time-out path can leave it one past the end:
  `StoreAsWritten` models that code, `Store` the wrap both paths were
  evidently meant to share, and the rest of the model uses `Store`.
 */
module Uart {
  import opened CInt

  /** UART_INBUFFER_LEN. */
  const BufferLen: nat := 64

  /**
    MCU_STATUS_ACTIVE, MCU_STATUS_SLEPT, MCU_STATUS_WAKEUP, MCU_SLEEP_UART
    and MCU_WAKEUP_UART (codes 0..4).
   */
  datatype Wakeup = Active | Slept | Waking | SleepRequested | WakeRequested

  /** The bytes '1'..'6' that request a measurement (line 944). */
  predicate IsDigitCommand(b: byte)
  {
    0x31 <= b <= 0x36
  }

  /** The bytes 0x39 ('9') and 0x01 that complete a wake-up (line 949). */
  predicate IsWakeByte(b: byte)
  {
    b == 0x39 || b == 0x01
  }

  /** `szInSring` and its write index `ucInCnt`. */
  datatype Ring = Ring(buf: seq<byte>, cnt: nat)

  predicate RingValid(r: Ring)
  {
    |r.buf| == BufferLen && r.cnt < BufferLen
  }

  datatype RingError = OutOfBounds(index: nat)   // a store at or past the end of the buffer

  /** `szInSring[ucInCnt++] = b`: an index at or past the end has no defined result. */
  function Put(r: Ring, b: byte): (o: Result<Ring, RingError>)
    ensures o.Err? <==> r.cnt >= |r.buf|
    ensures o.Err? ==> o.error == OutOfBounds(r.cnt)
    ensures o.Ok? ==> o.value.buf == r.buf[r.cnt := b] && o.value.cnt == r.cnt + 1
  {
    if r.cnt >= |r.buf| then Err(OutOfBounds(r.cnt))
    else Ok(Ring(r.buf[r.cnt := b], r.cnt + 1))
  }

  /** The receive path: store, then wrap an index that reached the end (lines 954..956). */
  function ReceiveStore(r: Ring, b: byte): (o: Result<Ring, RingError>)
    ensures |r.buf| == BufferLen && r.cnt < BufferLen ==> o.Ok? && RingValid(o.value)
  {
    match Put(r, b)
    case Err(e) => Err(e)
    case Ok(s) => Ok(if s.cnt >= BufferLen then s.(cnt := 0) else s)
  }

  /** The time-out path as written: wrap an index at the end, then store (lines 965..969). */
  function TimeoutStoreAsWritten(r: Ring, b: byte): (o: Result<Ring, RingError>)
    requires |r.buf| == BufferLen
    ensures o.Ok? && o.value.buf == r.buf[if r.cnt >= BufferLen then 0 else r.cnt := b]
    ensures o.value.cnt == (if r.cnt >= BufferLen then 1 else r.cnt + 1)
  {
    Put(if r.cnt >= BufferLen then r.(cnt := 0) else r, b)
  }

  datatype Path = ReceivePath | TimeoutPath

  /** One byte stored by the path that reads it, as the code does it. */
  function StoreAsWritten(r: Ring, b: byte, path: Path): (o: Result<Ring, RingError>)
    requires |r.buf| == BufferLen
    ensures path == TimeoutPath ==> o.Ok?
    ensures path == ReceivePath ==> (o.Err? <==> r.cnt >= BufferLen)
  {
    match path
    case ReceivePath => ReceiveStore(r, b)
    case TimeoutPath => TimeoutStoreAsWritten(r, b)
  }

  /**
    One byte stored into the ring, with the wrap after the increment on
    both paths: the byte lands at the index and the index moves on by one
    modulo the buffer length.
   */
  function Store(r: Ring, b: byte): (o: Ring)
    requires RingValid(r)
    ensures RingValid(o)
    ensures o.buf == r.buf[r.cnt := b] && o.cnt == (r.cnt + 1) % BufferLen
  {
    ReceiveStore(r, b).value
  }

  /**
    On a valid ring the receive path as written stores like `Store`; the
    time-out path writes the same byte to the same place, but leaves the
    index at 64 where `Store` wraps it to 0.
   */
  lemma {:induction false} StoreAgrees(r: Ring, b: byte)
    requires RingValid(r)
    ensures StoreAsWritten(r, b, ReceivePath) == Ok(Store(r, b))
    ensures var t := StoreAsWritten(r, b, TimeoutPath).value;
      t.buf == Store(r, b).buf && t.cnt % BufferLen == Store(r, b).cnt
      && (t.cnt == Store(r, b).cnt <==> r.cnt < BufferLen - 1)
  {
  }

  /**
    The time-out path can leave the index at 64, one past the buffer, and
    the next byte on the receive path is then stored out of bounds: from
    index 63, one byte by time-out and one by receive.
   */
  lemma {:induction false} TimeoutThenReceiveOverruns(r: Ring, b1: byte, b2: byte)
    requires RingValid(r) && r.cnt == BufferLen - 1
    ensures var t := StoreAsWritten(r, b1, TimeoutPath);
      t.Ok? && t.value.cnt == BufferLen
      && StoreAsWritten(t.value, b2, ReceivePath) == Err(OutOfBounds(BufferLen))
  {
  }

  /** The bytes of one FIFO read stored in turn, as written; the first failure stops the handler's effect. */
  function StoreAllAsWritten(r: Ring, bytes: seq<byte>, path: Path): (o: Result<Ring, RingError>)
    requires |r.buf| == BufferLen
    ensures o.Ok? ==> |o.value.buf| == BufferLen
    decreases |bytes|
  {
    if bytes == [] then Ok(r)
    else
      match StoreAllAsWritten(r, bytes[..|bytes| - 1], path)
      case Err(e) => Err(e)
      case Ok(s) =>
        match StoreAsWritten(s, bytes[|bytes| - 1], path)
        case Err(e) => Err(e)
        case Ok(t) => Ok(t)
  }

  /**
    Sixty-four bytes taken by the time-out path from an empty ring, over
    any number of FIFO reads, leave the index at 64, and one more byte on
    the receive path is then stored out of bounds.
   */
  lemma {:induction false} BurstThenReceiveOverruns(bytes: seq<byte>, b: byte)
    requires |bytes| == BufferLen
    ensures var t := StoreAllAsWritten(Ring(seq(BufferLen, _ => 0), 0), bytes, TimeoutPath);
      t.Ok? && t.value.cnt == BufferLen
      && StoreAsWritten(t.value, b, ReceivePath) == Err(OutOfBounds(BufferLen))
  {
    TimeoutCount(Ring(seq(BufferLen, _ => 0), 0), bytes);
  }

  /** The time-out path as written, from a valid ring: the index counts up to 64 and only wraps on the next byte. */
  lemma {:induction false} TimeoutCount(r: Ring, bytes: seq<byte>)
    requires RingValid(r) && |bytes| > 0
    ensures var t := StoreAllAsWritten(r, bytes, TimeoutPath);
      t.Ok? && t.value.cnt == (r.cnt + |bytes| - 1) % BufferLen + 1
    decreases |bytes|
  {
    var n := |bytes|;
    if n > 1 {
      TimeoutCount(r, bytes[..n - 1]);
    }
  }

  /** The corrected handler's store of one FIFO read, byte by byte. */
  function StoreAll(r: Ring, bytes: seq<byte>): (o: Ring)
    requires RingValid(r)
    ensures RingValid(o)
    decreases |bytes|
  {
    if bytes == [] then r
    else Store(StoreAll(r, bytes[..|bytes| - 1]), bytes[|bytes| - 1])
  }

  /** The index after storing `n` bytes has moved on by `n` modulo 64. */
  lemma {:induction false} StoreAllIndex(r: Ring, bytes: seq<byte>)
    requires RingValid(r)
    ensures StoreAll(r, bytes).cnt == Pos(r.cnt, |bytes|)
    decreases |bytes|
  {
    var n := |bytes|;
    if n > 0 {
      StoreAllIndex(r, bytes[..n - 1]);
      PosNext(r.cnt, n - 1);
    }
  }

  /** Each of the last 64 bytes stored is at its own position after the old index. */
  lemma {:induction false} StoreAllContents(r: Ring, bytes: seq<byte>)
    requires RingValid(r)
    ensures var o := StoreAll(r, bytes);
      forall i :: 0 <= i < |bytes| && |bytes| <= i + BufferLen ==> o.buf[Pos(r.cnt, i)] == bytes[i]
    decreases |bytes|
  {
    var n := |bytes|;
    if n > 0 {
      var front := bytes[..n - 1];
      StoreAllContents(r, front);
      StoreAllIndex(r, front);
      var s := StoreAll(r, front);
      var o := StoreAll(r, bytes);
      assert o.buf == s.buf[Pos(r.cnt, n - 1) := bytes[n - 1]];
      forall i | 0 <= i < n && n <= i + BufferLen
        ensures o.buf[Pos(r.cnt, i)] == bytes[i]
      {
        if i < n - 1 {
          RingDistinct(r.cnt, i, n - 1);
          assert s.buf[Pos(r.cnt, i)] == front[i];
        }
      }
    }
  }

  /** Positions fewer than 64 bytes have not reached keep their old bytes. */
  lemma {:induction false} StoreAllKeeps(r: Ring, bytes: seq<byte>)
    requires RingValid(r)
    ensures var o := StoreAll(r, bytes);
      forall k :: |bytes| <= k < BufferLen ==> o.buf[Pos(r.cnt, k)] == r.buf[Pos(r.cnt, k)]
    decreases |bytes|
  {
    var n := |bytes|;
    if n > 0 {
      var front := bytes[..n - 1];
      StoreAllKeeps(r, front);
      StoreAllIndex(r, front);
      var s := StoreAll(r, front);
      var o := StoreAll(r, bytes);
      assert o.buf == s.buf[Pos(r.cnt, n - 1) := bytes[n - 1]];
      forall k | n <= k < BufferLen
        ensures o.buf[Pos(r.cnt, k)] == r.buf[Pos(r.cnt, k)]
      {
        RingDistinct(r.cnt, n - 1, k);
      }
    }
  }

  lemma {:induction false} PosNext(c: nat, k: nat)
    ensures (Pos(c, k) + 1) % BufferLen == Pos(c, k + 1)
  {
  }

  /** The place in the ring `k` stores after index `c`. */
  function Pos(c: nat, k: nat): (p: nat)
    ensures p < BufferLen
  {
    (c + k) % BufferLen
  }

  /** Fewer than 64 steps apart, two positions of the ring differ. */
  lemma {:induction false} RingDistinct(c: nat, i: nat, j: nat)
    requires i < j < i + BufferLen
    ensures Pos(c, i) != Pos(c, j)
  {
  }

  /** The handler's state: the wake-up status, the latched test setting and the ring. */
  datatype Uart = Uart(wakeup: Wakeup, setting: byte, ring: Ring)

  predicate Valid(u: Uart)
  {
    RingValid(u.ring)
  }

  /** The state at reset: active, setting 0, an empty ring. */
  function Initial(): (u: Uart)
    ensures Valid(u) && u.wakeup == Active && u.setting == 0 && u.ring.cnt == 0
  {
    Uart(Active, 0, Ring(seq(BufferLen, _ => 0), 0))
  }

  /**
    What one byte read by the receive path requests: a digit '1'..'6'
    asks for a measurement from any state and latches the digit; '9' or
    0x01 completes a wake-up, and only from the waking state.
   */
  function Classify(w: Wakeup, setting: byte, b: byte): (o: (Wakeup, byte))
    ensures IsDigitCommand(b) ==> o == (SleepRequested, b)
    ensures IsWakeByte(b) ==> o == (if w == Waking then WakeRequested else w, setting)
    ensures !IsDigitCommand(b) && !IsWakeByte(b) ==> o == (w, setting)
  {
    if IsDigitCommand(b) then (SleepRequested, b)
    else if IsWakeByte(b) then
      (if w == Waking then WakeRequested else w, setting)
    else (w, setting)
  }

  /** One byte on the receive path: classified, then stored. */
  function ReceiveByte(u: Uart, b: byte): (o: Uart)
    requires Valid(u)
    ensures Valid(o) && o.ring == Store(u.ring, b)
    ensures (o.wakeup, o.setting) == Classify(u.wakeup, u.setting, b)
  {
    var (w, s) := Classify(u.wakeup, u.setting, b);
    Uart(w, s, Store(u.ring, b))
  }

  /** The receive path over the bytes of one FIFO read. */
  function ReceiveAll(u: Uart, bytes: seq<byte>): (o: Uart)
    requires Valid(u)
    ensures Valid(o)
    decreases |bytes|
  {
    if bytes == [] then u
    else ReceiveByte(ReceiveAll(u, bytes[..|bytes| - 1]), bytes[|bytes| - 1])
  }

  /**
    The receive path stores the bytes as `StoreAll` does, and leaves the
    setting at the last digit command of the read, or unchanged without
    one; a digit command leaves a measurement requested whatever follows.
   */
  lemma {:induction false} ReceiveAllEffect(u: Uart, bytes: seq<byte>)
    requires Valid(u)
    ensures var o := ReceiveAll(u, bytes);
      && o.ring == StoreAll(u.ring, bytes)
      && o.setting == LastDigit(bytes, u.setting)
      && ((exists i :: 0 <= i < |bytes| && IsDigitCommand(bytes[i])) ==> o.wakeup == SleepRequested)
    decreases |bytes|
  {
    var n := |bytes|;
    if n > 0 {
      var front := bytes[..n - 1];
      ReceiveAllEffect(u, front);
      if exists i :: 0 <= i < n && IsDigitCommand(bytes[i]) {
        var i :| 0 <= i < n && IsDigitCommand(bytes[i]);
        if i < n - 1 {
          assert IsDigitCommand(front[i]);
        }
      }
    }
  }

  /** The last digit command among `bytes`, or `setting` when there is none. */
  function LastDigit(bytes: seq<byte>, setting: byte): (d: byte)
    ensures d == setting || IsDigitCommand(d)
    decreases |bytes|
  {
    if bytes == [] then setting
    else if IsDigitCommand(bytes[|bytes| - 1]) then bytes[|bytes| - 1]
    else LastDigit(bytes[..|bytes| - 1], setting)
  }

  /**
    The time-out path over one FIFO read: bytes are stored and nothing else
    changes. The store is the corrected `Store`, which wraps the index at
    64 where the code as written leaves it one past the end.
   */
  function TimeoutAll(u: Uart, bytes: seq<byte>): (o: Uart)
    requires Valid(u)
    ensures Valid(o) && o.ring == StoreAll(u.ring, bytes)
    ensures o.wakeup == u.wakeup && o.setting == u.setting
  {
    u.(ring := StoreAll(u.ring, bytes))
  }

  /**
    UART_Int_Handler for the interrupt identification `iid` and the bytes
    in the receive FIFO: the receive path when bits 3:1 read 2, the
    time-out path when they read 6, nothing otherwise. Both paths store
    through `Store`; `InterruptAsWritten` is the ring effect as written.
   */
  function Interrupt(u: Uart, iid: bv32, fifo: seq<byte>): (o: Uart)
    requires Valid(u)
    ensures Valid(o)
    ensures iid & 0xE == 0x4 ==> o == ReceiveAll(u, fifo)
    ensures iid & 0xE == 0xC ==> o == TimeoutAll(u, fifo)
    ensures iid & 0xE != 0x4 && iid & 0xE != 0xC ==> o == u
  {
    if iid & 0xE == 0x4 then ReceiveAll(u, fifo)
    else if iid & 0xE == 0xC then TimeoutAll(u, fifo)
    else u
  }

  /** The handler as written: the same paths over `StoreAsWritten`, failing on a store out of bounds. */
  function InterruptAsWritten(u: Uart, iid: bv32, fifo: seq<byte>): (o: Result<Ring, RingError>)
    requires |u.ring.buf| == BufferLen
    ensures iid & 0xE == 0x4 ==> o == StoreAllAsWritten(u.ring, fifo, ReceivePath)
    ensures iid & 0xE == 0xC ==> o == StoreAllAsWritten(u.ring, fifo, TimeoutPath)
    ensures iid & 0xE != 0x4 && iid & 0xE != 0xC ==> o == Ok(u.ring)
    ensures o.Ok? ==> |o.value.buf| == BufferLen
  {
    if iid & 0xE == 0x4 then StoreAllAsWritten(u.ring, fifo, ReceivePath)
    else if iid & 0xE == 0xC then StoreAllAsWritten(u.ring, fifo, TimeoutPath)
    else Ok(u.ring)
  }

  /**
    The handler as written overruns the ring: a one-byte time-out read at
    index 63 leaves the index at 64, and a following one-byte receive read
    stores out of bounds.
   */
  lemma {:induction false} InterruptAsWrittenOverruns(w: Wakeup, s: byte, buf: seq<byte>, b1: byte, b2: byte)
    requires |buf| == BufferLen
    ensures var t := InterruptAsWritten(Uart(w, s, Ring(buf, BufferLen - 1)), 0xC, [b1]);
      && t.Ok? && t.value.cnt == BufferLen
      && InterruptAsWritten(Uart(w, s, t.value), 0x4, [b2]) == Err(OutOfBounds(BufferLen))
  {
    var r := Ring(buf, BufferLen - 1);
    TimeoutThenReceiveOverruns(r, b1, b2);
    var t := StoreAsWritten(r, b1, TimeoutPath).value;
    assert [b1][..0] == [];
    assert StoreAllAsWritten(r, [b1], TimeoutPath) == Ok(t);
    assert [b2][..0] == [];
    assert StoreAllAsWritten(t, [b2], ReceivePath) == Err(OutOfBounds(BufferLen));
  }

  /** Afe_Int3_Handler: the AFE wake-up interrupt marks the processor as waking, from any state. */
  function AfeWake(u: Uart): (o: Uart)
    ensures o.wakeup == Waking && o.setting == u.setting && o.ring == u.ring
  {
    u.(wakeup := Waking)
  }

  /**
    One pass of the main loop: a completed wake-up makes the processor
    active; a measurement request marks it slept and runs the frequency
    sweep (`sweep`); any other state is left alone.
   */
  datatype Step = Step(wakeup: Wakeup, sweep: bool)

  function MainStep(w: Wakeup): (s: Step)
    ensures s.wakeup != SleepRequested && s.wakeup != WakeRequested
    ensures s.sweep <==> w == SleepRequested
    ensures w == WakeRequested ==> s.wakeup == Active
    ensures w == SleepRequested ==> s.wakeup == Slept
    ensures w != WakeRequested && w != SleepRequested ==> s.wakeup == w
  {
    match w
    case WakeRequested => Step(Active, false)
    case SleepRequested => Step(Slept, true)
    case _ => Step(w, false)
  }

  /**
    The main loop tests `wakeup` (lines 207 and 214) and writes it (lines
    209 and 216) in two separate accesses, and either interrupt handler may
    run between them. `read` is the value the loop tested and `current`
    the value when it writes: a pass that acts writes over whatever a
    handler stored in between; a pass that does not act writes nothing.
   */
  function MainWrite(read: Wakeup, current: Wakeup): (s: Step)
    ensures read == WakeRequested || read == SleepRequested ==> s == MainStep(read)
    ensures read != WakeRequested && read != SleepRequested ==> s == Step(current, false)
  {
    match read
    case WakeRequested => Step(Active, false)
    case SleepRequested => Step(Slept, true)
    case _ => Step(current, false)
  }

  /** With no interrupt between the test and the write, a pass is `MainStep`. */
  lemma {:induction false} MainWriteUninterrupted(w: Wakeup)
    ensures MainWrite(w, w) == MainStep(w)
  {
  }

  /**
    A digit received between the test of a completed wake-up and the
    write of `Active` is lost: the handler requests a measurement, the
    loop then writes `Active` over it, and no sweep runs.
   */
  lemma {:induction false} DigitLostInWindow(u: Uart, d: byte)
    requires Valid(u) && u.wakeup == WakeRequested && IsDigitCommand(d)
    ensures Interrupt(u, 0x4, [d]).wakeup == SleepRequested
    ensures MainWrite(u.wakeup, Interrupt(u, 0x4, [d]).wakeup) == Step(Active, false)
  {
    assert [d][..0] == [];
  }

  /**
    An AFE wake-up between the test of a measurement request and the write
    of `Slept` is lost: the loop writes `Slept` over `Waking`, and a wake
    byte that follows no longer completes the wake-up.
   */
  lemma {:induction false} WakeLostInWindow(u: Uart, b: byte)
    requires Valid(u) && u.wakeup == SleepRequested && IsWakeByte(b)
    ensures AfeWake(u).wakeup == Waking
    ensures var s := MainWrite(u.wakeup, AfeWake(u).wakeup);
      && s == Step(Slept, true)
      && ReceiveByte(AfeWake(u).(wakeup := s.wakeup), b).wakeup == Slept
  {
  }

  /**
    The wake-up handshake: after the AFE interrupt, a wake byte on the
    receive path and one pass of the main loop, the processor is active,
    whatever state it was in.
   */
  lemma {:induction false} WakeHandshake(u: Uart, b: byte)
    requires Valid(u) && IsWakeByte(b)
    ensures MainStep(ReceiveByte(AfeWake(u), b).wakeup) == Step(Active, false)
  {
  }

  /** Without the AFE interrupt first, a wake byte changes nothing but the ring. */
  lemma {:induction false} WakeByteNeedsWaking(u: Uart, b: byte)
    requires Valid(u) && IsWakeByte(b) && u.wakeup != Waking
    ensures var o := ReceiveByte(u, b); o.wakeup == u.wakeup && o.setting == u.setting
  {
  }

  /** A digit command that arrives by the time-out path is stored but never acted on. */
  lemma {:induction false} TimeoutDigitIgnored(u: Uart, iid: bv32, fifo: seq<byte>)
    requires Valid(u) && iid & 0xE == 0xC
    ensures MainStep(Interrupt(u, iid, fifo).wakeup).sweep <==> u.wakeup == SleepRequested
  {
  }
}

=== FILE: waveforms.dfy ===
/**
  The measurement loops of the ' ' (start) command of the amperometric
  program: electrode cleaning, the dither runs, the cyclic-voltammetry
  staircase, the square-wave pulse pairs and the water test.

  Every hardware run `adi_AFE_RunSequence` is an event carrying the words
  of the sequence run; every `AD5683R_WE2_Voltage` call is an event
  carrying the value written. Each loop returns one entry per iteration,
  and `StepEvents` and `PulseEvents` flatten the entries into the trace
  the loop produces.
 */
module Waveforms {
  import opened CInt
  import opened Templates
  import opened Setup

  datatype Event = Run(id: SeqId, words: Sequence) | SetWe2(value: uint32)

  /** How many hardware runs a trace holds. */
  function RunCount(t: seq<Event>): (n: nat)
    ensures n <= |t|
  {
    if |t| == 0 then 0 else (if t[0].Run? then 1 else 0) + RunCount(t[1..])
  }

  lemma {:induction false} RunCountAppend(a: seq<Event>, b: seq<Event>)
    ensures RunCount(a + b) == RunCount(a) + RunCount(b)
    decreases |a|
  {
    if |a| == 0 {
      assert a + b == b;
    } else {
      assert (a + b)[1..] == a[1..] + b;
      RunCountAppend(a[1..], b);
    }
  }

  // ---- repeated runs: cleaning and dither (lines 777..801, 828..852, 961..985)

  /** The words of each run, in order. */
  function RunEvents(id: SeqId, runs: seq<Sequence>): (t: seq<Event>)
    ensures |t| == |runs| && RunCount(t) == |runs|
  {
    if |runs| == 0 then [] else [Run(id, runs[0])] + RunEvents(id, runs[1..])
  }

  /** Entry `j` is run `j`. */
  lemma {:induction false} RunEventsIndex(id: SeqId, runs: seq<Sequence>, j: int)
    requires 0 <= j < |runs|
    ensures RunEvents(id, runs)[j] == Run(id, runs[j])
    decreases j
  {
    if j > 0 {
      RunEventsIndex(id, runs[1..], j - 1);
      assert RunEvents(id, runs)[j] == RunEvents(id, runs[1..])[j - 1];
    }
  }

  /** Entry `j` of runs placed after `head`. */
  lemma {:induction false} RunEventsAfter(head: seq<Event>, id: SeqId, runs: seq<Sequence>, j: int)
    requires 0 <= j < |runs|
    ensures (head + RunEvents(id, runs))[|head| + j] == Run(id, runs[j])
  {
    RunEventsIndex(id, runs, j);
  }

  datatype Repeat = Repeat(store: Store, runs: seq<Sequence>)

  /**
    `n` iterations of: run sequence `runId`, then write `level` to both DAC
    words of sequence `patchId`. Both arms of `if (loop > 79)` in the source
    assign the same code, so the level written never changes.
   */
  function RunThenPatch(s: Store, runId: SeqId, patchId: SeqId, level: int, n: nat): (o: Repeat)
    requires Valid(s)
    ensures Valid(o.store) && |o.runs| == n
    decreases n
  {
    if n == 0 then Repeat(s, [])
    else
      var rest := RunThenPatch(SetLevels(s, patchId, level, level), runId, patchId, level, n - 1);
      Repeat(rest.store, [Get(s, runId)] + rest.runs)
  }

  /**
    `n` iterations of RunThenPatch in closed form: the first run sees the
    store as found, every later run sees it patched, and the store ends
    patched once (writing the same level again changes nothing).
   */
  function SettledRepeat(s: Store, runId: SeqId, patchId: SeqId, level: int, n: nat): (o: Repeat)
    requires Valid(s)
    ensures Valid(o.store) && |o.runs| == n
  {
    if n == 0 then Repeat(s, [])
    else
      var s' := SetLevels(s, patchId, level, level);
      Repeat(s', [Get(s, runId)] + seq(n - 1, _ => Get(s', runId)))
  }

  /** The loop and its closed form agree for every count. */
  lemma {:induction false} RunThenPatchSettles(s: Store, runId: SeqId, patchId: SeqId, level: int, n: nat)
    requires Valid(s)
    ensures RunThenPatch(s, runId, patchId, level, n) == SettledRepeat(s, runId, patchId, level, n)
    decreases n
  {
    if n > 1 {
      var s' := SetLevels(s, patchId, level, level);
      RunThenPatchSettles(s', runId, patchId, level, n - 1);
      SetLevelsIdempotent(s, patchId, level, level);
      assert [Get(s', runId)] + seq(n - 2, _ => Get(s', runId)) == seq(n - 1, _ => Get(s', runId));
    }
  }

  /**
    The water-test dither (lines 1100..1131): the levels are written before
    and after each run.
   */
  function PatchRunPatch(s: Store, id: SeqId, level: int, n: nat): (o: Repeat)
    requires Valid(s)
    ensures Valid(o.store) && |o.runs| == n
    decreases n
  {
    if n == 0 then Repeat(s, [])
    else
      var s1 := SetLevels(s, id, level, level);
      var rest := PatchRunPatch(SetLevels(s1, id, level, level), id, level, n - 1);
      Repeat(rest.store, [Get(s1, id)] + rest.runs)
  }

  /** Writing before each run is the same as writing once up front. */
  lemma {:induction false} PatchRunPatchIsPrepatched(s: Store, id: SeqId, level: int, n: nat)
    requires Valid(s) && n >= 1
    ensures PatchRunPatch(s, id, level, n) == RunThenPatch(SetLevels(s, id, level, level), id, id, level, n)
    decreases n
  {
    var s1 := SetLevels(s, id, level, level);
    SetLevelsIdempotent(s, id, level, level);
    if n > 1 {
      PatchRunPatchIsPrepatched(s1, id, level, n - 1);
      SetLevelsIdempotent(s1, id, level, level);
    }
  }

  /** The water-test dither is the closed form started from the store patched once. */
  lemma {:induction false} PatchRunPatchSettles(s: Store, id: SeqId, level: int, n: nat)
    requires Valid(s) && n >= 1
    ensures PatchRunPatch(s, id, level, n) == SettledRepeat(SetLevels(s, id, level, level), id, id, level, n)
  {
    PatchRunPatchIsPrepatched(s, id, level, n);
    RunThenPatchSettles(SetLevels(s, id, level, level), id, id, level, n);
  }

  // ---- the staircases

  const DirDown: byte := 110   // 'n'
  const DirUp: byte := 112     // 'p'

  function Min(a: int, b: int): int
  {
    if a < b then a else b
  }

  function Max0(a: int): nat
  {
    if a < 0 then 0 else a
  }

  /** `no_step/2` in C: the halving truncates toward zero. */
  function Half(n: int): int
  {
    if n < 0 then -((-n) / 2) else n / 2
  }

  lemma {:induction false} HalfIsCDiv(n: int)
    ensures Half(n) == CDiv(n, 2)
  {
  }

  /** One iteration of a staircase: the words run and the WE2 value written after the run. */
  datatype Step = Step(run: Sequence, we2: uint32)

  function StepEvents(id: SeqId, steps: seq<Step>): (t: seq<Event>)
    ensures |t| == 2 * |steps| && RunCount(t) == |steps|
  {
    if |steps| == 0 then []
    else
      var rest := StepEvents(id, steps[1..]);
      assert [Run(id, steps[0].run), SetWe2(steps[0].we2)] + rest == [Run(id, steps[0].run)] + ([SetWe2(steps[0].we2)] + rest);
      RunCountAppend([Run(id, steps[0].run)], [SetWe2(steps[0].we2)] + rest);
      [Run(id, steps[0].run), SetWe2(steps[0].we2)] + rest
  }

  /** Entries `2j` and `2j + 1` are the run and the WE2 write of step `j`. */
  lemma {:induction false} StepEventsIndex(id: SeqId, steps: seq<Step>, j: int)
    requires 0 <= j < |steps|
    ensures StepEvents(id, steps)[2 * j] == Run(id, steps[j].run)
    ensures StepEvents(id, steps)[2 * j + 1] == SetWe2(steps[j].we2)
    decreases j
  {
    if j > 0 {
      var t, rest := StepEvents(id, steps), StepEvents(id, steps[1..]);
      StepEventsIndex(id, steps[1..], j - 1);
      assert t[2 * j] == rest[2 * (j - 1)];
      assert t[2 * j + 1] == rest[2 * (j - 1) + 1];
    }
  }

  /**
    What a loop leaves behind: the words of WE3 (the only sequence the
    loops write), the working level `v`, V_WE2, and one entry per iteration.
   */
  datatype Sweep<T> = Sweep(we3: Sequence, v: int, we2: uint32, trace: seq<T>)

  /**
    How `v` and V_WE2 move after run `loop` of the CV staircase
    (lines 899..926): for 'n' down while `loop < no_step/2`, then up; for
    'p' up until `loop > no_step/2`, then down; otherwise not at all.
   */
  function CvDelta(dir: byte, noStep: int, step: int, loop: int): int
  {
    if dir == DirDown then (if loop < Half(noStep) then -step else step)
    else if dir == DirUp then (if loop > Half(noStep) then -step else step)
    else 0
  }

  /** How many of the runs `0 .. j - 1` come before run `h`. */
  function Before(j: int, h: int): nat
  {
    Min(Max0(j), Max0(h))
  }

  /**
    The net movement after the first `j` runs, counted: for 'n' the runs
    before `no_step/2` go down and the rest up; for 'p' the runs up to
    `no_step/2` go up and the rest down.
   */
  function CvDrift(dir: byte, noStep: int, step: int, j: int): int
  {
    if dir == DirDown then step * (Max0(j) - 2 * Before(j, Half(noStep)))
    else if dir == DirUp then step * (2 * Before(j, Half(noStep) + 1) - Max0(j))
    else 0
  }

  /** The net movement after the first `j` runs as the loop accumulates it. */
  function CvDriftSum(dir: byte, noStep: int, step: int, j: int): int
    decreases j
  {
    if j <= 0 then 0 else CvDriftSum(dir, noStep, step, j - 1) + CvDelta(dir, noStep, step, j - 1)
  }

  /** One more run adds that run's movement. */
  lemma {:induction false} CvDriftStep(dir: byte, noStep: int, step: int, j: int)
    requires 0 <= j
    ensures CvDrift(dir, noStep, step, j + 1) == CvDrift(dir, noStep, step, j) + CvDelta(dir, noStep, step, j)
  {
    var h := Half(noStep);
    if dir == DirDown {
      if j < h {
        assert step * (j + 1 - 2 * (j + 1)) == step * (j - 2 * j) - step;
      } else {
        assert step * (j + 1 - 2 * Max0(h)) == step * (j - 2 * Max0(h)) + step;
      }
    } else if dir == DirUp {
      if j < h + 1 {
        assert step * (2 * (j + 1) - (j + 1)) == step * (2 * j - j) + step;
      } else {
        assert step * (2 * Max0(h + 1) - (j + 1)) == step * (2 * Max0(h + 1) - j) - step;
      }
    }
  }

  /** The counted drift is the accumulated one, for every number of runs. */
  lemma {:induction false} CvDriftIsSum(dir: byte, noStep: int, step: int, j: int)
    ensures CvDriftSum(dir, noStep, step, j) == CvDrift(dir, noStep, step, j)
    decreases j
  {
    if j > 0 {
      CvDriftIsSum(dir, noStep, step, j - 1);
      CvDriftStep(dir, noStep, step, j - 1);
    }
  }

  /**
    The CV loop from iteration `loop` on (lines 889..932), over the words
    `t` of WE3: run WE3, write V_WE2, move `v` and V_WE2 by the same
    amount, write `v` to both DAC words of WE3.
   */
  function CvLoop(t: Sequence, v: int, we2: uint32, dir: byte, step: int, noStep: int, loop: int): (w: Sweep<Step>)
    requires |t| == SeqLen
    ensures |w.we3| == SeqLen && |w.trace| == Max0(noStep + 1 - loop)
    decreases noStep + 1 - loop
  {
    if loop >= noStep + 1 then Sweep(t, v, we2, [])
    else
      var d := CvDelta(dir, noStep, step, loop);
      var rest := CvLoop(WithLevels(t, v + d, v + d), v + d, Wrap32(we2 + d), dir, step, noStep, loop + 1);
      Sweep(rest.we3, rest.v, rest.we2, [Step(t, we2)] + rest.trace)
  }

  lemma {:induction false} CvLoopUnfold(t: Sequence, v: int, we2: uint32, dir: byte, step: int, noStep: int, loop: int)
    requires |t| == SeqLen && loop < noStep + 1
    ensures var d := CvDelta(dir, noStep, step, loop);
      var rest := CvLoop(WithLevels(t, v + d, v + d), v + d, Wrap32(we2 + d), dir, step, noStep, loop + 1);
      CvLoop(t, v, we2, dir, step, noStep, loop) == Sweep(rest.we3, rest.v, rest.we2, [Step(t, we2)] + rest.trace)
  {
  }

  /** Iteration `i` of a CV loop started at level `v0` and WE2 value `we20`. */
  function CvStepAt(base: Sequence, v0: int, we20: int, dir: byte, step: int, noStep: int, i: int): Step
    requires |base| == SeqLen
  {
    var level := v0 + CvDrift(dir, noStep, step, i);
    Step(WithLevels(base, level, level), Wrap32(we20 + CvDrift(dir, noStep, step, i)))
  }

  /** The state after one iteration satisfies the loop's hypotheses for the next. */
  lemma {:induction false} CvNextState(base: Sequence, t: Sequence, v0: int, we20: int, v: int, we2: uint32,
                    dir: byte, step: int, noStep: int, loop: int)
    requires |base| == SeqLen && 0 <= loop
    requires t == WithLevels(base, v, v)
    requires v == v0 + CvDrift(dir, noStep, step, loop)
    requires we2 == Wrap32(we20 + CvDrift(dir, noStep, step, loop))
    ensures var d := CvDelta(dir, noStep, step, loop);
      && WithLevels(t, v + d, v + d) == WithLevels(base, v + d, v + d)
      && v + d == v0 + CvDrift(dir, noStep, step, loop + 1)
      && Wrap32(we2 + d) == Wrap32(we20 + CvDrift(dir, noStep, step, loop + 1))
  {
    var d := CvDelta(dir, noStep, step, loop);
    WithLevelsTwice(base, v, v, v + d, v + d);
    CvDriftStep(dir, noStep, step, loop);
    WrapSummand(d, we20 + CvDrift(dir, noStep, step, loop));
  }

  /**
    Where the CV loop ends: `v` and V_WE2 have moved by the whole drift and
    WE3 holds the final level in both DAC words and is otherwise as before.
   */
  lemma {:induction false} CvLoopEnd(base: Sequence, t: Sequence, v0: int, we20: int, v: int, we2: uint32,
                                     dir: byte, step: int, noStep: int, loop: int)
    requires |base| == SeqLen && 0 <= loop
    requires t == WithLevels(base, v, v)
    requires v == v0 + CvDrift(dir, noStep, step, loop)
    requires we2 == Wrap32(we20 + CvDrift(dir, noStep, step, loop))
    ensures var w := CvLoop(t, v, we2, dir, step, noStep, loop);
      && w.v == v0 + CvDrift(dir, noStep, step, loop + |w.trace|)
      && w.we2 == Wrap32(we20 + CvDrift(dir, noStep, step, loop + |w.trace|))
      && w.we3 == WithLevels(base, w.v, w.v)
  {
    CvLoopLevel(t, v0, we20, v, we2, dir, step, noStep, loop);
    CvLoopWe3(base, t, v, we2, dir, step, noStep, loop);
    var w := CvLoop(t, v, we2, dir, step, noStep, loop);
    assert loop + |w.trace| == if loop < noStep + 1 then noStep + 1 else loop;
  }

  lemma {:induction false} CvLoopLevel(t: Sequence, v0: int, we20: int, v: int, we2: uint32,
                                       dir: byte, step: int, noStep: int, loop: int)
    requires |t| == SeqLen && 0 <= loop
    requires v == v0 + CvDrift(dir, noStep, step, loop)
    requires we2 == Wrap32(we20 + CvDrift(dir, noStep, step, loop))
    ensures var w := CvLoop(t, v, we2, dir, step, noStep, loop);
      var last := if loop < noStep + 1 then noStep + 1 else loop;
      && w.v == v0 + CvDrift(dir, noStep, step, last)
      && w.we2 == Wrap32(we20 + CvDrift(dir, noStep, step, last))
    decreases noStep + 1 - loop
  {
    if loop < noStep + 1 {
      var d := CvDelta(dir, noStep, step, loop);
      CvLoopUnfold(t, v, we2, dir, step, noStep, loop);
      CvNextLevel(v0, we20, v, we2, dir, step, noStep, loop);
      CvLoopLevel(WithLevels(t, v + d, v + d), v0, we20, v + d, Wrap32(we2 + d), dir, step, noStep, loop + 1);
    }
  }

  /** One move of the level: the level and V_WE2 have moved by the drift of one more run. */
  lemma {:induction false} CvNextLevel(v0: int, we20: int, v: int, we2: uint32, dir: byte, step: int, noStep: int, loop: int)
    requires 0 <= loop
    requires v == v0 + CvDrift(dir, noStep, step, loop)
    requires we2 == Wrap32(we20 + CvDrift(dir, noStep, step, loop))
    ensures var d := CvDelta(dir, noStep, step, loop);
      && v + d == v0 + CvDrift(dir, noStep, step, loop + 1)
      && Wrap32(we2 + d) == Wrap32(we20 + CvDrift(dir, noStep, step, loop + 1))
  {
    CvDriftStep(dir, noStep, step, loop);
    WrapSummand(CvDelta(dir, noStep, step, loop), we20 + CvDrift(dir, noStep, step, loop));
  }

  lemma {:induction false} CvLoopWe3(base: Sequence, t: Sequence, v: int, we2: uint32,
                                     dir: byte, step: int, noStep: int, loop: int)
    requires |base| == SeqLen
    requires t == WithLevels(base, v, v)
    ensures var w := CvLoop(t, v, we2, dir, step, noStep, loop);
      w.we3 == WithLevels(base, w.v, w.v)
    decreases noStep + 1 - loop
  {
    if loop < noStep + 1 {
      var d := CvDelta(dir, noStep, step, loop);
      CvLoopUnfold(t, v, we2, dir, step, noStep, loop);
      WithLevelsTwice(base, v, v, v + d, v + d);
      CvLoopWe3(base, WithLevels(t, v + d, v + d), v + d, Wrap32(we2 + d), dir, step, noStep, loop + 1);
    }
  }

  /** Entry j of `t` is iteration `loop + j` of the CV loop started at `v0`, `we20`. */
  predicate CvTraceFrom(t: seq<Step>, base: Sequence, v0: int, we20: int, dir: byte, step: int, noStep: int, loop: int)
    requires |base| == SeqLen
  {
    forall j :: 0 <= j < |t| ==> t[j] == CvStepAt(base, v0, we20, dir, step, noStep, loop + j)
  }

  lemma {:induction false} CvTraceCons(t: seq<Step>, rest: seq<Step>, base: Sequence, v0: int, we20: int, dir: byte, step: int, noStep: int, loop: int)
    requires |base| == SeqLen
    requires t == [CvStepAt(base, v0, we20, dir, step, noStep, loop)] + rest
    requires CvTraceFrom(rest, base, v0, we20, dir, step, noStep, loop + 1)
    ensures CvTraceFrom(t, base, v0, we20, dir, step, noStep, loop)
  {
    forall j | 0 <= j < |t|
      ensures t[j] == CvStepAt(base, v0, we20, dir, step, noStep, loop + j)
    {
      if j > 0 {
        assert t[j] == rest[j - 1];
      }
    }
  }

  /**
    Every run of the CV loop applies the start level moved by the drift so
    far, in both DAC words, with the rest of WE3 untouched, and the WE2 value
    written after it has moved by the same drift modulo 2^32.
   */
  lemma {:induction false} CvLoopTrace(base: Sequence, t: Sequence, v0: int, we20: int, v: int, we2: uint32,
                                       dir: byte, step: int, noStep: int, loop: int)
    requires |base| == SeqLen && 0 <= loop
    requires t == WithLevels(base, v, v)
    requires v == v0 + CvDrift(dir, noStep, step, loop)
    requires we2 == Wrap32(we20 + CvDrift(dir, noStep, step, loop))
    ensures CvTraceFrom(CvLoop(t, v, we2, dir, step, noStep, loop).trace, base, v0, we20, dir, step, noStep, loop)
    decreases noStep + 1 - loop
  {
    if loop < noStep + 1 {
      var d := CvDelta(dir, noStep, step, loop);
      var t' := WithLevels(t, v + d, v + d);
      var w := CvLoop(t, v, we2, dir, step, noStep, loop).trace;
      var rest := CvLoop(t', v + d, Wrap32(we2 + d), dir, step, noStep, loop + 1).trace;
      assert w == [CvStepAt(base, v0, we20, dir, step, noStep, loop)] + rest by {
        CvLoopUnfold(t, v, we2, dir, step, noStep, loop);
      }
      assert CvTraceFrom(rest, base, v0, we20, dir, step, noStep, loop + 1) by {
        CvNextState(base, t, v0, we20, v, we2, dir, step, noStep, loop);
        CvLoopTrace(base, t', v0, we20, v + d, Wrap32(we2 + d), dir, step, noStep, loop + 1);
      }
      CvTraceCons(w, rest, base, v0, we20, dir, step, noStep, loop);
    }
  }

  /**
    The 'n' staircase with `no_step = 2k`: down k steps, then up; run `j`
    applies `start - min(j, k) * step + max(0, j - k) * step`, so the last
    run (j = 2k) is back at the start and the level after it is one step
    above.
   */
  lemma {:induction false} CvDriftDown(noStep: int, step: int, k: int, j: int)
    requires noStep == 2 * k && k >= 0 && 0 <= j <= 2 * k + 1
    ensures CvDrift(DirDown, noStep, step, j) == step * (Max0(j - k) - Min(j, k))
  {
    assert Half(noStep) == k;
    assert Max0(j) - 2 * Before(j, k) == Max0(j - k) - Min(j, k);
  }

  /**
    The 'p' staircase with `no_step = 2k`: up k + 1 steps (the test is
    `loop > no_step/2`), then down; run `j` applies
    `start + min(j, k + 1) * step - max(0, j - k - 1) * step`.
   */
  lemma {:induction false} CvDriftUp(noStep: int, step: int, k: int, j: int)
    requires noStep == 2 * k && k >= 0 && 0 <= j <= 2 * k + 1
    ensures CvDrift(DirUp, noStep, step, j) == step * (Min(j, k + 1) - Max0(j - k - 1))
  {
    assert Half(noStep) + 1 == k + 1;
    assert 2 * Before(j, k + 1) - Max0(j) == Min(j, k + 1) - Max0(j - k - 1);
  }


  /** Step `j` placed after `head`. */
  lemma {:induction false} StepEventsAfter(head: seq<Event>, id: SeqId, steps: seq<Step>, j: int)
    requires 0 <= j < |steps|
    ensures (head + StepEvents(id, steps))[|head| + 2 * j] == Run(id, steps[j].run)
    ensures (head + StepEvents(id, steps))[|head| + 2 * j + 1] == SetWe2(steps[j].we2)
  {
    StepEventsIndex(id, steps, j);
  }

  // ---- square-wave voltammetry (lines 996..1070)

  /** One SWV iteration: the run at base + amplitude, the WE2 write, the run at base - amplitude. */
  datatype Pulse = Pulse(high: Sequence, we2: uint32, low: Sequence)

  function PulseEvents(pulses: seq<Pulse>): (t: seq<Event>)
    ensures |t| == 3 * |pulses| && RunCount(t) == 2 * |pulses|
  {
    if |pulses| == 0 then []
    else
      var p := pulses[0];
      var rest := PulseEvents(pulses[1..]);
      assert [Run(We3, p.high), SetWe2(p.we2), Run(We3, p.low)] + rest
          == [Run(We3, p.high)] + ([SetWe2(p.we2)] + ([Run(We3, p.low)] + rest));
      RunCountAppend([Run(We3, p.high)], [SetWe2(p.we2)] + ([Run(We3, p.low)] + rest));
      RunCountAppend([SetWe2(p.we2)], [Run(We3, p.low)] + rest);
      RunCountAppend([Run(We3, p.low)], rest);
      [Run(We3, p.high), SetWe2(p.we2), Run(We3, p.low)] + rest
  }

  /** Entries `3j`, `3j + 1` and `3j + 2` are the two runs and the WE2 write of pulse pair `j`. */
  lemma {:induction false} PulseEventsIndex(pulses: seq<Pulse>, j: int)
    requires 0 <= j < |pulses|
    ensures PulseEvents(pulses)[3 * j] == Run(We3, pulses[j].high)
    ensures PulseEvents(pulses)[3 * j + 1] == SetWe2(pulses[j].we2)
    ensures PulseEvents(pulses)[3 * j + 2] == Run(We3, pulses[j].low)
    decreases j
  {
    if j > 0 {
      var t, rest := PulseEvents(pulses), PulseEvents(pulses[1..]);
      PulseEventsIndex(pulses[1..], j - 1);
      assert t[3 * j] == rest[3 * (j - 1)];
      assert t[3 * j + 1] == rest[3 * (j - 1) + 1];
      assert t[3 * j + 2] == rest[3 * (j - 1) + 2];
    }
  }

  /** Pulse pair `j` placed after `head`. */
  lemma {:induction false} PulseEventsAfter(head: seq<Event>, pulses: seq<Pulse>, j: int)
    requires 0 <= j < |pulses|
    ensures (head + PulseEvents(pulses))[|head| + 3 * j] == Run(We3, pulses[j].high)
    ensures (head + PulseEvents(pulses))[|head| + 3 * j + 1] == SetWe2(pulses[j].we2)
    ensures (head + PulseEvents(pulses))[|head| + 3 * j + 2] == Run(We3, pulses[j].low)
  {
    PulseEventsIndex(pulses, j);
  }

  /** The base moves down for 'n', up for 'p', and otherwise stays. */
  function SwvDelta(dir: byte, step: int): int
  {
    if dir == DirDown then -step else if dir == DirUp then step else 0
  }

  /**
    The SWV loop from iteration `loop` to `iters`, over the words `t` of
    WE3 (holding base + amplitude): run WE3, write V_WE2, write base -
    amplitude, run WE3 again, move the base and V_WE2 by the same amount,
    write base + amplitude.
   */
  function SwvLoop(t: Sequence, v: int, we2: uint32, dir: byte, step: int, amp: int, iters: int, loop: int): (w: Sweep<Pulse>)
    requires |t| == SeqLen
    ensures |w.we3| == SeqLen && |w.trace| == Max0(iters - loop)
    decreases iters - loop
  {
    if loop >= iters then Sweep(t, v, we2, [])
    else
      var t1 := WithLevels(t, v - amp, v - amp);
      var d := SwvDelta(dir, step);
      var rest := SwvLoop(WithLevels(t1, v + d + amp, v + d + amp), v + d, Wrap32(we2 + d), dir, step, amp, iters, loop + 1);
      Sweep(rest.we3, rest.v, rest.we2, [Pulse(t, we2, t1)] + rest.trace)
  }

  lemma {:induction false} SwvLoopUnfold(t: Sequence, v: int, we2: uint32, dir: byte, step: int, amp: int, iters: int, loop: int)
    requires |t| == SeqLen && loop < iters
    ensures var t1 := WithLevels(t, v - amp, v - amp);
      var d := SwvDelta(dir, step);
      var rest := SwvLoop(WithLevels(t1, v + d + amp, v + d + amp), v + d, Wrap32(we2 + d), dir, step, amp, iters, loop + 1);
      SwvLoop(t, v, we2, dir, step, amp, iters, loop) == Sweep(rest.we3, rest.v, rest.we2, [Pulse(t, we2, t1)] + rest.trace)
  {
  }

  /**
    Iteration `i` of an SWV loop whose base started at `v0`: both runs are
    the base `v0 + i * d` plus and minus the amplitude, recomputed from the
    base rather than accumulated, and V_WE2 has moved with the base.
   */
  function SwvPulseAt(base: Sequence, v0: int, we20: int, d: int, amp: int, i: int): Pulse
    requires |base| == SeqLen
  {
    var b := v0 + i * d;
    Pulse(WithLevels(base, b + amp, b + amp), Wrap32(we20 + i * d), WithLevels(base, b - amp, b - amp))
  }

  predicate SwvTraceFrom(t: seq<Pulse>, base: Sequence, v0: int, we20: int, d: int, amp: int, loop: int)
    requires |base| == SeqLen
  {
    forall j :: 0 <= j < |t| ==> t[j] == SwvPulseAt(base, v0, we20, d, amp, loop + j)
  }

  lemma {:induction false} SwvTraceCons(t: seq<Pulse>, rest: seq<Pulse>, base: Sequence, v0: int, we20: int, d: int, amp: int, loop: int)
    requires |base| == SeqLen
    requires t == [SwvPulseAt(base, v0, we20, d, amp, loop)] + rest
    requires SwvTraceFrom(rest, base, v0, we20, d, amp, loop + 1)
    ensures SwvTraceFrom(t, base, v0, we20, d, amp, loop)
  {
    forall j | 0 <= j < |t|
      ensures t[j] == SwvPulseAt(base, v0, we20, d, amp, loop + j)
    {
      if j > 0 {
        assert t[j] == rest[j - 1];
      }
    }
  }

  /** The state after one SWV iteration satisfies the loop's hypotheses for the next. */
  lemma {:induction false} SwvNextState(base: Sequence, t: Sequence, v0: int, we20: int, v: int, we2: uint32,
                     dir: byte, step: int, amp: int, loop: int)
    requires |base| == SeqLen
    requires t == WithLevels(base, v + amp, v + amp)
    requires v == v0 + loop * SwvDelta(dir, step)
    requires we2 == Wrap32(we20 + loop * SwvDelta(dir, step))
    ensures var d := SwvDelta(dir, step);
      var t1 := WithLevels(t, v - amp, v - amp);
      && t1 == WithLevels(base, v - amp, v - amp)
      && WithLevels(t1, v + d + amp, v + d + amp) == WithLevels(base, v + d + amp, v + d + amp)
      && v + d == v0 + (loop + 1) * d
      && Wrap32(we2 + d) == Wrap32(we20 + (loop + 1) * d)
  {
    var d := SwvDelta(dir, step);
    WithLevelsTwice(base, v + amp, v + amp, v - amp, v - amp);
    WithLevelsTwice(base, v - amp, v - amp, v + d + amp, v + d + amp);
    WrapSummand(d, we20 + loop * d);
    assert (loop + 1) * d == loop * d + d;
  }

  /** Every SWV iteration is a pulse pair around the current base. */
  lemma {:induction false} SwvLoopTrace(base: Sequence, t: Sequence, v0: int, we20: int, v: int, we2: uint32,
                                        dir: byte, step: int, amp: int, iters: int, loop: int)
    requires |base| == SeqLen
    requires t == WithLevels(base, v + amp, v + amp)
    requires v == v0 + loop * SwvDelta(dir, step)
    requires we2 == Wrap32(we20 + loop * SwvDelta(dir, step))
    ensures SwvTraceFrom(SwvLoop(t, v, we2, dir, step, amp, iters, loop).trace, base, v0, we20, SwvDelta(dir, step), amp, loop)
    decreases iters - loop
  {
    if loop < iters {
      var d := SwvDelta(dir, step);
      var t1 := WithLevels(t, v - amp, v - amp);
      var t2 := WithLevels(t1, v + d + amp, v + d + amp);
      var w := SwvLoop(t, v, we2, dir, step, amp, iters, loop).trace;
      var rest := SwvLoop(t2, v + d, Wrap32(we2 + d), dir, step, amp, iters, loop + 1).trace;
      assert w == [Pulse(t, we2, t1)] + rest by {
        SwvLoopUnfold(t, v, we2, dir, step, amp, iters, loop);
      }
      assert Pulse(t, we2, t1) == SwvPulseAt(base, v0, we20, d, amp, loop) && SwvTraceFrom(rest, base, v0, we20, d, amp, loop + 1) by {
        SwvNextState(base, t, v0, we20, v, we2, dir, step, amp, loop);
        SwvLoopTrace(base, t2, v0, we20, v + d, Wrap32(we2 + d), dir, step, amp, iters, loop + 1);
      }
      SwvTraceCons(w, rest, base, v0, we20, d, amp, loop);
    }
  }

  /** Where the SWV loop ends: the base and V_WE2 moved once per pulse pair, WE3 at the last base plus the amplitude. */
  lemma {:induction false} SwvLoopEnd(base: Sequence, t: Sequence, v0: int, we20: int, v: int, we2: uint32,
                                      dir: byte, step: int, amp: int, iters: int, loop: int)
    requires |base| == SeqLen
    requires t == WithLevels(base, v + amp, v + amp)
    requires v == v0 + loop * SwvDelta(dir, step)
    requires we2 == Wrap32(we20 + loop * SwvDelta(dir, step))
    ensures var w := SwvLoop(t, v, we2, dir, step, amp, iters, loop);
      && w.v == v0 + (loop + |w.trace|) * SwvDelta(dir, step)
      && w.we2 == Wrap32(we20 + (loop + |w.trace|) * SwvDelta(dir, step))
      && w.we3 == WithLevels(base, w.v + amp, w.v + amp)
  {
    SwvLoopLevel(t, v0, we20, v, we2, dir, step, amp, iters, loop);
    SwvLoopWe3(base, t, v, we2, dir, step, amp, iters, loop);
    var w := SwvLoop(t, v, we2, dir, step, amp, iters, loop);
    assert loop + |w.trace| == if loop < iters then iters else loop;
  }

  lemma {:induction false} SwvLoopLevel(t: Sequence, v0: int, we20: int, v: int, we2: uint32,
                                        dir: byte, step: int, amp: int, iters: int, loop: int)
    requires |t| == SeqLen
    requires v == v0 + loop * SwvDelta(dir, step)
    requires we2 == Wrap32(we20 + loop * SwvDelta(dir, step))
    ensures var w := SwvLoop(t, v, we2, dir, step, amp, iters, loop);
      var last := if loop < iters then iters else loop;
      && w.v == v0 + last * SwvDelta(dir, step)
      && w.we2 == Wrap32(we20 + last * SwvDelta(dir, step))
    decreases iters - loop
  {
    if loop < iters {
      var d := SwvDelta(dir, step);
      var t2 := WithLevels(WithLevels(t, v - amp, v - amp), v + d + amp, v + d + amp);
      SwvLoopUnfold(t, v, we2, dir, step, amp, iters, loop);
      SwvNextLevel(v0, we20, v, we2, d, loop);
      SwvLoopLevel(t2, v0, we20, v + d, Wrap32(we2 + d), dir, step, amp, iters, loop + 1);
    }
  }

  /** One move of the base: the level and V_WE2 are one more step from where they started. */
  lemma {:induction false} SwvNextLevel(v0: int, we20: int, v: int, we2: uint32, d: int, loop: int)
    requires v == v0 + loop * d
    requires we2 == Wrap32(we20 + loop * d)
    ensures v + d == v0 + (loop + 1) * d
    ensures Wrap32(we2 + d) == Wrap32(we20 + (loop + 1) * d)
  {
    WrapSummand(d, we20 + loop * d);
    assert (loop + 1) * d == loop * d + d;
  }

  lemma {:induction false} SwvLoopWe3(base: Sequence, t: Sequence, v: int, we2: uint32,
                                      dir: byte, step: int, amp: int, iters: int, loop: int)
    requires |base| == SeqLen
    requires t == WithLevels(base, v + amp, v + amp)
    ensures var w := SwvLoop(t, v, we2, dir, step, amp, iters, loop);
      w.we3 == WithLevels(base, w.v + amp, w.v + amp)
    decreases iters - loop
  {
    if loop < iters {
      var d := SwvDelta(dir, step);
      var t2 := WithLevels(WithLevels(t, v - amp, v - amp), v + d + amp, v + d + amp);
      SwvLoopUnfold(t, v, we2, dir, step, amp, iters, loop);
      WithLevelsTwice(base, v + amp, v + amp, v - amp, v - amp);
      WithLevelsTwice(base, v - amp, v - amp, v + d + amp, v + d + amp);
      SwvLoopWe3(base, t2, v + d, Wrap32(we2 + d), dir, step, amp, iters, loop + 1);
    }
  }

  // ---- the water test (lines 1133..1239)

  /**
    How the WE2 DAC value moves after run `loop` of the water test: for 'n'
    up while `loop <= no_step/2 - 1`, then down; for 'p' the mirror image.
   */
  function WaterDelta(dir: byte, noStep: int, step: int, loop: int): int
  {
    if dir == DirDown then (if loop > Half(noStep) - 1 then -step else step)
    else if dir == DirUp then (if loop > Half(noStep) - 1 then step else -step)
    else 0
  }

  /**
    The net movement of the WE2 DAC value after the first `j` runs, counted:
    for 'n' the runs before `no_step/2` go up and the rest down; 'p' is the
    mirror image.
   */
  function WaterDrift(dir: byte, noStep: int, step: int, j: int): int
  {
    if dir == DirDown then step * (2 * Before(j, Half(noStep)) - Max0(j))
    else if dir == DirUp then step * (Max0(j) - 2 * Before(j, Half(noStep)))
    else 0
  }

  /** The net movement of the WE2 DAC value as the loop accumulates it. */
  function WaterDriftSum(dir: byte, noStep: int, step: int, j: int): int
    decreases j
  {
    if j <= 0 then 0 else WaterDriftSum(dir, noStep, step, j - 1) + WaterDelta(dir, noStep, step, j - 1)
  }

  /** One more run adds that run's movement. */
  lemma {:induction false} WaterDriftStep(dir: byte, noStep: int, step: int, j: int)
    requires 0 <= j
    ensures WaterDrift(dir, noStep, step, j + 1) == WaterDrift(dir, noStep, step, j) + WaterDelta(dir, noStep, step, j)
  {
    var h := Half(noStep);
    if dir == DirDown {
      if j < h {
        assert step * (2 * (j + 1) - (j + 1)) == step * (2 * j - j) + step;
      } else {
        assert step * (2 * Max0(h) - (j + 1)) == step * (2 * Max0(h) - j) - step;
      }
    } else if dir == DirUp {
      if j < h {
        assert step * (j + 1 - 2 * (j + 1)) == step * (j - 2 * j) - step;
      } else {
        assert step * (j + 1 - 2 * Max0(h)) == step * (j - 2 * Max0(h)) + step;
      }
    }
  }

  /** The counted drift is the accumulated one, for every number of runs. */
  lemma {:induction false} WaterDriftIsSum(dir: byte, noStep: int, step: int, j: int)
    ensures WaterDriftSum(dir, noStep, step, j) == WaterDrift(dir, noStep, step, j)
    decreases j
  {
    if j > 0 {
      WaterDriftIsSum(dir, noStep, step, j - 1);
      WaterDriftStep(dir, noStep, step, j - 1);
    }
  }

  /**
    The water loop from iteration `loop` on, over the words `t` of WE3:
    run WE3, write the WE2 DAC value, move it, and write the constant
    `level` to both DAC words of WE3. The `v` of the result is that level.
   */
  function WaterLoop(t: Sequence, level: int, vdac: uint32, dir: byte, step: int, noStep: int, loop: int): (w: Sweep<Step>)
    requires |t| == SeqLen
    ensures |w.we3| == SeqLen && |w.trace| == Max0(noStep + 1 - loop)
    decreases noStep + 1 - loop
  {
    if loop >= noStep + 1 then Sweep(t, level, vdac, [])
    else
      var rest := WaterLoop(WithLevels(t, level, level), level, Wrap32(vdac + WaterDelta(dir, noStep, step, loop)),
                            dir, step, noStep, loop + 1);
      Sweep(rest.we3, rest.v, rest.we2, [Step(t, vdac)] + rest.trace)
  }

  lemma {:induction false} WaterLoopUnfold(t: Sequence, level: int, vdac: uint32, dir: byte, step: int, noStep: int, loop: int)
    requires |t| == SeqLen && loop < noStep + 1
    ensures var rest := WaterLoop(WithLevels(t, level, level), level, Wrap32(vdac + WaterDelta(dir, noStep, step, loop)),
                                  dir, step, noStep, loop + 1);
      WaterLoop(t, level, vdac, dir, step, noStep, loop) == Sweep(rest.we3, rest.v, rest.we2, [Step(t, vdac)] + rest.trace)
  {
  }

  /** Iteration `i` of a water loop, once WE3 holds `level`: the WE2 DAC value has moved by the drift. */
  function WaterStepAt(base: Sequence, level: int, vdac0: int, dir: byte, step: int, noStep: int, i: int): Step
    requires |base| == SeqLen
  {
    Step(WithLevels(base, level, level), Wrap32(vdac0 + WaterDrift(dir, noStep, step, i)))
  }

  predicate WaterTraceFrom(t: seq<Step>, base: Sequence, level: int, vdac0: int, dir: byte, step: int, noStep: int, loop: int)
    requires |base| == SeqLen
  {
    forall j :: 0 <= j < |t| ==> t[j] == WaterStepAt(base, level, vdac0, dir, step, noStep, loop + j)
  }

  lemma {:induction false} WaterTraceCons(t: seq<Step>, rest: seq<Step>, base: Sequence, level: int, vdac0: int, dir: byte, step: int, noStep: int, loop: int)
    requires |base| == SeqLen
    requires t == [WaterStepAt(base, level, vdac0, dir, step, noStep, loop)] + rest
    requires WaterTraceFrom(rest, base, level, vdac0, dir, step, noStep, loop + 1)
    ensures WaterTraceFrom(t, base, level, vdac0, dir, step, noStep, loop)
  {
    forall j | 0 <= j < |t|
      ensures t[j] == WaterStepAt(base, level, vdac0, dir, step, noStep, loop + j)
    {
      if j > 0 {
        assert t[j] == rest[j - 1];
      }
    }
  }

  /** After one water iteration the WE2 DAC value is the start value moved by one more step of drift. */
  lemma {:induction false} WaterNextDac(vdac0: int, vdac: uint32, dir: byte, step: int, noStep: int, loop: int)
    requires 0 <= loop
    requires vdac == Wrap32(vdac0 + WaterDrift(dir, noStep, step, loop))
    ensures Wrap32(vdac + WaterDelta(dir, noStep, step, loop)) == Wrap32(vdac0 + WaterDrift(dir, noStep, step, loop + 1))
  {
    WaterDriftStep(dir, noStep, step, loop);
    WrapSummand(WaterDelta(dir, noStep, step, loop), vdac0 + WaterDrift(dir, noStep, step, loop));
  }

  /**
    Once WE3 holds the water level, every later run applies exactly that
    level in both DAC words, and the WE2 DAC value written after it has moved
    by the drift modulo 2^32.
   */
  lemma {:induction false} WaterLoopTrace(base: Sequence, t: Sequence, level: int, vdac0: int, vdac: uint32,
                                          dir: byte, step: int, noStep: int, loop: int)
    requires |base| == SeqLen && 0 <= loop
    requires t == WithLevels(base, level, level)
    requires vdac == Wrap32(vdac0 + WaterDrift(dir, noStep, step, loop))
    ensures WaterTraceFrom(WaterLoop(t, level, vdac, dir, step, noStep, loop).trace, base, level, vdac0, dir, step, noStep, loop)
    decreases noStep + 1 - loop
  {
    if loop < noStep + 1 {
      var t' := WithLevels(t, level, level);
      var vdac' := Wrap32(vdac + WaterDelta(dir, noStep, step, loop));
      var w := WaterLoop(t, level, vdac, dir, step, noStep, loop).trace;
      var rest := WaterLoop(t', level, vdac', dir, step, noStep, loop + 1).trace;
      assert w == [WaterStepAt(base, level, vdac0, dir, step, noStep, loop)] + rest by {
        WaterLoopUnfold(t, level, vdac, dir, step, noStep, loop);
      }
      assert WaterTraceFrom(rest, base, level, vdac0, dir, step, noStep, loop + 1) by {
        WaterNextDac(vdac0, vdac, dir, step, noStep, loop);
        WithLevelsTwice(base, level, level, level, level);
        WaterLoopTrace(base, t', level, vdac0, vdac', dir, step, noStep, loop + 1);
      }
      WaterTraceCons(w, rest, base, level, vdac0, dir, step, noStep, loop);
    }
  }

  /**
    Iteration `j` of the water loop from its start: the first run applies
    WE3 as found, every later one WE3 with the water level in both DAC
    words; the WE2 DAC value written after run `j` has moved by the drift of
    the first `j` runs.
   */
  lemma {:induction false} WaterLoopStepAt(t: Sequence, level: int, vdac0: uint32, dir: byte, step: int, noStep: int, j: int)
    requires |t| == SeqLen && 0 <= j < noStep + 1
    ensures WaterLoop(t, level, vdac0, dir, step, noStep, 0).trace[j]
      == Step(if j == 0 then t else WithLevels(t, level, level), Wrap32(vdac0 + WaterDrift(dir, noStep, step, j)))
  {
    var t' := WithLevels(t, level, level);
    var vdac' := Wrap32(vdac0 + WaterDelta(dir, noStep, step, 0));
    if j == 0 {
      assert WaterDrift(dir, noStep, step, 0) == 0;
    } else {
      var r := WaterLoop(t', level, vdac', dir, step, noStep, 1).trace;
      WaterNextDac(vdac0, vdac0, dir, step, noStep, 0);
      WaterLoopTrace(t, t', level, vdac0, vdac', dir, step, noStep, 1);
      assert r[j - 1] == WaterStepAt(t, level, vdac0, dir, step, noStep, j);
    }
  }

  /** Once WE3 holds the water level it keeps it to the end of the loop. */
  lemma {:induction false} WaterLoopStore(base: Sequence, t: Sequence, level: int, vdac: uint32,
                                          dir: byte, step: int, noStep: int, loop: int)
    requires |base| == SeqLen
    requires t == WithLevels(base, level, level)
    ensures WaterLoop(t, level, vdac, dir, step, noStep, loop).we3 == WithLevels(base, level, level)
    decreases noStep + 1 - loop
  {
    if loop < noStep + 1 {
      WaterLoopUnfold(t, level, vdac, dir, step, noStep, loop);
      WithLevelsTwice(base, level, level, level, level);
      WaterLoopStore(base, WithLevels(t, level, level), level, Wrap32(vdac + WaterDelta(dir, noStep, step, loop)), dir, step, noStep, loop + 1);
    }
  }

  /** After the water loop WE3 holds the level, when the loop ran at all. */
  lemma {:induction false} WaterLoopEnd(t: Sequence, level: int, vdac0: uint32, dir: byte, step: int, noStep: int)
    requires |t| == SeqLen && noStep >= 0
    ensures WaterLoop(t, level, vdac0, dir, step, noStep, 0).we3 == WithLevels(t, level, level)
  {
    WaterLoopUnfold(t, level, vdac0, dir, step, noStep, 0);
    WaterLoopStore(t, WithLevels(t, level, level), level, Wrap32(vdac0 + WaterDelta(dir, noStep, step, 0)), dir, step, noStep, 1);
  }

  /**
    The 'n' water ramp with `no_step = 2k`: up k steps, then down; after
    `j` runs it has moved `min(j, k) - max(0, j - k)` steps, ending one step
    below where it started.
   */
  lemma {:induction false} WaterDriftDown(noStep: int, step: int, k: int, j: int)
    requires noStep == 2 * k && k >= 0 && 0 <= j <= 2 * k + 1
    ensures WaterDrift(DirDown, noStep, step, j) == step * (Min(j, k) - Max0(j - k))
  {
    assert Half(noStep) == k;
    assert 2 * Before(j, k) - Max0(j) == Min(j, k) - Max0(j - k);
  }
}
